=== FILE: README.md ===
# Game Boy opcode decoder (oni), modelled in Dafny

This project models `Instruction::decode` from the oni Game Boy emulator
(`src/cpu/instruction.rs`). The function reads one opcode byte from a byte
cursor and classifies it with one match over the byte value. It then reads
0, 1 or 2 immediate bytes and builds a value of the `Instruction` sum type.
It fails when the stream ends early, when the byte is the 0xCB prefix, and
when no arm matches. Two arms panic (`unreachable!()`), on three opcodes between them.

The model follows the decoder as written, quirks included:

- 0x12, 0x22 and 0x32 reach `unreachable!()`.
- The destination of 0x78-0x7D is flagged as an address.
- ADD and SUB on a register put the address flag on A.
- 0xE8 and 0xF8 read no offset byte.
- ADC and SBC on a register (0x88-0x8F, 0x98-0x9F) are unknown.
- Words are read high byte first.

Layout, one module per file:

- `outcomes.dfy`, `cpu.dfy`, `unsigned.dfy`, `instruction.dfy`: the data model. `Instruction` has one constructor per variant of the source's enum. `Register` and `Flag` are plain enumerations.
- `cursor.dfy` (ByteCursor): the cursor, `read_u8`, and `read_u16::<BigEndian>`.
- `decoder.dfy` (Decoder): the match, split into `Classify` (opcode → instruction shape and immediate kind), `Fetch` (reads the immediate) and `Decode`.
- `opcode_table.dfy` (OpcodeTable): an independent reference, written as lists of opcodes grouped as the processor's documentation groups them. It gives which opcodes decode, how the others fail, and their immediate lengths. Its register and condition tables are indexed by the 3-bit fields of an opcode, which the group lemmas take as parameters.
- `decoder_facts.dfy`, `decoder_groups.dfy`: the decoder stated against the table, opcode group by opcode group.
- `assembler.dfy` (Assembler) and `assembler_groups.dfy` (AssemblerGroups): the inverse of the decoder. `Encode` gives the bytes of an instruction.
- `roundtrip.dfy`, `inverse.dfy`, `assembled.dfy`: decoding and encoding are inverse, in both directions.
- `streams.dfy` (Streams): the same facts about `Decode` on a byte stream at any position.
- `program.dfy` (Program): decoding one instruction after another from the same cursor, the disassembly loop, and assembly of whole programs; the round trips between them.
- `findings.dfy` (Findings): the two source defects, and the decoder with them corrected.

## Model

| member | source | states |
|---|---|---|
| ByteCursor.ReadU8 | src/cpu/instruction.rs:183 | A byte read succeeds exactly when a byte remains. It yields that byte and advances by one; otherwise it fails as truncated. |
| ByteCursor.ReadU16BigEndian | src/cpu/instruction.rs:247 | A word read succeeds exactly when two bytes remain. The word is the first byte times 256 plus the second, and the cursor advances by two. |
| ByteCursor.ReadU16IsTwoReads | src/cpu/instruction.rs:247 | A word read succeeds exactly when two byte reads do, and yields the word made from those two bytes, first byte high. |
| ByteCursor.FromBigEndian | src/cpu/instruction.rs:247 | The word's high byte is the first byte and its low byte the second. |
| ByteCursor.ToBigEndian | src/cpu/instruction.rs:247 | Splitting a word into bytes and joining them gives the word back. |
| ByteCursor.BigEndianSplitJoin | src/cpu/instruction.rs:247 | Joining two bytes into a word and splitting it gives the bytes back. |
| Decoder.Classify | src/cpu/instruction.rs:185-680 | The opcode match never fails for lack of bytes. No arm reads, and every read is left to Fetch. An arm that reads a word, or a high-page byte, builds a variant with a 16-bit field to hold it. |
| Decoder.Fetch | src/cpu/instruction.rs:183-676 | Reading an arm's immediate succeeds exactly when the bytes it needs remain. It advances by exactly that many bytes, and its only failure is truncation. |
| Decoder.Decode | src/cpu/instruction.rs:182-681 | Decode fails as truncated at the end of the stream. A success stays on the same data and consumes 1 to 3 bytes. |
| DecoderFacts.ClassifyAsTable | src/cpu/instruction.rs:185-680 | For every one of the 256 opcodes, an instruction comes out exactly when the reference table says the opcode is defined. Its immediate has the table's length, and every other opcode gets the error of its class. |
| DecoderFacts.DecodeOutcome | src/cpu/instruction.rs:182-681 | Decode succeeds exactly when the opcode is defined and its 1 + k bytes are present, and then consumes exactly 1 + k bytes. Otherwise it ends in exactly one failure. The failure is truncated iff the opcode is defined but bytes are missing, and extended, unknown or unreachable by the opcode's class. |
| DecoderFacts.FailingOpcodes | src/cpu/instruction.rs:220-679 | 0xCB, and only 0xCB, gives the extended-opcode error. ADC/SBC on a register and the eleven unassigned bytes, and only they, give the unknown-opcode error. 0x12, 0x22 and 0x32, and only they, panic. |
| DecoderFacts.ClassifyQuadrant0Classes | src/cpu/instruction.rs:186-502 | In 0x00-0x3F, an opcode decodes exactly when the table defines it. The others fail with their class's error. The span includes the 0x0A and 0x09 groups at its end, and the 0x40-0x7F block in its middle, which this lemma does not state. |
| DecoderFacts.ClassifyQuadrant3Classes | src/cpu/instruction.rs:193-680 | In 0xC0-0xFF, an opcode decodes exactly when the table defines it. The others fail with their class's error. |
| DecoderGroups.IncrementRegisterGroup | src/cpu/instruction.rs:342-362 | INC r takes its register from bits 5-3. It is flagged as an address exactly at the (HL) slot. |
| DecoderGroups.DecrementRegisterGroup | src/cpu/instruction.rs:364-395 | DEC r takes its register from bits 5-3, over the low-half arm (0x05-0x35) and the high-half arm (0x0D-0x3D). It is flagged as an address exactly at the (HL) slot. The DEC rr arm between the two, at 375-384, is stated by DecoderGroups.PairGroups. |
| DecoderGroups.LoadByteGroup | src/cpu/instruction.rs:397-419 | LD r, n takes its register from bits 5-3, reads one byte, and is flagged exactly at (HL). |
| DecoderGroups.PairGroups | src/cpu/instruction.rs:331-502 | LD rr, nn (reads a word), INC rr, ADD HL, rr and DEC rr take their pair BC, DE, HL, SP from bits 5-4, with no address flag. |
| DecoderGroups.AccumulatorLoadGroup | src/cpu/instruction.rs:471-490 | 0x0A-0x3A load A through BC, DE, HL, HL. The first register is an address, with no update, no update, increment and decrement. |
| DecoderGroups.RelativeJumpGroup | src/cpu/instruction.rs:276-292 | JR NZ/Z/NC/C test Z or CY for zero or one, and read one offset byte. |
| DecoderGroups.RegisterLoadBlock | src/cpu/instruction.rs:432-468 | 0x40-0x7F except 0x76 load the source column into the destination row. The source is flagged exactly at (HL). The destination is flagged at (HL) and, as written, also at 0x78-0x7D. No register is updated. |
| DecoderGroups.HaltOpcode | src/cpu/instruction.rs:191 | 0x76 is HALT. |
| DecoderGroups.RegisterArithmeticBlock | src/cpu/instruction.rs:504-624 | ADD, SUB, AND, XOR, OR and CP on a register take it from bits 2-0 and are flagged exactly at (HL). For ADD and SUB the flag sits on A, the second register. |
| DecoderGroups.ConditionalReturnGroup | src/cpu/instruction.rs:295-300 | RET NZ/Z/NC/C test Z or CY for zero or one. |
| DecoderGroups.ConditionalJumpGroup | src/cpu/instruction.rs:250-266 | JP cc, nn tests the condition from bits 4-3 and reads a word. |
| DecoderGroups.ConditionalCallGroup | src/cpu/instruction.rs:306-322 | CALL cc, nn tests the condition from bits 4-3 and reads a word. |
| DecoderGroups.StackGroups | src/cpu/instruction.rs:630-648 | POP and PUSH take BC, DE, HL, AF from bits 5-4. |
| DecoderGroups.ResetGroup | src/cpu/instruction.rs:193-198 | The eight RST opcodes give the eight distinct locations 0-7. |
| DecoderGroups.ByteArithmeticGroup | src/cpu/instruction.rs:520-627 | The eight ALU-with-immediate opcodes read one byte, in the order ADD, ADC, SUB, SBC, AND, XOR, OR, CP. |
| DecoderGroups.StackPointerOffsetOpcode | src/cpu/instruction.rs:674 | 0xE8 reads no immediate. |
| DecoderGroups.StackPointerOffsetIntoHLOpcode | src/cpu/instruction.rs:676 | 0xF8 reads no immediate. |
| Inverse.DecodedReencodes | src/cpu/instruction.rs:182-681 | Every opcode-plus-immediate that decodes to an instruction is encoded back by the assembler. Canonical spellings come back byte for byte. |
| Assembled.EncodeThenDecode | src/cpu/instruction.rs:13-179 | Every instruction the assembler encodes decodes back to itself, from a canonical encoding. |
| Streams.DecodeReads | src/cpu/instruction.rs:182-681 | When an instruction's bytes stand at the cursor, Decode returns the instruction and leaves the cursor just past them. |
| Streams.DecodeSpells | src/cpu/instruction.rs:182-681 | Whatever Decode returns, the 1 to 3 bytes it consumed form an encoding of that instruction. |
| Streams.DecodeThenEncode | src/cpu/instruction.rs:182-681 | After a successful decode, the assembler encodes the instruction. Unless the input was a non-canonical spelling, it gives back exactly the bytes consumed. |
| Streams.EncodeThenDecode | src/cpu/instruction.rs:182-681 | The assembler's bytes, placed anywhere in any stream, decode to the instruction and consume exactly those bytes. |
| Streams.WordImmediates | src/cpu/instruction.rs:246-669 | Every opcode with a two-byte immediate consumes three bytes. The 16-bit field of the instruction it builds, its word or its address, is the first byte after the opcode times 256 plus the second. |
| Streams.CallExample | src/cpu/instruction.rs:302-304 | 0xCD 0x12 0x34 decodes to CALL 0x1234 and consumes three bytes. |
| Streams.HighPageAddresses | src/cpu/instruction.rs:650-659 | 0xE0 n and 0xF0 n store and load A at an address of at least 0xFF00 whose low byte is n. They consume two bytes. |
| Assembler.OperandSlotsInverse | src/cpu/instruction.rs:433-443 | Each slot of the register column table is found again from its register and address flag. |
| Program.DecodeAll | src/cpu/instruction.rs:182-183 | Decoding successive instructions from one cursor stops at the end of the stream or at a failure, never moves backwards, and yields at most one instruction per byte. It reports no error exactly when it stopped at the end, and otherwise the error that decoding at the stop position gives. A failure at the start stops reading there with no instructions. A success at the start makes the decoded instruction the first of the listing, and reading goes on past it. By induction this makes the stop the first failing position. |
| Program.AssembledProgramDecodes | src/cpu/instruction.rs:182-183 | Decoding the bytes of an assembled program, from any position where they fill the rest of the stream, gives back the program and stops at the end without error. |
| Program.DecodedProgramReassembles | src/cpu/instruction.rs:182-183 | A stream that decodes to its end without error yields a program that can be assembled. When every instruction in it was spelled canonically, assembling gives back the exact bytes. |
| Findings.PointerStoresPanic | src/cpu/instruction.rs:220-244 | As written, the register helpers find no arm for 0x12, 0x22 and 0x32, and those opcodes panic. |
| Findings.PointerStoresIntended | src/cpu/instruction.rs:220-244 | Corrected, LD (rr), A stores A through BC, DE, HL, HL, stepping HL up in row 2 and down in row 3. |
| Findings.LoadFlagMarksAccumulator | src/cpu/instruction.rs:464-465 | As written, 0x78 (LD A, B) flags its destination A as an address. |
| Findings.RegisterLoadIntendedFlags | src/cpu/instruction.rs:432-468 | Corrected, LD r, r' flags each operand exactly when it is the (HL) slot. |
| Findings.ClassifyIntendedOutcome | src/cpu/instruction.rs:220-244 | The corrected decoder never panics. It decodes exactly the opcodes the written one decodes, plus the three pointer stores. |
| Findings.ClassifyIntendedChanges | src/cpu/instruction.rs:220-468 | The corrections change the decoder at 0x12, 0x22, 0x32 and 0x78-0x7D, and nowhere else. |

Two members of module Program have no counterpart in the source and are
not listed above. They serve as partners for the successive-decoding
lemmas. `Program.Assemble` concatenates the assembler's encodings of a
program. `Program.Disassemble` is a loop that decodes from the start of
an image until it ends or a decode fails. Its contract gives the stop
position, and gives the error that decoding there returns. It also equates
the loop with `Program.DecodeAll`.

## Left out

- Decoder.Decode: a failure carries no cursor. In the source, the caller's cursor has already moved one byte past the opcode when the decode fails on 0xCB, on an opcode with no arm, or on an immediate cut short. The model does not say where that cursor stands.
- Program.DecodeAll: `stop` is the position of the failing instruction's opcode. It is not the source cursor's position after the failure, which is one past the opcode for 0xCB and for an opcode with no arm.
- The cursor position after a failed read is not modelled. Only "a read of k bytes fails when fewer than k remain" is; where `std::io::Cursor` leaves its position after a failed `read_exact` is library behaviour.
- The `eyre` messages are not modelled. The two error kinds are distinct constructors, and the unknown-opcode error carries no byte, as in the source.
- `Register` and `Flag` are bare enumerations. Their definitions in `crate::cpu` are not part of this model. `Flag` has only the two values the decoder uses, Z and CY.
- Instruction execution, cycle timing, interrupts, the 0xCB extended table and `#[derive(Debug)]` are left out. The decoder does none of them.
- `unreachable!()` is modelled as the `Unreachable` error, not as a process abort.
- Decoder.Decode: the source reads each immediate inside its match arm. The model splits this into Classify and Fetch, with the same outcome for every byte sequence; the one-call contract on Decode is deliberately coarse, and the exact outcome is stated by DecoderFacts.DecodeOutcome.
- Decoder.Classify: its own contract only excludes truncation; the full per-opcode statement is DecoderFacts.ClassifyAsTable and the DecoderGroups lemmas.
- Inverse.DecodedReencodes: two kinds of input are decoded but not re-encoded byte for byte. STOP's second byte is ignored by the decoder, and 0xEA/0xFA with an address in page 0xFF00 come back as 0xE0/0xF0.
- Program.DecodedProgramReassembles: gives the exact bytes back only for canonically spelled streams, for the reasons under Inverse.DecodedReencodes.
- The immediate of 0xE8 and 0xF8 is not read, following the source. The next byte is left to be decoded as an opcode.

## Findings

| source | as written | input that shows it | evidently intended | confidence | as-written member | corrected member |
|---|---|---|---|---|---|---|
| src/cpu/instruction.rs:220-244 | The register of LD (rr), A is chosen by `opcode & 0b11110000` compared with 0x0-0x3. | 0x12 (masked 0x10) reaches `unreachable!()`, and so do 0x22 and 0x32. | Choose by the row `opcode >> 4`: DE for 0x12, HL+ for 0x22, HL- for 0x32. | high; not executed | Findings.PointerStoresPanic | Findings.PointerStoresIntended |
| src/cpu/instruction.rs:464-465 | The destination is flagged as an address when `opcode >> 4 == 0x7 && opcode & 0xF < 0xE`. | 0x78 (LD A, B) flags A as an address; the same holds for 0x79-0x7D. | Flag the destination exactly in 0x70-0x77, where it is (HL) (`< 0x8`). | medium; not executed | Findings.LoadFlagMarksAccumulator | Findings.RegisterLoadIntendedFlags |

=== FILE: assembled.dfy ===
/** The other direction of the round trip: every instruction the assembler
    has bytes for decodes from those bytes back to itself. One lemma per
    family of instructions follows the assembler's case split and calls the
    round trip of the opcode group it lands in; `EncodeThenDecode` puts the
    families together. */
module Assembled {
  import opened Outcomes
  import opened Cpu
  import opened Unsigned
  import opened Isa
  import opened OpcodeTable
  import opened Assembler
  import opened RoundTrip

  /** `i` has no encoding, or its encoding is canonical and decodes to `i`. */
  predicate RoundTrips(i: Instruction) {
    Encode(i).Some? ==> EncodesAs(i, Encode(i).value)
  }

  // Families whose encoding depends on a register slot. Naming the
  // constructor (`assert i.X?`) lets the solver pick the assembler's case
  // without trying the others.

  lemma LoadByteFamily(n: u8, r: Register, isAddress: bool)
    ensures RoundTrips(LoadOneByteOfDataIntoRegister(n, r, isAddress))
  {
    var y := RegisterSlot(r, isAddress);
    if y.Some? {
      LoadByteRoundTrip(y.value, n);
    }
  }

  lemma LoadWordFamily(w: u16, r: Register)
    ensures RoundTrips(LoadTwoBytesOfDataIntoRegister(w, r))
  {
    var p := PairSlot(r);
    if p.Some? {
      LoadWordRoundTrip(p.value, w);
    }
  }

  lemma LoadFamily(r1: Register, r2: Register, isAddress1: bool, isAddress2: bool,
                   update1: Option<MathOperation>, update2: Option<MathOperation>)
    ensures RoundTrips(LoadValueOfFirstRegisterIntoSecondRegister(r1, r2, isAddress1, isAddress2, update1, update2))
  {
    var i := LoadValueOfFirstRegisterIntoSecondRegister(r1, r2, isAddress1, isAddress2, update1, update2);
    assert i.LoadValueOfFirstRegisterIntoSecondRegister?;
    if r1 == A && r2 == BC && !isAddress1 && isAddress2 && update1.None? && update2.None? {
      StoreThroughBCRoundTrip();
    } else if r2 == A && isAddress1 && !isAddress2 && update2.None? && PointerSlot(r1, update1).Some? {
      AccumulatorLoadRoundTrip(PointerSlot(r1, update1).value);
    } else if update1.None? && update2.None? {
      RegisterLoadFamily(r1, r2, isAddress1, isAddress2);
    }
  }

  /** LD between two 8-bit registers, or a register and the byte HL points at. */
  lemma RegisterLoadFamily(r1: Register, r2: Register, isAddress1: bool, isAddress2: bool)
    requires !(r1 == A && r2 == BC && !isAddress1 && isAddress2)
    requires !(r2 == A && isAddress1 && !isAddress2 && PointerSlot(r1, None).Some?)
    ensures RoundTrips(LoadValueOfFirstRegisterIntoSecondRegister(r1, r2, isAddress1, isAddress2, None, None))
  {
    if RegisterSlot(r1, isAddress1).Some? && DestinationSlot(r2).Some? {
      RegisterLoadSlots(RegisterSlot(r1, isAddress1).value, DestinationSlot(r2).value, isAddress2);
    } else {
      UnslottedLoad(r1, r2, isAddress1, isAddress2);
    }
  }

  lemma RegisterLoadSlots(s: nat, y: nat, isAddress2: bool)
    requires s < 8 && y < 8
    ensures RoundTrips(LoadValueOfFirstRegisterIntoSecondRegister(Operands[s], Operands[y], s == 6, isAddress2, None, None))
  {
    var i := LoadValueOfFirstRegisterIntoSecondRegister(Operands[s], Operands[y], s == 6, isAddress2, None, None);
    assert i.LoadValueOfFirstRegisterIntoSecondRegister?;
    OperandSlotsInverse(s);
    OperandSlotsInverse(y);
    if !(y == 6 && s == 6) && isAddress2 == (y == 6 || (y == 7 && s < 6)) {
      RegisterLoadRoundTrip(y, s);
    }
  }

  /** A load whose source or destination has no register slot has no bytes. */
  lemma UnslottedLoad(r1: Register, r2: Register, isAddress1: bool, isAddress2: bool)
    requires !(r1 == A && r2 == BC && !isAddress1 && isAddress2)
    requires !(r2 == A && isAddress1 && !isAddress2 && PointerSlot(r1, None).Some?)
    requires RegisterSlot(r1, isAddress1).None? || DestinationSlot(r2).None?
    ensures Encode(LoadValueOfFirstRegisterIntoSecondRegister(r1, r2, isAddress1, isAddress2, None, None)).None?
  {
    var i := LoadValueOfFirstRegisterIntoSecondRegister(r1, r2, isAddress1, isAddress2, None, None);
    assert i.LoadValueOfFirstRegisterIntoSecondRegister?;
  }

  lemma IncrementFamily(r: Register, isAddress: bool)
    ensures RoundTrips(IncrementValueInRegister(r, isAddress))
  {
    var i := IncrementValueInRegister(r, isAddress);
    assert i.IncrementValueInRegister?;
    if !isAddress && PairSlot(r).Some? {
      IncrementPairRoundTrip(PairSlot(r).value);
    } else if RegisterSlot(r, isAddress).Some? {
      IncrementRegisterRoundTrip(RegisterSlot(r, isAddress).value);
    }
  }

  lemma DecrementFamily(r: Register, isAddress: bool)
    ensures RoundTrips(DecrementValueInRegister(r, isAddress))
  {
    var i := DecrementValueInRegister(r, isAddress);
    assert i.DecrementValueInRegister?;
    if !isAddress && PairSlot(r).Some? {
      DecrementPairRoundTrip(PairSlot(r).value);
    } else if RegisterSlot(r, isAddress).Some? {
      DecrementRegisterRoundTrip(RegisterSlot(r, isAddress).value);
    }
  }

  lemma AddFamily(r1: Register, r2: Register, isAddress2: bool)
    ensures RoundTrips(AddValueOfSecondRegisterToFirstRegister(r1, r2, isAddress2))
  {
    var i := AddValueOfSecondRegisterToFirstRegister(r1, r2, isAddress2);
    assert i.AddValueOfSecondRegisterToFirstRegister?;
    if r1 == HL && !isAddress2 && PairSlot(r2).Some? {
      AddPairRoundTrip(PairSlot(r2).value);
    } else if r2 == A && RegisterSlot(r1, isAddress2).Some? {
      AddRegisterRoundTrip(RegisterSlot(r1, isAddress2).value);
    }
  }

  lemma SubtractFamily(r1: Register, r2: Register, isAddress2: bool)
    ensures RoundTrips(SubtractValueOfSecondRegisterFromFirstRegister(r1, r2, isAddress2))
  {
    var i := SubtractValueOfSecondRegisterFromFirstRegister(r1, r2, isAddress2);
    assert i.SubtractValueOfSecondRegisterFromFirstRegister?;
    if r2 == A && RegisterSlot(r1, isAddress2).Some? {
      SubtractRegisterRoundTrip(RegisterSlot(r1, isAddress2).value);
    }
  }

  lemma AndFamily(r: Register, isAddress: bool)
    ensures RoundTrips(LogicalAndOnAccumulatorAndRegister(r, isAddress))
  {
    var i := LogicalAndOnAccumulatorAndRegister(r, isAddress);
    assert i.LogicalAndOnAccumulatorAndRegister?;
    if RegisterSlot(r, isAddress).Some? {
      AndRegisterRoundTrip(RegisterSlot(r, isAddress).value);
    }
  }

  lemma XorFamily(r: Register, isAddress: bool)
    ensures RoundTrips(LogicalXorOnAccumulatorAndRegister(r, isAddress))
  {
    var i := LogicalXorOnAccumulatorAndRegister(r, isAddress);
    assert i.LogicalXorOnAccumulatorAndRegister?;
    if RegisterSlot(r, isAddress).Some? {
      XorRegisterRoundTrip(RegisterSlot(r, isAddress).value);
    }
  }

  lemma OrFamily(r: Register, isAddress: bool)
    ensures RoundTrips(LogicalOrOnAccumulatorAndRegister(r, isAddress))
  {
    var i := LogicalOrOnAccumulatorAndRegister(r, isAddress);
    assert i.LogicalOrOnAccumulatorAndRegister?;
    if RegisterSlot(r, isAddress).Some? {
      OrRegisterRoundTrip(RegisterSlot(r, isAddress).value);
    }
  }

  lemma CompareFamily(r: Register, isAddress: bool)
    ensures RoundTrips(CompareAccumulatorAndRegister(r, isAddress))
  {
    var i := CompareAccumulatorAndRegister(r, isAddress);
    assert i.CompareAccumulatorAndRegister?;
    if RegisterSlot(r, isAddress).Some? {
      CompareRegisterRoundTrip(RegisterSlot(r, isAddress).value);
    }
  }

  lemma PushFamily(r: Register)
    ensures RoundTrips(PushValueOfRegisterOntoStack(r))
  {
    var i := PushValueOfRegisterOntoStack(r);
    assert i.PushValueOfRegisterOntoStack?;
    if StackSlot(r).Some? {
      PushRoundTrip(StackSlot(r).value);
    }
  }

  lemma PopFamily(r: Register)
    ensures RoundTrips(PopValueFromStackIntoRegister(r))
  {
    var i := PopValueFromStackIntoRegister(r);
    assert i.PopValueFromStackIntoRegister?;
    if StackSlot(r).Some? {
      PopRoundTrip(StackSlot(r).value);
    }
  }

  lemma ResetFamily(t: u8)
    ensures RoundTrips(Reset(t))
  {
    if t < 8 {
      ResetRoundTrip(t as nat);
    }
  }

  // The loads and stores of A at an absolute address take the one-byte
  // form in page 0xFF00.

  lemma StoreAccumulatorFamily(w: u16)
    ensures RoundTrips(StoreAccumulatorInMemory(w))
  {
    if w >= 0xFF00 {
      HighPageStoreRoundTrip(w - 0xFF00);
    } else {
      AccumulatorStoreRoundTrip(w);
    }
  }

  lemma LoadAccumulatorFamily(w: u16)
    ensures RoundTrips(LoadAccumulatorFromMemory(w))
  {
    if w >= 0xFF00 {
      HighPageLoadRoundTrip(w - 0xFF00);
    } else {
      AccumulatorLoadFromMemoryRoundTrip(w);
    }
  }

  // Families that exist only for one register: A, or HL for JP.

  lemma RotateLeftFamily(r: Register)
    ensures RoundTrips(RotateContentOfRegisterToLeft(r))
  {
    var i := RotateContentOfRegisterToLeft(r);
    assert i.RotateContentOfRegisterToLeft?;
    if r == A {
      RotateLeftRoundTrip();
    }
  }

  lemma RotateLeftThroughCarryFamily(r: Register)
    ensures RoundTrips(RotateContentOfRegisterToLeftThroughCarryFlag(r))
  {
    var i := RotateContentOfRegisterToLeftThroughCarryFlag(r);
    assert i.RotateContentOfRegisterToLeftThroughCarryFlag?;
    if r == A {
      RotateLeftThroughCarryRoundTrip();
    }
  }

  lemma RotateRightFamily(r: Register)
    ensures RoundTrips(RotateContentOfRegisterToRight(r))
  {
    var i := RotateContentOfRegisterToRight(r);
    assert i.RotateContentOfRegisterToRight?;
    if r == A {
      RotateRightRoundTrip();
    }
  }

  lemma RotateRightThroughCarryFamily(r: Register)
    ensures RoundTrips(RotateContentOfRegisterToRightThroughCarryFlag(r))
  {
    var i := RotateContentOfRegisterToRightThroughCarryFlag(r);
    assert i.RotateContentOfRegisterToRightThroughCarryFlag?;
    if r == A {
      RotateRightThroughCarryRoundTrip();
    }
  }

  lemma ComplementFamily(r: Register)
    ensures RoundTrips(Not(r))
  {
    var i := Not(r);
    assert i.Not?;
    if r == A {
      ComplementRoundTrip();
    }
  }

  lemma JumpToRegisterFamily(r: Register)
    ensures RoundTrips(AbsoluteJumpToAddressInRegister(r))
  {
    var i := AbsoluteJumpToAddressInRegister(r);
    assert i.AbsoluteJumpToAddressInRegister?;
    if r == HL {
      JumpToHLRoundTrip();
    }
  }

  // The instructions in five groups, to keep each proof small.

  /** NOP, STOP, HALT, RST, INC, DEC and the LD forms. */
  predicate InControlGroup(i: Instruction) {
    i.NoOperation? || i.Stop? || i.Halt? || i.Reset? || i.LoadOneByteOfDataIntoRegister? ||
    i.LoadTwoBytesOfDataIntoRegister? || i.LoadValueOfFirstRegisterIntoSecondRegister? ||
    i.IncrementValueInRegister? || i.DecrementValueInRegister?
  }

  /** JP, JR, RET, RETI and CALL, with and without a condition. */
  predicate InJumpGroup(i: Instruction) {
    i.AbsoluteJump? || i.AbsoluteJumpIfFlagIsZero? || i.AbsoluteJumpIfFlagIsOne? ||
    i.AbsoluteJumpToAddressInRegister? || i.RelativeJump? || i.RelativeJumpIfFlagIsZero? ||
    i.RelativeJumpIfFlagIsOne? || i.Return? || i.ReturnIfFlagIsZero? || i.ReturnIfFlagIsOne? ||
    i.ReturnAfterInterrupt? || i.Call? || i.CallIfFlagIsZero? || i.CallIfFlagIsOne?
  }

  /** The rotates of A, CPL, SCF, CCF, DAA, ADD, ADC, SUB and SBC. */
  predicate InAccumulatorGroup(i: Instruction) {
    i.RotateContentOfRegisterToLeft? || i.RotateContentOfRegisterToLeftThroughCarryFlag? ||
    i.RotateContentOfRegisterToRight? || i.RotateContentOfRegisterToRightThroughCarryFlag? ||
    i.Not? || i.SetCarryFlag? || i.NotCarryFlag? || i.AdjustAccumulatorToBCDNumber? ||
    i.AddValueOfSecondRegisterToFirstRegister? || i.AddOneByteToAccumulator? ||
    i.AddOneByteAndCarryFlagToAccumulator? ||
    i.SubtractValueOfSecondRegisterFromFirstRegister? || i.SubtractOneByteFromAccumulator? ||
    i.SubtractOneByteAndCarryFlagFromAccumulator?
  }

  /** AND, OR, XOR and CP, with a register or a byte. */
  predicate InLogicGroup(i: Instruction) {
    i.LogicalAndOnAccumulatorAndRegister? || i.LogicalAndOnAccumulatorAndOneByte? ||
    i.LogicalOrOnAccumulatorAndRegister? || i.LogicalOrOnAccumulatorAndOneByte? ||
    i.LogicalXorOnAccumulatorAndRegister? || i.LogicalXorOnAccumulatorAndOneByte? ||
    i.CompareAccumulatorAndRegister? || i.CompareAccumulatorAndOneByte?
  }

  /** PUSH, POP, DI, EI, and the loads and stores through memory and SP. */
  predicate InMemoryGroup(i: Instruction) {
    i.PushValueOfRegisterOntoStack? || i.PopValueFromStackIntoRegister? ||
    i.ResetInterruptMasterEnableFlag? || i.SetInterruptMasterEnableFlag? ||
    i.StoreAccumulatorInMemory? || i.LoadAccumulatorFromMemory? ||
    i.StoreAccumulatorInMemorySpecifiedByRegisterC? ||
    i.LoadAccumulatorFromMemorySpecifiedByRegisterC? || i.StoreStackPointerInMemory? ||
    i.StoreContentOfRegisterHLInStackPointer? || i.AddValueToStackPointer? ||
    i.AddValueToStackPointerAndStoreResultInRegisterHL?
  }

  /** Every instruction the assembler has bytes for comes back from them:
      the bytes are the canonical spelling, and they decode to it. */
  lemma EncodeThenDecode(i: Instruction)
    ensures RoundTrips(i)
  {
    if InControlGroup(i) {
      ControlRoundTrips(i);
    } else if InJumpGroup(i) {
      JumpRoundTrips(i);
    } else if InAccumulatorGroup(i) {
      AccumulatorRoundTrips(i);
    } else if InLogicGroup(i) {
      LogicRoundTrips(i);
    } else {
      MemoryRoundTrips(i);
    }
  }

  lemma ControlRoundTrips(i: Instruction)
    requires InControlGroup(i)
    ensures RoundTrips(i)
  {
    match i
    case NoOperation => NoOperationRoundTrip();
    case Stop => StopRoundTrip();
    case Halt => HaltRoundTrip();
    case Reset(t) => ResetFamily(t);
    case LoadOneByteOfDataIntoRegister(n, r, isAddress) => LoadByteFamily(n, r, isAddress);
    case LoadTwoBytesOfDataIntoRegister(w, r) => LoadWordFamily(w, r);
    case LoadValueOfFirstRegisterIntoSecondRegister(r1, r2, isAddress1, isAddress2, update1, update2) =>
      LoadFamily(r1, r2, isAddress1, isAddress2, update1, update2);
    case IncrementValueInRegister(r, isAddress) => IncrementFamily(r, isAddress);
    case DecrementValueInRegister(r, isAddress) => DecrementFamily(r, isAddress);
    case _ => assert false;
  }

  lemma JumpRoundTrips(i: Instruction)
    requires InJumpGroup(i)
    ensures RoundTrips(i)
  {
    match i
    case AbsoluteJump(w) => AbsoluteJumpRoundTrip(w);
    case AbsoluteJumpIfFlagIsZero(flag, w) => ConditionalJumpIfZeroRoundTrip(flag, w);
    case AbsoluteJumpIfFlagIsOne(flag, w) => ConditionalJumpIfOneRoundTrip(flag, w);
    case AbsoluteJumpToAddressInRegister(r) => JumpToRegisterFamily(r);
    case RelativeJump(e) => RelativeJumpRoundTrip(e);
    case RelativeJumpIfFlagIsZero(flag, e) => ConditionalRelativeJumpIfZeroRoundTrip(flag, e);
    case RelativeJumpIfFlagIsOne(flag, e) => ConditionalRelativeJumpIfOneRoundTrip(flag, e);
    case Return => ReturnRoundTrip();
    case ReturnIfFlagIsZero(flag) => ConditionalReturnIfZeroRoundTrip(flag);
    case ReturnIfFlagIsOne(flag) => ConditionalReturnIfOneRoundTrip(flag);
    case ReturnAfterInterrupt => ReturnAfterInterruptRoundTrip();
    case Call(w) => CallRoundTrip(w);
    case CallIfFlagIsZero(flag, w) => ConditionalCallIfZeroRoundTrip(flag, w);
    case CallIfFlagIsOne(flag, w) => ConditionalCallIfOneRoundTrip(flag, w);
    case _ => assert false;
  }

  lemma AccumulatorRoundTrips(i: Instruction)
    requires InAccumulatorGroup(i)
    ensures RoundTrips(i)
  {
    match i
    case RotateContentOfRegisterToLeft(r) => RotateLeftFamily(r);
    case RotateContentOfRegisterToLeftThroughCarryFlag(r) => RotateLeftThroughCarryFamily(r);
    case RotateContentOfRegisterToRight(r) => RotateRightFamily(r);
    case RotateContentOfRegisterToRightThroughCarryFlag(r) => RotateRightThroughCarryFamily(r);
    case Not(r) => ComplementFamily(r);
    case SetCarryFlag => SetCarryRoundTrip();
    case NotCarryFlag => ComplementCarryRoundTrip();
    case AdjustAccumulatorToBCDNumber => DecimalAdjustRoundTrip();
    case AddValueOfSecondRegisterToFirstRegister(r1, r2, isAddress2) => AddFamily(r1, r2, isAddress2);
    case AddOneByteToAccumulator(n) => AddByteRoundTrip(n);
    case AddOneByteAndCarryFlagToAccumulator(n) => AddByteWithCarryRoundTrip(n);
    case SubtractValueOfSecondRegisterFromFirstRegister(r1, r2, isAddress2) => SubtractFamily(r1, r2, isAddress2);
    case SubtractOneByteFromAccumulator(n) => SubtractByteRoundTrip(n);
    case SubtractOneByteAndCarryFlagFromAccumulator(n) => SubtractByteWithCarryRoundTrip(n);
    case _ => assert false;
  }

  lemma LogicRoundTrips(i: Instruction)
    requires InLogicGroup(i)
    ensures RoundTrips(i)
  {
    match i
    case LogicalAndOnAccumulatorAndRegister(r, isAddress) => AndFamily(r, isAddress);
    case LogicalAndOnAccumulatorAndOneByte(n) => AndByteRoundTrip(n);
    case LogicalOrOnAccumulatorAndRegister(r, isAddress) => OrFamily(r, isAddress);
    case LogicalOrOnAccumulatorAndOneByte(n) => OrByteRoundTrip(n);
    case LogicalXorOnAccumulatorAndRegister(r, isAddress) => XorFamily(r, isAddress);
    case LogicalXorOnAccumulatorAndOneByte(n) => XorByteRoundTrip(n);
    case CompareAccumulatorAndRegister(r, isAddress) => CompareFamily(r, isAddress);
    case CompareAccumulatorAndOneByte(n) => CompareByteRoundTrip(n);
    case _ => assert false;
  }

  lemma MemoryRoundTrips(i: Instruction)
    requires InMemoryGroup(i)
    ensures RoundTrips(i)
  {
    match i
    case PushValueOfRegisterOntoStack(r) => PushFamily(r);
    case PopValueFromStackIntoRegister(r) => PopFamily(r);
    case ResetInterruptMasterEnableFlag => DisableInterruptsRoundTrip();
    case SetInterruptMasterEnableFlag => EnableInterruptsRoundTrip();
    case StoreAccumulatorInMemory(w) => StoreAccumulatorFamily(w);
    case LoadAccumulatorFromMemory(w) => LoadAccumulatorFamily(w);
    case StoreAccumulatorInMemorySpecifiedByRegisterC => StoreThroughCRoundTrip();
    case LoadAccumulatorFromMemorySpecifiedByRegisterC => LoadThroughCRoundTrip();
    case StoreStackPointerInMemory(w) => StoreStackPointerRoundTrip(w);
    case StoreContentOfRegisterHLInStackPointer => HLIntoStackPointerRoundTrip();
    case AddValueToStackPointer => StackPointerOffsetRoundTrip();
    case AddValueToStackPointerAndStoreResultInRegisterHL => StackPointerOffsetIntoHLRoundTrip();
    case _ => assert false;
  }
}

=== FILE: assembler.dfy ===
/** The inverse of the decoder: the bytes that decode to a given
    instruction, written from the processor's opcode map in 3-bit fields.
    Its domain is exactly the set of instructions the decoder produces, as
    the decoder is written: an instruction the decoder never builds (LD
    (DE), A, which panics; INC A with an address flag; a rotate of B)
    has no encoding. */
module Assembler {
  import opened Outcomes
  import opened Cpu
  import opened Unsigned
  import opened ByteCursor
  import opened Isa
  import opened OpcodeTable

  /** The slot of the register table that names `r` with the given address
      flag: slot 6 is the byte HL points at, so HL is found there only as
      an address, and no other register is ever an address. */
  function RegisterSlot(r: Register, isAddress: bool): (y: Option<nat>)
    ensures y.Some? ==> y.value < 8 && Operands[y.value] == r && (y.value == 6 <==> isAddress)
    ensures y.None? ==> forall k | 0 <= k < 8 :: !(Operands[k] == r && (k == 6 <==> isAddress))
  {
    if isAddress then (if r == HL then Some(6) else None)
    else match r
      case B => Some(0)
      case C => Some(1)
      case D => Some(2)
      case E => Some(3)
      case H => Some(4)
      case L => Some(5)
      case A => Some(7)
      case _ => None
  }

  /** The slot of the register table that names `r`, whatever its flag. */
  function DestinationSlot(r: Register): (y: Option<nat>)
    ensures y.Some? ==> y.value < 8 && Operands[y.value] == r
    ensures y.None? ==> forall k | 0 <= k < 8 :: Operands[k] != r
  {
    if r == HL then Some(6) else RegisterSlot(r, false)
  }

  /** The slot of the pair table that names `r`. */
  function PairSlot(r: Register): (p: Option<nat>)
    ensures p.Some? ==> p.value < 4 && Pairs[p.value] == r
    ensures p.None? ==> forall k | 0 <= k < 4 :: Pairs[k] != r
  {
    match r
    case BC => Some(0)
    case DE => Some(1)
    case HL => Some(2)
    case SP => Some(3)
    case _ => None
  }

  /** The slot of the PUSH/POP table that names `r`. */
  function StackSlot(r: Register): (p: Option<nat>)
    ensures p.Some? ==> p.value < 4 && StackPairs[p.value] == r
    ensures p.None? ==> forall k | 0 <= k < 4 :: StackPairs[k] != r
  {
    match r
    case BC => Some(0)
    case DE => Some(1)
    case HL => Some(2)
    case AF => Some(3)
    case _ => None
  }

  /** The slot of the accumulator-load table that names pointer `r` with
      update `update`. */
  function PointerSlot(r: Register, update: Option<MathOperation>): (p: Option<nat>)
    ensures p.Some? ==> p.value < 4 && Pointers[p.value] == r && PointerUpdates[p.value] == update
    ensures p.None? ==> forall k | 0 <= k < 4 :: !(Pointers[k] == r && PointerUpdates[k] == update)
  {
    match (r, update)
    case (BC, None) => Some(0)
    case (DE, None) => Some(1)
    case (HL, Some(Increment)) => Some(2)
    case (HL, Some(Decrement)) => Some(3)
    case _ => None
  }

  /** The condition `cc` that tests `flag` for the value `isOne`; every
      flag and value has one. */
  function ConditionSlot(flag: Flag, isOne: bool): (cc: nat)
    ensures cc < 4 && ConditionFlags[cc] == flag && ConditionValues[cc] == isOne
  {
    (if flag == Z then 0 else 2) + (if isOne then 1 else 0)
  }

  /** An opcode and the immediate bytes that follow it. */
  datatype Encoding =
    | One(op: u8)
    | Two(op: u8, byte: u8)
    | Three(op: u8, high: u8, low: u8)
  {
    /** The bytes in the order they are stored. */
    function Bytes(): (bytes: seq<u8>)
      ensures 1 <= |bytes| <= 3 && bytes[0] == op
    {
      match this
      case One(op) => [op]
      case Two(op, byte) => [op, byte]
      case Three(op, high, low) => [op, high, low]
    }
  }

  /** An opcode followed by a word, high byte first. */
  function WithWordBytes(op: u8, w: u16): Encoding {
    Three(op, ToBigEndian(w).0, ToBigEndian(w).1)
  }

  /** LD between registers and memory. The destination address flag of the
      0x40-0x7F block follows the decoder as written: set at slot 6, and
      also when the destination is A and the source is B, C, D, E, H or L. */
  function EncodeLoad(r1: Register, r2: Register, isAddress1: bool, isAddress2: bool,
                      update1: Option<MathOperation>, update2: Option<MathOperation>): Option<Encoding>
  {
    if r1 == A && r2 == BC && !isAddress1 && isAddress2 && update1.None? && update2.None? then Some(One(0x02))
    else if r2 == A && isAddress1 && !isAddress2 && update2.None? && PointerSlot(r1, update1).Some? then
      Some(One(0x0A + 16 * PointerSlot(r1, update1).value))
    else if update1.None? && update2.None? then
      var s :- RegisterSlot(r1, isAddress1);
      var y :- DestinationSlot(r2);
      if !(y == 6 && s == 6) && isAddress2 == (y == 6 || (y == 7 && s < 6)) then Some(One(0x40 + 8 * y + s))
      else None
    else None
  }

  /** INC and DEC: a pair when there is no address flag and the register is
      a pair, else an 8-bit register slot. */
  function EncodeStep(r: Register, isAddress: bool, pairBase: u8, registerBase: u8): Option<Encoding>
    requires pairBase <= 0x0B && registerBase <= 0x05
  {
    if !isAddress && PairSlot(r).Some? then Some(One(pairBase + 16 * PairSlot(r).value))
    else
      var y :- RegisterSlot(r, isAddress);
      Some(One(registerBase + 8 * y))
  }

  /** An operation on A and a register slot (`10 yyy sss`). */
  function EncodeRegisterArithmetic(r: Register, isAddress: bool, base: u8): Option<Encoding>
    requires base <= 0xB8
  {
    var s :- RegisterSlot(r, isAddress);
    Some(One(base + s))
  }

  function EncodeAccumulator(r: Register, op: u8): Option<Encoding> {
    if r == A then Some(One(op)) else None
  }

  /** The bytes of `i`, or None when the decoder never produces `i`. */
  function Encode(i: Instruction): Option<Encoding>
  {
    match i
    case NoOperation => Some(One(0x00))
    case Stop => Some(Two(0x10, 0x00))
    case Halt => Some(One(0x76))
    case Reset(t) => if t < 8 then Some(One(0xC7 + 8 * t)) else None
    case LoadOneByteOfDataIntoRegister(n, r, isAddress) =>
      var y :- RegisterSlot(r, isAddress);
      Some(Two(0x06 + 8 * y, n))
    case LoadTwoBytesOfDataIntoRegister(w, r) =>
      var p :- PairSlot(r);
      Some(WithWordBytes(0x01 + 16 * p, w))
    case LoadValueOfFirstRegisterIntoSecondRegister(r1, r2, isAddress1, isAddress2, update1, update2) =>
      EncodeLoad(r1, r2, isAddress1, isAddress2, update1, update2)
    case IncrementValueInRegister(r, isAddress) => EncodeStep(r, isAddress, 0x03, 0x04)
    case DecrementValueInRegister(r, isAddress) => EncodeStep(r, isAddress, 0x0B, 0x05)
    case AbsoluteJump(w) => Some(WithWordBytes(0xC3, w))
    case AbsoluteJumpIfFlagIsZero(flag, w) => Some(WithWordBytes(0xC2 + 8 * ConditionSlot(flag, false), w))
    case AbsoluteJumpIfFlagIsOne(flag, w) => Some(WithWordBytes(0xC2 + 8 * ConditionSlot(flag, true), w))
    case AbsoluteJumpToAddressInRegister(r) => if r == HL then Some(One(0xE9)) else None
    case RelativeJump(e) => Some(Two(0x18, e))
    case RelativeJumpIfFlagIsZero(flag, e) => Some(Two(0x20 + 8 * ConditionSlot(flag, false), e))
    case RelativeJumpIfFlagIsOne(flag, e) => Some(Two(0x20 + 8 * ConditionSlot(flag, true), e))
    case Return => Some(One(0xC9))
    case ReturnIfFlagIsZero(flag) => Some(One(0xC0 + 8 * ConditionSlot(flag, false)))
    case ReturnIfFlagIsOne(flag) => Some(One(0xC0 + 8 * ConditionSlot(flag, true)))
    case ReturnAfterInterrupt => Some(One(0xD9))
    case Call(w) => Some(WithWordBytes(0xCD, w))
    case CallIfFlagIsZero(flag, w) => Some(WithWordBytes(0xC4 + 8 * ConditionSlot(flag, false), w))
    case CallIfFlagIsOne(flag, w) => Some(WithWordBytes(0xC4 + 8 * ConditionSlot(flag, true), w))
    case RotateContentOfRegisterToLeft(r) => EncodeAccumulator(r, 0x07)
    case RotateContentOfRegisterToLeftThroughCarryFlag(r) => EncodeAccumulator(r, 0x17)
    case RotateContentOfRegisterToRight(r) => EncodeAccumulator(r, 0x0F)
    case RotateContentOfRegisterToRightThroughCarryFlag(r) => EncodeAccumulator(r, 0x1F)
    case Not(r) => EncodeAccumulator(r, 0x2F)
    case SetCarryFlag => Some(One(0x37))
    case NotCarryFlag => Some(One(0x3F))
    case AdjustAccumulatorToBCDNumber => Some(One(0x27))
    case AddValueOfSecondRegisterToFirstRegister(r1, r2, isAddress2) =>
      if r1 == HL && !isAddress2 && PairSlot(r2).Some? then Some(One(0x09 + 16 * PairSlot(r2).value))
      else if r2 == A then EncodeRegisterArithmetic(r1, isAddress2, 0x80)
      else None
    case AddOneByteToAccumulator(n) => Some(Two(0xC6, n))
    case AddOneByteAndCarryFlagToAccumulator(n) => Some(Two(0xCE, n))
    case SubtractValueOfSecondRegisterFromFirstRegister(r1, r2, isAddress2) =>
      if r2 == A then EncodeRegisterArithmetic(r1, isAddress2, 0x90) else None
    case SubtractOneByteFromAccumulator(n) => Some(Two(0xD6, n))
    case SubtractOneByteAndCarryFlagFromAccumulator(n) => Some(Two(0xDE, n))
    case LogicalAndOnAccumulatorAndRegister(r, isAddress) => EncodeRegisterArithmetic(r, isAddress, 0xA0)
    case LogicalAndOnAccumulatorAndOneByte(n) => Some(Two(0xE6, n))
    case LogicalOrOnAccumulatorAndRegister(r, isAddress) => EncodeRegisterArithmetic(r, isAddress, 0xB0)
    case LogicalOrOnAccumulatorAndOneByte(n) => Some(Two(0xF6, n))
    case LogicalXorOnAccumulatorAndRegister(r, isAddress) => EncodeRegisterArithmetic(r, isAddress, 0xA8)
    case LogicalXorOnAccumulatorAndOneByte(n) => Some(Two(0xEE, n))
    case CompareAccumulatorAndRegister(r, isAddress) => EncodeRegisterArithmetic(r, isAddress, 0xB8)
    case CompareAccumulatorAndOneByte(n) => Some(Two(0xFE, n))
    case PushValueOfRegisterOntoStack(r) =>
      var p :- StackSlot(r);
      Some(One(0xC5 + 16 * p))
    case PopValueFromStackIntoRegister(r) =>
      var p :- StackSlot(r);
      Some(One(0xC1 + 16 * p))
    case ResetInterruptMasterEnableFlag => Some(One(0xF3))
    case SetInterruptMasterEnableFlag => Some(One(0xFB))
    // an address in page 0xFF00 takes the one-byte form
    case StoreAccumulatorInMemory(w) =>
      if w >= 0xFF00 then Some(Two(0xE0, w - 0xFF00)) else Some(WithWordBytes(0xEA, w))
    case LoadAccumulatorFromMemory(w) =>
      if w >= 0xFF00 then Some(Two(0xF0, w - 0xFF00)) else Some(WithWordBytes(0xFA, w))
    case StoreAccumulatorInMemorySpecifiedByRegisterC => Some(One(0xE2))
    case LoadAccumulatorFromMemorySpecifiedByRegisterC => Some(One(0xF2))
    case StoreStackPointerInMemory(w) => Some(WithWordBytes(0x08, w))
    case StoreContentOfRegisterHLInStackPointer => Some(One(0xF9))
    case AddValueToStackPointer => Some(One(0xE8))
    case AddValueToStackPointerAndStoreResultInRegisterHL => Some(One(0xF8))
  }

  // The slot functions invert the tables of the opcode map.

  /** Each slot of the register table is found again from its register. */
  lemma OperandSlotsInverse(y: nat)
    requires y < 8
    ensures RegisterSlot(Operands[y], y == 6) == Some(y)
    ensures DestinationSlot(Operands[y]) == Some(y)
    ensures PairSlot(Operands[y]).Some? <==> y == 6
    ensures PointerSlot(Operands[y], None).None?
  {
  }

  /** Each slot of the pair tables is found again from its pair. */
  lemma PairSlotsInverse(p: nat)
    requires p < 4
    ensures PairSlot(Pairs[p]) == Some(p)
    ensures StackSlot(StackPairs[p]) == Some(p)
    ensures PointerSlot(Pointers[p], PointerUpdates[p]) == Some(p)
    ensures RegisterSlot(Pairs[p], false).None?
  {
  }

  /** Each condition is found again from its flag and value. */
  lemma ConditionSlotsInverse(cc: nat)
    requires cc < 4
    ensures ConditionSlot(ConditionFlags[cc], ConditionValues[cc]) == cc
  {
  }
}

=== FILE: assembler_groups.dfy ===
/** What the assembler writes for each group of instructions, stated per
    group so that each fact is proved on its own. The fields are the
    decoder's: `y` and `s` index the register operands, `p` the pairs. */
module AssemblerGroups {
  import opened Outcomes
  import opened Cpu
  import opened Unsigned
  import opened Isa
  import opened OpcodeTable
  import opened Assembler

  lemma IncrementRegisterEncoding(y: nat)
    requires y < 8
    ensures Encode(IncrementValueInRegister(Operands[y], y == 6)) == Some(One(0x04 + 8 * y))
  {
    OperandSlotsInverse(y);
  }

  lemma DecrementRegisterEncoding(y: nat)
    requires y < 8
    ensures Encode(DecrementValueInRegister(Operands[y], y == 6)) == Some(One(0x05 + 8 * y))
  {
    OperandSlotsInverse(y);
  }

  lemma LoadByteEncoding(y: nat, n: u8)
    requires y < 8
    ensures Encode(LoadOneByteOfDataIntoRegister(n, Operands[y], y == 6)) == Some(Two(0x06 + 8 * y, n))
  {
    OperandSlotsInverse(y);
  }

  lemma LoadWordEncoding(p: nat, w: u16)
    requires p < 4
    ensures Encode(LoadTwoBytesOfDataIntoRegister(w, Pairs[p])) == Some(WithWordBytes(0x01 + 16 * p, w))
  {
    PairSlotsInverse(p);
  }

  lemma IncrementPairEncoding(p: nat)
    requires p < 4
    ensures Encode(IncrementValueInRegister(Pairs[p], false)) == Some(One(0x03 + 16 * p))
  {
    PairSlotsInverse(p);
  }

  lemma DecrementPairEncoding(p: nat)
    requires p < 4
    ensures Encode(DecrementValueInRegister(Pairs[p], false)) == Some(One(0x0B + 16 * p))
  {
    PairSlotsInverse(p);
  }

  lemma AddPairEncoding(p: nat)
    requires p < 4
    ensures Encode(AddValueOfSecondRegisterToFirstRegister(HL, Pairs[p], false)) == Some(One(0x09 + 16 * p))
  {
    PairSlotsInverse(p);
  }

  lemma AccumulatorLoadEncoding(p: nat)
    requires p < 4
    ensures Encode(LoadValueOfFirstRegisterIntoSecondRegister(Pointers[p], A, true, false, PointerUpdates[p], None)) == Some(One(0x0A + 16 * p))
  {
    PairSlotsInverse(p);
  }

  lemma PopEncoding(p: nat)
    requires p < 4
    ensures Encode(PopValueFromStackIntoRegister(StackPairs[p])) == Some(One(0xC1 + 16 * p))
  {
    PairSlotsInverse(p);
  }

  lemma PushEncoding(p: nat)
    requires p < 4
    ensures Encode(PushValueOfRegisterOntoStack(StackPairs[p])) == Some(One(0xC5 + 16 * p))
  {
    PairSlotsInverse(p);
  }

  lemma RegisterLoadEncoding(y: nat, s: nat)
    requires y < 8 && s < 8 && !(y == 6 && s == 6)
    ensures Encode(LoadValueOfFirstRegisterIntoSecondRegister( Operands[s], Operands[y], s == 6, y == 6 || (y == 7 && s < 6), None, None)) == Some(One(0x40 + 8 * y + s))
  {
    OperandSlotsInverse(y);
    OperandSlotsInverse(s);
  }

  lemma AddRegisterEncoding(s: nat)
    requires s < 8
    ensures Encode(AddValueOfSecondRegisterToFirstRegister(Operands[s], A, s == 6)) == Some(One(0x80 + s))
  {
    OperandSlotsInverse(s);
  }

  lemma SubtractRegisterEncoding(s: nat)
    requires s < 8
    ensures Encode(SubtractValueOfSecondRegisterFromFirstRegister(Operands[s], A, s == 6)) == Some(One(0x90 + s))
  {
    OperandSlotsInverse(s);
  }

  lemma AndRegisterEncoding(s: nat)
    requires s < 8
    ensures Encode(LogicalAndOnAccumulatorAndRegister(Operands[s], s == 6)) == Some(One(0xA0 + s))
  {
    OperandSlotsInverse(s);
  }

  lemma XorRegisterEncoding(s: nat)
    requires s < 8
    ensures Encode(LogicalXorOnAccumulatorAndRegister(Operands[s], s == 6)) == Some(One(0xA8 + s))
  {
    OperandSlotsInverse(s);
  }

  lemma OrRegisterEncoding(s: nat)
    requires s < 8
    ensures Encode(LogicalOrOnAccumulatorAndRegister(Operands[s], s == 6)) == Some(One(0xB0 + s))
  {
    OperandSlotsInverse(s);
  }

  lemma CompareRegisterEncoding(s: nat)
    requires s < 8
    ensures Encode(CompareAccumulatorAndRegister(Operands[s], s == 6)) == Some(One(0xB8 + s))
  {
    OperandSlotsInverse(s);
  }

  lemma ConditionalJumpIfZeroEncoding(flag: Flag, w: u16)
    ensures Encode(AbsoluteJumpIfFlagIsZero(flag, w)) == Some(WithWordBytes(0xC2 + 8 * ConditionSlot(flag, false), w))
  {
  }

  lemma ConditionalJumpIfOneEncoding(flag: Flag, w: u16)
    ensures Encode(AbsoluteJumpIfFlagIsOne(flag, w)) == Some(WithWordBytes(0xC2 + 8 * ConditionSlot(flag, true), w))
  {
  }

  lemma ConditionalCallIfZeroEncoding(flag: Flag, w: u16)
    ensures Encode(CallIfFlagIsZero(flag, w)) == Some(WithWordBytes(0xC4 + 8 * ConditionSlot(flag, false), w))
  {
  }

  lemma ConditionalCallIfOneEncoding(flag: Flag, w: u16)
    ensures Encode(CallIfFlagIsOne(flag, w)) == Some(WithWordBytes(0xC4 + 8 * ConditionSlot(flag, true), w))
  {
  }

  lemma ResetEncoding(t: nat)
    requires t < 8
    ensures Encode(Reset(t)) == Some(One(0xC7 + 8 * t))
  {
  }

  lemma NoOperationEncoding()
    ensures Encode(NoOperation) == Some(One(0x00))
  {
  }

  lemma HaltEncoding()
    ensures Encode(Halt) == Some(One(0x76))
  {
  }

  lemma ReturnEncoding()
    ensures Encode(Return) == Some(One(0xC9))
  {
  }

  lemma ReturnAfterInterruptEncoding()
    ensures Encode(ReturnAfterInterrupt) == Some(One(0xD9))
  {
  }

  lemma DisableInterruptsEncoding()
    ensures Encode(ResetInterruptMasterEnableFlag) == Some(One(0xF3))
  {
  }

  lemma EnableInterruptsEncoding()
    ensures Encode(SetInterruptMasterEnableFlag) == Some(One(0xFB))
  {
  }

  lemma RotateLeftEncoding()
    ensures Encode(RotateContentOfRegisterToLeft(A)) == Some(One(0x07))
  {
  }

  lemma RotateLeftThroughCarryEncoding()
    ensures Encode(RotateContentOfRegisterToLeftThroughCarryFlag(A)) == Some(One(0x17))
  {
  }

  lemma RotateRightEncoding()
    ensures Encode(RotateContentOfRegisterToRight(A)) == Some(One(0x0F))
  {
  }

  lemma RotateRightThroughCarryEncoding()
    ensures Encode(RotateContentOfRegisterToRightThroughCarryFlag(A)) == Some(One(0x1F))
  {
  }

  lemma DecimalAdjustEncoding()
    ensures Encode(AdjustAccumulatorToBCDNumber) == Some(One(0x27))
  {
  }

  lemma ComplementEncoding()
    ensures Encode(Not(A)) == Some(One(0x2F))
  {
  }

  lemma SetCarryEncoding()
    ensures Encode(SetCarryFlag) == Some(One(0x37))
  {
  }

  lemma ComplementCarryEncoding()
    ensures Encode(NotCarryFlag) == Some(One(0x3F))
  {
  }

  lemma StoreThroughCEncoding()
    ensures Encode(StoreAccumulatorInMemorySpecifiedByRegisterC) == Some(One(0xE2))
  {
  }

  lemma LoadThroughCEncoding()
    ensures Encode(LoadAccumulatorFromMemorySpecifiedByRegisterC) == Some(One(0xF2))
  {
  }

  lemma StackPointerOffsetEncoding()
    ensures Encode(AddValueToStackPointer) == Some(One(0xE8))
  {
  }

  lemma StackPointerOffsetIntoHLEncoding()
    ensures Encode(AddValueToStackPointerAndStoreResultInRegisterHL) == Some(One(0xF8))
  {
  }

  lemma JumpToHLEncoding()
    ensures Encode(AbsoluteJumpToAddressInRegister(HL)) == Some(One(0xE9))
  {
  }

  lemma HLIntoStackPointerEncoding()
    ensures Encode(StoreContentOfRegisterHLInStackPointer) == Some(One(0xF9))
  {
  }

  lemma StoreThroughBCEncoding()
    ensures Encode(LoadValueOfFirstRegisterIntoSecondRegister(A, BC, false, true, None, None)) == Some(One(0x02))
  {
  }

  lemma AddByteEncoding(n: u8)
    ensures Encode(AddOneByteToAccumulator(n)) == Some(Two(0xC6, n))
  {
  }

  lemma AddByteWithCarryEncoding(n: u8)
    ensures Encode(AddOneByteAndCarryFlagToAccumulator(n)) == Some(Two(0xCE, n))
  {
  }

  lemma SubtractByteEncoding(n: u8)
    ensures Encode(SubtractOneByteFromAccumulator(n)) == Some(Two(0xD6, n))
  {
  }

  lemma SubtractByteWithCarryEncoding(n: u8)
    ensures Encode(SubtractOneByteAndCarryFlagFromAccumulator(n)) == Some(Two(0xDE, n))
  {
  }

  lemma AndByteEncoding(n: u8)
    ensures Encode(LogicalAndOnAccumulatorAndOneByte(n)) == Some(Two(0xE6, n))
  {
  }

  lemma XorByteEncoding(n: u8)
    ensures Encode(LogicalXorOnAccumulatorAndOneByte(n)) == Some(Two(0xEE, n))
  {
  }

  lemma OrByteEncoding(n: u8)
    ensures Encode(LogicalOrOnAccumulatorAndOneByte(n)) == Some(Two(0xF6, n))
  {
  }

  lemma CompareByteEncoding(n: u8)
    ensures Encode(CompareAccumulatorAndOneByte(n)) == Some(Two(0xFE, n))
  {
  }

  lemma StopEncoding()
    ensures Encode(Stop) == Some(Two(0x10, 0x00))
  {
  }

  lemma RelativeJumpEncoding(e: u8)
    ensures Encode(RelativeJump(e)) == Some(Two(0x18, e))
  {
  }

  lemma AbsoluteJumpEncoding(w: u16)
    ensures Encode(AbsoluteJump(w)) == Some(WithWordBytes(0xC3, w))
  {
  }

  lemma CallEncoding(w: u16)
    ensures Encode(Call(w)) == Some(WithWordBytes(0xCD, w))
  {
  }

  lemma StoreStackPointerEncoding(w: u16)
    ensures Encode(StoreStackPointerInMemory(w)) == Some(WithWordBytes(0x08, w))
  {
  }

  lemma HighPageStoreEncoding(n: u8)
    ensures Encode(StoreAccumulatorInMemory(0xFF00 + n as int)) == Some(Two(0xE0, n))
  {
  }

  lemma HighPageLoadEncoding(n: u8)
    ensures Encode(LoadAccumulatorFromMemory(0xFF00 + n as int)) == Some(Two(0xF0, n))
  {
  }

  lemma AccumulatorStoreEncoding(w: u16)
    requires w < 0xFF00
    ensures Encode(StoreAccumulatorInMemory(w)) == Some(WithWordBytes(0xEA, w))
  {
  }

  lemma AccumulatorLoadFromMemoryEncoding(w: u16)
    requires w < 0xFF00
    ensures Encode(LoadAccumulatorFromMemory(w)) == Some(WithWordBytes(0xFA, w))
  {
  }

  lemma ConditionalRelativeJumpIfZeroEncoding(flag: Flag, e: u8)
    ensures Encode(RelativeJumpIfFlagIsZero(flag, e)) == Some(Two(0x20 + 8 * ConditionSlot(flag, false), e))
  {
  }

  lemma ConditionalReturnIfZeroEncoding(flag: Flag)
    ensures Encode(ReturnIfFlagIsZero(flag)) == Some(One(0xC0 + 8 * ConditionSlot(flag, false)))
  {
  }

  lemma ConditionalRelativeJumpIfOneEncoding(flag: Flag, e: u8)
    ensures Encode(RelativeJumpIfFlagIsOne(flag, e)) == Some(Two(0x20 + 8 * ConditionSlot(flag, true), e))
  {
  }

  lemma ConditionalReturnIfOneEncoding(flag: Flag)
    ensures Encode(ReturnIfFlagIsOne(flag)) == Some(One(0xC0 + 8 * ConditionSlot(flag, true)))
  {
  }
}

=== FILE: cpu.dfy ===
/** The register and flag selectors the decoder names; their storage belongs
    to the execution engine and is not part of this model. */
module Cpu {

  /** 8-bit registers and the 16-bit pairs and pointers. */
  datatype Register = A | B | C | D | E | H | L | BC | DE | HL | SP | AF

  /** The condition flags conditional control flow consults. */
  datatype Flag = Z | CY
}

=== FILE: cursor.dfy ===
/** A forward-only reader over an in-memory program image: the part of
    `std::io::Cursor<Vec<u8>>` and `byteorder::ReadBytesExt` the decoder uses. */
module ByteCursor {
  import opened Outcomes
  import opened Unsigned

  /** The buffer and the read position; the position may lie past the end,
      in which case every read fails. */
  datatype Cursor = Cursor(data: seq<u8>, pos: nat)

  /** A value read from the stream and the cursor after the read. */
  datatype Fetched<+T> = Fetched(value: T, next: Cursor)

  /** `BigEndian::read_u16` on two bytes: the first is the high byte. */
  function FromBigEndian(hi: u8, lo: u8): (w: u16)
    ensures w / 256 == hi && w % 256 == lo
  {
    hi * 256 + lo
  }

  /** The two bytes of `w`, high byte first. */
  function ToBigEndian(w: u16): (bytes: (u8, u8))
    ensures FromBigEndian(bytes.0, bytes.1) == w
  {
    (w / 256, w % 256)
  }

  /** Splitting a word built from two bytes gives the bytes back. */
  lemma BigEndianSplitJoin(hi: u8, lo: u8)
    ensures ToBigEndian(FromBigEndian(hi, lo)) == (hi, lo)
  {
  }

  /** `read_u8`: one byte, or end of stream. */
  function ReadU8(c: Cursor): (r: Result<Fetched<u8>, DecodeError>)
    ensures r.Success? <==> c.pos < |c.data|
    ensures r.Success? ==> r.value.value == c.data[c.pos] && r.value.next == Cursor(c.data, c.pos + 1)
    ensures r.Failure? ==> r.error == Truncated
  {
    if c.pos < |c.data| then Success(Fetched(c.data[c.pos], c.(pos := c.pos + 1)))
    else Failure(Truncated)
  }

  /** `read_u16::<BigEndian>`: `read_exact` of two bytes, so a single
      remaining byte is not enough, then the first byte is the high one. */
  function ReadU16BigEndian(c: Cursor): (r: Result<Fetched<u16>, DecodeError>)
    ensures r.Success? <==> c.pos + 2 <= |c.data|
    ensures r.Success? ==> r.value.value == c.data[c.pos] as int * 256 + c.data[c.pos + 1] as int
    ensures r.Success? ==> r.value.next == Cursor(c.data, c.pos + 2)
    ensures r.Failure? ==> r.error == Truncated
  {
    if c.pos + 2 <= |c.data| then
      Success(Fetched(FromBigEndian(c.data[c.pos], c.data[c.pos + 1]), c.(pos := c.pos + 2)))
    else Failure(Truncated)
  }

  /** A 16-bit read succeeds exactly when two successive byte reads do, and
      yields the same word from those two bytes. */
  lemma ReadU16IsTwoReads(c: Cursor)
    ensures ReadU16BigEndian(c).Success? <==>
            ReadU8(c).Success? && ReadU8(ReadU8(c).value.next).Success?
    ensures ReadU16BigEndian(c).Success? ==>
            var first := ReadU8(c).value;
            var second := ReadU8(first.next).value;
            ReadU16BigEndian(c).value == Fetched(FromBigEndian(first.value, second.value), second.next)
  {
  }
}

=== FILE: decoder.dfy ===
/** `Instruction::decode`: read one opcode byte, classify it with one match
    over the byte value, read 0, 1 or 2 immediate bytes, and build the
    instruction.

    The source reads the immediate inside each arm of its match; here each
    arm returns a Plan (the instruction and the immediate it needs) and Fetch
    does the read. The outcome is the same: no arm that reads can also panic
    or fail otherwise, and no arm that fails reads.

    Classify splits the source's one match by the top two bits of the
    opcode (the processor's four quadrants); each quadrant keeps the
    source's arms in the source's order. The arms are pairwise disjoint, so
    neither the split nor the order changes the result. */
module Decoder {
  import opened Outcomes
  import opened Cpu
  import opened Unsigned
  import opened ByteCursor
  import opened Isa

  /** A decoded instruction and the cursor just past its last byte. */
  datatype Decoded = Decoded(instr: Instruction, next: Cursor)

  function Done(i: Instruction, next: Cursor): Result<Decoded, DecodeError> {
    Success(Decoded(i, next))
  }

  /** The immediate an opcode is followed by: none, one byte, one byte that
      is the low half of an address in page 0xFF00, or a big-endian word. */
  datatype Operand = NoOperand | ByteOperand | HighPageOperand | WordOperand

  /** What an arm of the match decides: the instruction, with its immediate
      field (if any) left as a placeholder 0, and the immediate to read. */
  datatype Plan = Plan(shape: Instruction, operand: Operand)

  function Fixed(i: Instruction): Result<Plan, DecodeError> {
    Success(Plan(i, NoOperand))
  }

  function ThenByte(i: Instruction): Result<Plan, DecodeError> {
    Success(Plan(i, ByteOperand))
  }

  function ThenHighPage(i: Instruction): Result<Plan, DecodeError> {
    Success(Plan(i, HighPageOperand))
  }

  function ThenWord(i: Instruction): Result<Plan, DecodeError> {
    Success(Plan(i, WordOperand))
  }

  /** The register pair of rows 0 to 3: BC, DE, HL, SP. */
  function PairRegister(row: u8): Register
    requires row < 4
  {
    if row == 0x0 then BC else if row == 0x1 then DE else if row == 0x2 then HL else SP
  }

  /** The register that rows 0 to 3 name in their low half (columns 4, 5
      and 6): B, D, H and the byte at HL. */
  function EvenRegister(row: u8): Register
    requires row < 4
  {
    if row == 0x0 then B else if row == 0x1 then D else if row == 0x2 then H else HL
  }

  /** The register that rows 0 to 3 name in their high half (columns C, D
      and E): C, E, L and A. */
  function OddRegister(row: u8): Register
    requires row < 4
  {
    if row == 0x0 then C else if row == 0x1 then E else if row == 0x2 then L else A
  }

  /** The register pair of PUSH and POP in rows C to F: BC, DE, HL, AF. */
  function StackRegister(row: u8): Register
    requires 0xC <= row <= 0xF
  {
    if row == 0xC then BC else if row == 0xD then DE else if row == 0xE then HL else AF
  }

  /** The low-nibble column table B, C, D, E, H, L, (HL), A, which repeats
      in both halves of a row: columns 0 and 8 name B, and so on. */
  function ColumnRegister(low: u8): Register
    requires low < 0x10
  {
    var col := low % 8;
    if col == 0x0 then B else if col == 0x1 then C else if col == 0x2 then D
    else if col == 0x3 then E else if col == 0x4 then H else if col == 0x5 then L
    else if col == 0x6 then HL else A
  }

  /** The destination of 0x02 and 0x12 as written. The source keeps the
      opcode's high four bits in place (0x12 gives 0x10) and compares the
      result with the row numbers 0 and 1, so only 0x02 finds a register.
      `None` stands for the panicking arm. */
  function StoreTargetAsWritten(op: u8): Option<Register> {
    var masked := op - LowNibble(op);
    if masked == 0x0 then Some(BC) else if masked == 0x1 then Some(DE) else None
  }

  /** The pointer update of 0x22 and 0x32 as written. The opcode's high
      four bits, kept in place, are compared with the row numbers 2 and 3,
      which neither 0x20 nor 0x30 equals. `None` stands for the panicking
      arm. */
  function StoreOperationAsWritten(op: u8): Option<MathOperation> {
    var masked := op - LowNibble(op);
    if masked == 0x2 then Some(Increment) else if masked == 0x3 then Some(Decrement) else None
  }

  /** The second-register address flag of the 0x40-0x7F block as written:
      set in row 7 for every low nibble below 0xE, so for 0x70-0x7D. */
  function LoadDestinationIsAddressAsWritten(op: u8): bool {
    HighNibble(op) == 0x7 && LowNibble(op) < 0xE
  }

  /** The match over the opcode byte `op`: which instruction, and which
      immediate it still needs. No arm reads, so none fails for lack of
      bytes, and an arm that asks for a 16-bit immediate names a variant
      with a 16-bit field to hold it. */
  function Classify(op: u8): (r: Result<Plan, DecodeError>)
    ensures r.Failure? ==> r.error != Truncated
    ensures r.Success? && r.value.operand in {WordOperand, HighPageOperand} ==> Immediate(r.value.shape).Some?
  {
    if op < 0x40 then ClassifyQuadrant0(op)
    else if op < 0x80 then ClassifyQuadrant1(op)
    else if op < 0xC0 then ClassifyQuadrant2(op)
    else ClassifyQuadrant3(op)
  }

  /** Opcodes 0x00-0x3F: loads of immediates and through pointers, 8- and
      16-bit increments and decrements, rotates and relative jumps. */
  function ClassifyQuadrant0(op: u8): (r: Result<Plan, DecodeError>)
    ensures r.Success? && r.value.operand in {WordOperand, HighPageOperand} ==> Immediate(r.value.shape).Some?
    requires op < 0x40
  {
    var high := HighNibble(op);
    if op == 0x00 then Fixed(NoOperation)
    else if op == 0x10 then
      // STOP reads its padding byte and drops it
      ThenByte(Stop)

    else if op == 0x07 then Fixed(RotateContentOfRegisterToLeft(A))
    else if op == 0x17 then Fixed(RotateContentOfRegisterToLeftThroughCarryFlag(A))
    else if op == 0x0F then Fixed(RotateContentOfRegisterToRight(A))
    else if op == 0x1F then Fixed(RotateContentOfRegisterToRightThroughCarryFlag(A))

    else if op == 0x27 then Fixed(AdjustAccumulatorToBCDNumber)

    else if op == 0x02 || op == 0x12 then
      match StoreTargetAsWritten(op)
      case None => Failure(Unreachable)
      case Some(target) =>
        Fixed(LoadValueOfFirstRegisterIntoSecondRegister(A, target, false, true, None, None))
    else if op == 0x22 || op == 0x32 then
      match StoreOperationAsWritten(op)
      case None => Failure(Unreachable)
      case Some(update) =>
        Fixed(LoadValueOfFirstRegisterIntoSecondRegister(A, HL, false, true, None, Some(update)))

    else if op == 0x18 then ThenByte(RelativeJump(0))
    else if op == 0x20 then ThenByte(RelativeJumpIfFlagIsZero(Z, 0))
    else if op == 0x30 then ThenByte(RelativeJumpIfFlagIsZero(CY, 0))
    else if op == 0x28 then ThenByte(RelativeJumpIfFlagIsOne(Z, 0))
    else if op == 0x38 then ThenByte(RelativeJumpIfFlagIsOne(CY, 0))

    else if op == 0x2F then Fixed(Not(A))
    else if op == 0x37 then Fixed(SetCarryFlag)
    else if op == 0x3F then Fixed(NotCarryFlag)

    else if op == 0x03 || op == 0x13 || op == 0x23 || op == 0x33 then
      Fixed(IncrementValueInRegister(PairRegister(high), false))
    else if op == 0x04 || op == 0x14 || op == 0x24 || op == 0x34 then
      Fixed(IncrementValueInRegister(EvenRegister(high), op == 0x34))
    else if op == 0x0C || op == 0x1C || op == 0x2C || op == 0x3C then
      Fixed(IncrementValueInRegister(OddRegister(high), false))
    else if op == 0x05 || op == 0x15 || op == 0x25 || op == 0x35 then
      Fixed(DecrementValueInRegister(EvenRegister(high), op == 0x35))
    else if op == 0x0B || op == 0x1B || op == 0x2B || op == 0x3B then
      Fixed(DecrementValueInRegister(PairRegister(high), false))
    else if op == 0x0D || op == 0x1D || op == 0x2D || op == 0x3D then
      Fixed(DecrementValueInRegister(OddRegister(high), false))

    else if op == 0x06 || op == 0x16 || op == 0x26 || op == 0x36 then
      ThenByte(LoadOneByteOfDataIntoRegister(0, EvenRegister(high), op == 0x36))
    else if op == 0x0E || op == 0x1E || op == 0x2E || op == 0x3E then
      ThenByte(LoadOneByteOfDataIntoRegister(0, OddRegister(high), false))
    else if op == 0x01 || op == 0x11 || op == 0x21 || op == 0x31 then
      ThenWord(LoadTwoBytesOfDataIntoRegister(0, PairRegister(high)))

    else if op == 0x0A || op == 0x1A || op == 0x2A || op == 0x3A then
      var source := if high == 0x0 then BC else if high == 0x1 then DE else HL;
      var update := if high == 0x2 then Some(Increment) else if high == 0x3 then Some(Decrement) else None;
      Fixed(LoadValueOfFirstRegisterIntoSecondRegister(source, A, true, false, update, None))

    else if op == 0x09 || op == 0x19 || op == 0x29 || op == 0x39 then
      Fixed(AddValueOfSecondRegisterToFirstRegister(HL, PairRegister(high), false))

    else if op == 0x08 then ThenWord(StoreStackPointerInMemory(0))
    else Failure(UnknownOpcode)
  }

  /** Opcodes 0x40-0x7F: HALT and the register-to-register loads. */
  function ClassifyQuadrant1(op: u8): (r: Result<Plan, DecodeError>)
    ensures r.Success? && r.value.operand in {WordOperand, HighPageOperand} ==> Immediate(r.value.shape).Some?
    requires 0x40 <= op < 0x80
  {
    var high := HighNibble(op);
    var low := LowNibble(op);
    if op == 0x76 then Fixed(Halt)
    else
      // Every other opcode of the block: the first register is the source
      // column; the second is the destination, chosen by the row and by the
      // half of the row the low nibble falls in
      var destination := if low <= 0x7 then EvenRegister(high - 0x4) else OddRegister(high - 0x4);
      Fixed(LoadValueOfFirstRegisterIntoSecondRegister(
              ColumnRegister(low), destination,
              low == 0x6 || low == 0xE, LoadDestinationIsAddressAsWritten(op),
              None, None))
  }

  /** Opcodes 0x80-0xBF: arithmetic and logic on A and a register. */
  function ClassifyQuadrant2(op: u8): (r: Result<Plan, DecodeError>)
    ensures r.Success? && r.value.operand in {WordOperand, HighPageOperand} ==> Immediate(r.value.shape).Some?
    requires 0x80 <= op < 0xC0
  {
    var low := LowNibble(op);
    if op <= 0x87 then
      // the address flag sits on register2 (A), not on register1 (HL at 0x86)
      Fixed(AddValueOfSecondRegisterToFirstRegister(ColumnRegister(low), A, op == 0x86))
    else if 0x90 <= op <= 0x97 then
      Fixed(SubtractValueOfSecondRegisterFromFirstRegister(ColumnRegister(low), A, op == 0x96))
    else if 0xA0 <= op <= 0xA7 then
      Fixed(LogicalAndOnAccumulatorAndRegister(ColumnRegister(low), op == 0xA6))
    else if 0xA8 <= op <= 0xAF then
      Fixed(LogicalXorOnAccumulatorAndRegister(ColumnRegister(low), op == 0xAE))
    else if 0xB0 <= op <= 0xB7 then
      Fixed(LogicalOrOnAccumulatorAndRegister(ColumnRegister(low), op == 0xB6))
    else if 0xB8 <= op then
      Fixed(CompareAccumulatorAndRegister(ColumnRegister(low), op == 0xBE))
    // 0x88-0x8F (ADC) and 0x98-0x9F (SBC) have no arm
    else Failure(UnknownOpcode)
  }

  /** Opcodes 0xC0-0xFF: control flow, stack, immediate arithmetic, memory
      access through absolute and high-page addresses, and the 0xCB prefix. */
  function ClassifyQuadrant3(op: u8): (r: Result<Plan, DecodeError>)
    ensures r.Success? && r.value.operand in {WordOperand, HighPageOperand} ==> Immediate(r.value.shape).Some?
    requires 0xC0 <= op
  {
    var high := HighNibble(op);
    if op == 0xC7 || op == 0xD7 || op == 0xE7 || op == 0xF7 then Fixed(Reset((high - 0xC) * 2))
    else if op == 0xCF || op == 0xDF || op == 0xEF || op == 0xFF then Fixed(Reset((high - 0xC) * 2 + 1))

    else if op == 0xF3 then Fixed(ResetInterruptMasterEnableFlag)
    else if op == 0xFB then Fixed(SetInterruptMasterEnableFlag)

    else if op == 0xC3 then ThenWord(AbsoluteJump(0))
    else if op == 0xC2 then ThenWord(AbsoluteJumpIfFlagIsZero(Z, 0))
    else if op == 0xD2 then ThenWord(AbsoluteJumpIfFlagIsZero(CY, 0))
    else if op == 0xCA then ThenWord(AbsoluteJumpIfFlagIsOne(Z, 0))
    else if op == 0xDA then ThenWord(AbsoluteJumpIfFlagIsOne(CY, 0))
    else if op == 0xE9 then Fixed(AbsoluteJumpToAddressInRegister(HL))

    else if op == 0xC9 then Fixed(Return)
    else if op == 0xC0 then Fixed(ReturnIfFlagIsZero(Z))
    else if op == 0xD0 then Fixed(ReturnIfFlagIsZero(CY))
    else if op == 0xD9 then Fixed(ReturnAfterInterrupt)
    else if op == 0xC8 then Fixed(ReturnIfFlagIsOne(Z))
    else if op == 0xD8 then Fixed(ReturnIfFlagIsOne(CY))

    else if op == 0xCD then ThenWord(Call(0))
    else if op == 0xC4 then ThenWord(CallIfFlagIsZero(Z, 0))
    else if op == 0xD4 then ThenWord(CallIfFlagIsZero(CY, 0))
    else if op == 0xCC then ThenWord(CallIfFlagIsOne(Z, 0))
    else if op == 0xDC then ThenWord(CallIfFlagIsOne(CY, 0))

    else if op == 0xC6 then ThenByte(AddOneByteToAccumulator(0))
    else if op == 0xCE then ThenByte(AddOneByteAndCarryFlagToAccumulator(0))
    else if op == 0xD6 then ThenByte(SubtractOneByteFromAccumulator(0))
    else if op == 0xDE then ThenByte(SubtractOneByteAndCarryFlagFromAccumulator(0))
    else if op == 0xE6 then ThenByte(LogicalAndOnAccumulatorAndOneByte(0))
    else if op == 0xEE then ThenByte(LogicalXorOnAccumulatorAndOneByte(0))
    else if op == 0xF6 then ThenByte(LogicalOrOnAccumulatorAndOneByte(0))
    else if op == 0xFE then ThenByte(CompareAccumulatorAndOneByte(0))

    else if op == 0xC1 || op == 0xD1 || op == 0xE1 || op == 0xF1 then
      Fixed(PopValueFromStackIntoRegister(StackRegister(high)))
    else if op == 0xC5 || op == 0xD5 || op == 0xE5 || op == 0xF5 then
      Fixed(PushValueOfRegisterOntoStack(StackRegister(high)))

    else if op == 0xE0 then ThenHighPage(StoreAccumulatorInMemory(0))
    else if op == 0xEA then ThenWord(StoreAccumulatorInMemory(0))
    else if op == 0xF0 then ThenHighPage(LoadAccumulatorFromMemory(0))
    else if op == 0xFA then ThenWord(LoadAccumulatorFromMemory(0))
    else if op == 0xE2 then Fixed(StoreAccumulatorInMemorySpecifiedByRegisterC)
    else if op == 0xF2 then Fixed(LoadAccumulatorFromMemorySpecifiedByRegisterC)
    else if op == 0xF9 then Fixed(StoreContentOfRegisterHLInStackPointer)
    // the processor follows 0xE8 and 0xF8 with a signed byte; the source reads none
    else if op == 0xE8 then Fixed(AddValueToStackPointer)
    else if op == 0xF8 then Fixed(AddValueToStackPointerAndStoreResultInRegisterHL)

    else if op == 0xCB then Failure(ExtendedOpcode)
    else Failure(UnknownOpcode)
  }

  /** The number of bytes an operand occupies after the opcode. */
  function OperandLength(operand: Operand): (n: nat)
    ensures n <= 2 && (n == 0 <==> operand == NoOperand)
  {
    match operand
    case NoOperand => 0
    case ByteOperand | HighPageOperand => 1
    case WordOperand => 2
  }

  /** Stores an 8-bit immediate into the field the shape leaves open. STOP's
      padding byte goes nowhere. */
  function WithByte(shape: Instruction, n: u8): Instruction {
    match shape
    case RelativeJump(_) => RelativeJump(n)
    case RelativeJumpIfFlagIsZero(flag, _) => RelativeJumpIfFlagIsZero(flag, n)
    case RelativeJumpIfFlagIsOne(flag, _) => RelativeJumpIfFlagIsOne(flag, n)
    case LoadOneByteOfDataIntoRegister(_, register, isAddress) =>
      LoadOneByteOfDataIntoRegister(n, register, isAddress)
    case AddOneByteToAccumulator(_) => AddOneByteToAccumulator(n)
    case AddOneByteAndCarryFlagToAccumulator(_) => AddOneByteAndCarryFlagToAccumulator(n)
    case SubtractOneByteFromAccumulator(_) => SubtractOneByteFromAccumulator(n)
    case SubtractOneByteAndCarryFlagFromAccumulator(_) => SubtractOneByteAndCarryFlagFromAccumulator(n)
    case LogicalAndOnAccumulatorAndOneByte(_) => LogicalAndOnAccumulatorAndOneByte(n)
    case LogicalOrOnAccumulatorAndOneByte(_) => LogicalOrOnAccumulatorAndOneByte(n)
    case LogicalXorOnAccumulatorAndOneByte(_) => LogicalXorOnAccumulatorAndOneByte(n)
    case CompareAccumulatorAndOneByte(_) => CompareAccumulatorAndOneByte(n)
    case _ => shape
  }

  /** Stores a 16-bit immediate into the field the shape leaves open. */
  function WithWord(shape: Instruction, w: u16): (i: Instruction)
    ensures Immediate(shape).Some? ==> Immediate(i) == Some(w)
  {
    match shape
    case LoadTwoBytesOfDataIntoRegister(_, register) => LoadTwoBytesOfDataIntoRegister(w, register)
    case AbsoluteJump(_) => AbsoluteJump(w)
    case AbsoluteJumpIfFlagIsZero(flag, _) => AbsoluteJumpIfFlagIsZero(flag, w)
    case AbsoluteJumpIfFlagIsOne(flag, _) => AbsoluteJumpIfFlagIsOne(flag, w)
    case Call(_) => Call(w)
    case CallIfFlagIsZero(flag, _) => CallIfFlagIsZero(flag, w)
    case CallIfFlagIsOne(flag, _) => CallIfFlagIsOne(flag, w)
    case StoreAccumulatorInMemory(_) => StoreAccumulatorInMemory(w)
    case LoadAccumulatorFromMemory(_) => LoadAccumulatorFromMemory(w)
    case StoreStackPointerInMemory(_) => StoreStackPointerInMemory(w)
    case _ => shape
  }

  /** Reads the immediate the plan asks for and completes the instruction.
      A read that runs out of bytes is the only way this fails. */
  function Fetch(plan: Plan, c: Cursor): (r: Result<Decoded, DecodeError>)
    requires c.pos <= |c.data|
    ensures r.Success? <==> c.pos + OperandLength(plan.operand) <= |c.data|
    ensures r.Success? ==> r.value.next == Cursor(c.data, c.pos + OperandLength(plan.operand))
    ensures r.Failure? ==> r.error == Truncated
  {
    match plan.operand
    case NoOperand => Done(plan.shape, c)
    case ByteOperand =>
      var n :- ReadU8(c);
      Done(WithByte(plan.shape, n.value), n.next)
    case HighPageOperand =>
      // the byte placed below the high byte 0xFF, which is 0xFF00 + n as n < 0x100
      var n :- ReadU8(c);
      Done(WithWord(plan.shape, 0xFF00 + n.value), n.next)
    case WordOperand =>
      var w :- ReadU16BigEndian(c);
      Done(WithWord(plan.shape, w.value), w.next)
  }

  /** `Instruction::decode`: the opcode, then its immediate. */
  function Decode(c: Cursor): (r: Result<Decoded, DecodeError>)
    ensures c.pos >= |c.data| ==> r == Failure(Truncated)
    ensures r.Success? ==> r.value.next.data == c.data && c.pos + 1 <= r.value.next.pos <= c.pos + 3
    ensures r.Success? ==> r.value.next.pos <= |c.data|
  {
    var opcode :- ReadU8(c);
    var plan :- Classify(opcode.value);
    Fetch(plan, opcode.next)
  }
}

=== FILE: decoder_facts.dfy ===
/** What the decoder does for every opcode, stated against the reference
    opcode table: which opcodes decode, how many bytes they take, and which
    failure each of the others ends in. */
module DecoderFacts {
  import opened Outcomes
  import opened Unsigned
  import opened ByteCursor
  import opened Isa
  import opened Decoder
  import opened OpcodeTable

  /** The failure an opcode of the given class ends in. */
  function ClassError(k: OpcodeClass): (e: DecodeError)
    requires k != Defined
    ensures e != Truncated
  {
    match k
    case ExtendedPrefix => ExtendedOpcode
    case Undefined => UnknownOpcode
    case Panics => Unreachable
  }

  /** The classifier agrees with the reference table: an opcode gets an
      instruction exactly when its class is Defined, the immediate it asks
      for has the reference length, and every other opcode fails with the
      error of its class. */
  predicate ClassifiedAsTable(op: u8) {
    var r := Classify(op);
    && (r.Success? <==> Class(op) == Defined)
    && (r.Success? ==> OperandLength(r.value.operand) == TrailingBytes(op))
    && (r.Failure? ==> r.error == ClassError(Class(op)))
  }

  // The quadrants are proved one at a time, and the two larger ones one
  // conjunct at a time, to keep each proof small.

  /** Opcodes 0x00-0x1F: the lengths of the immediates. */
  lemma ClassifyRows0And1Lengths(op: u8)
    requires op < 0x20
    ensures ClassifyQuadrant0(op).Success? ==> OperandLength(ClassifyQuadrant0(op).value.operand) == TrailingBytes(op)
  {
  }

  /** Opcodes 0x20-0x3F: the lengths of the immediates. */
  lemma ClassifyRows2And3Lengths(op: u8)
    requires 0x20 <= op < 0x40
    ensures ClassifyQuadrant0(op).Success? ==> OperandLength(ClassifyQuadrant0(op).value.operand) == TrailingBytes(op)
  {
  }

  /** Opcodes 0x00-0x3F: which opcodes decode and how the others fail. */
  lemma ClassifyQuadrant0Classes(op: u8)
    requires op < 0x40
    ensures ClassifyQuadrant0(op).Success? <==> Class(op) == Defined
    ensures ClassifyQuadrant0(op).Failure? ==> ClassifyQuadrant0(op).error == ClassError(Class(op))
  {
  }

  lemma ClassifyQuadrant0AsTable(op: u8)
    requires op < 0x40
    ensures ClassifiedAsTable(op)
  {
    if op < 0x20 {
      ClassifyRows0And1Lengths(op);
    } else {
      ClassifyRows2And3Lengths(op);
    }
    ClassifyQuadrant0Classes(op);
  }

  /** Opcodes 0x40-0x7F. */
  lemma ClassifyQuadrant1AsTable(op: u8)
    requires 0x40 <= op < 0x80
    ensures ClassifiedAsTable(op)
  {
  }

  /** Opcodes 0x80-0xBF. */
  lemma ClassifyQuadrant2AsTable(op: u8)
    requires 0x80 <= op < 0xC0
    ensures ClassifiedAsTable(op)
  {
  }

  /** Opcodes 0xC0-0xFF: the lengths of the immediates. */
  lemma ClassifyQuadrant3Lengths(op: u8)
    requires 0xC0 <= op
    ensures ClassifyQuadrant3(op).Success? ==> OperandLength(ClassifyQuadrant3(op).value.operand) == TrailingBytes(op)
  {
  }

  /** Opcodes 0xC0-0xFF: which opcodes decode and how the others fail. */
  lemma ClassifyQuadrant3Classes(op: u8)
    requires 0xC0 <= op
    ensures ClassifyQuadrant3(op).Success? <==> Class(op) == Defined
    ensures ClassifyQuadrant3(op).Failure? ==> ClassifyQuadrant3(op).error == ClassError(Class(op))
  {
  }

  lemma ClassifyQuadrant3AsTable(op: u8)
    requires 0xC0 <= op
    ensures ClassifiedAsTable(op)
  {
    ClassifyQuadrant3Lengths(op);
    ClassifyQuadrant3Classes(op);
  }

  /** Every one of the 256 opcodes is classified as the table says. */
  lemma ClassifyAsTable(op: u8)
    ensures ClassifiedAsTable(op)
  {
    if op < 0x40 {
      ClassifyQuadrant0AsTable(op);
    } else if op < 0x80 {
      ClassifyQuadrant1AsTable(op);
    } else if op < 0xC0 {
      ClassifyQuadrant2AsTable(op);
    } else {
      ClassifyQuadrant3AsTable(op);
    }
  }

  /** Every opcode either decodes, consuming exactly the opcode and its
      trailing bytes and nothing else, or ends in exactly one failure; which
      one depends only on the opcode and on how many bytes remain. */
  lemma DecodeOutcome(c: Cursor)
    requires c.pos < |c.data|
    ensures var op := c.data[c.pos];
            var r := Decode(c);
            && (r.Success? <==> Class(op) == Defined && c.pos + 1 + TrailingBytes(op) <= |c.data|)
            && (r.Success? ==> r.value.next == Cursor(c.data, c.pos + 1 + TrailingBytes(op)))
            && (r == Failure(Truncated) <==> Class(op) == Defined && |c.data| < c.pos + 1 + TrailingBytes(op))
            && (r == Failure(ExtendedOpcode) <==> Class(op) == ExtendedPrefix)
            && (r == Failure(UnknownOpcode) <==> Class(op) == Undefined)
            && (r == Failure(Unreachable) <==> Class(op) == Panics)
  {
    ClassifyAsTable(c.data[c.pos]);
  }

  /** The opcodes that never decode, whatever follows them: 0xCB is the
      prefix of the extended table; ADC and SBC on a register and the
      eleven unassigned bytes have no arm; the three pointer stores panic. */
  lemma FailingOpcodes(c: Cursor)
    requires c.pos < |c.data|
    ensures var op := c.data[c.pos];
      && (op == 0xCB <==> Decode(c) == Failure(ExtendedOpcode))
      && (IsCarryArithmetic(op) || IsUnassigned(op) <==> Decode(c) == Failure(UnknownOpcode))
      && (IsPanickingStore(op) <==> Decode(c) == Failure(Unreachable))
  {
    DecodeOutcome(c);
  }
}

=== FILE: decoder_groups.dfy ===
/** The decoder's opcode groups, each stated against the reference table.
    An opcode is written as the sum of its fixed bits and its fields, as in
    `0x04 + 8 * y` for INC r: `y` is bits 5-3 and names the register, `p`
    (bits 5-4) names a pair, `cc` (bits 4-3) a condition, `s` (bits 2-0) a
    source register. Slot 6 of the register table is the byte HL points
    at, so an address flag is expected exactly there. */
module DecoderGroups {
  import opened Outcomes
  import opened Cpu
  import opened Unsigned
  import opened Isa
  import opened Decoder
  import opened OpcodeTable

  /** INC r (`00 yyy 100`). */
  lemma IncrementRegisterGroup(y: nat)
    requires y < 8
    ensures Classify(0x04 + 8 * y) == Fixed(IncrementValueInRegister(Operands[y], y == 6))
  {
  }

  /** DEC r (`00 yyy 101`). */
  lemma DecrementRegisterGroup(y: nat)
    requires y < 8
    ensures Classify(0x05 + 8 * y) == Fixed(DecrementValueInRegister(Operands[y], y == 6))
  {
  }

  /** LD r, n (`00 yyy 110`): the byte follows the opcode. */
  lemma LoadByteGroup(y: nat)
    requires y < 8
    ensures Classify(0x06 + 8 * y) == ThenByte(LoadOneByteOfDataIntoRegister(0, Operands[y], y == 6))
  {
  }

  /** LD rr, nn, INC rr, ADD HL, rr and DEC rr (`00 pp 0001`, `00 pp 0011`,
      `00 pp 1001`, `00 pp 1011`). */
  lemma PairGroups(p: nat)
    requires p < 4
    ensures Classify(0x01 + 16 * p) == ThenWord(LoadTwoBytesOfDataIntoRegister(0, Pairs[p]))
    ensures Classify(0x03 + 16 * p) == Fixed(IncrementValueInRegister(Pairs[p], false))
    ensures Classify(0x09 + 16 * p) == Fixed(AddValueOfSecondRegisterToFirstRegister(HL, Pairs[p], false))
    ensures Classify(0x0B + 16 * p) == Fixed(DecrementValueInRegister(Pairs[p], false))
  {
  }

  /** LD A, (BC), LD A, (DE), LD A, (HL+) and LD A, (HL-) (`00 pp 1010`):
      the first register is read as an address and may be updated. */
  lemma AccumulatorLoadGroup(p: nat)
    requires p < 4
    ensures Classify(0x0A + 16 * p) ==
            Fixed(LoadValueOfFirstRegisterIntoSecondRegister(Pointers[p], A, true, false, PointerUpdates[p], None))
  {
  }

  /** JR cc, e (`001 cc 000`): the byte after the opcode is the offset. */
  lemma RelativeJumpGroup(cc: nat)
    requires cc < 4
    ensures Classify(0x20 + 8 * cc) ==
            if ConditionValues[cc] then ThenByte(RelativeJumpIfFlagIsOne(ConditionFlags[cc], 0))
            else ThenByte(RelativeJumpIfFlagIsZero(ConditionFlags[cc], 0))
  {
  }

  /** LD r, r' (`01 yyy sss` except HALT at 0x76): register1 is the source
      `s`, register2 the destination `y`. The source is an address exactly
      at slot 6; the destination is one at slot 6 and also, as the source
      is written, at 0x78-0x7D, where the destination is A. */
  lemma RegisterLoadBlock(y: nat, s: nat)
    requires y < 8 && s < 8 && !(y == 6 && s == 6)
    ensures Classify(0x40 + 8 * y + s) ==
            Fixed(LoadValueOfFirstRegisterIntoSecondRegister(
                    Operands[s], Operands[y], s == 6, y == 6 || (y == 7 && s < 6), None, None))
  {
  }

  /** ADD, SUB, AND, XOR, OR and CP on A and a register (`10 yyy sss`). ADD
      and SUB name the operand register first and A second, and put the
      address flag on the second, A. */
  lemma RegisterArithmeticBlock(s: nat)
    requires s < 8
    ensures Classify(0x80 + s) == Fixed(AddValueOfSecondRegisterToFirstRegister(Operands[s], A, s == 6))
    ensures Classify(0x90 + s) == Fixed(SubtractValueOfSecondRegisterFromFirstRegister(Operands[s], A, s == 6))
    ensures Classify(0xA0 + s) == Fixed(LogicalAndOnAccumulatorAndRegister(Operands[s], s == 6))
    ensures Classify(0xA8 + s) == Fixed(LogicalXorOnAccumulatorAndRegister(Operands[s], s == 6))
    ensures Classify(0xB0 + s) == Fixed(LogicalOrOnAccumulatorAndRegister(Operands[s], s == 6))
    ensures Classify(0xB8 + s) == Fixed(CompareAccumulatorAndRegister(Operands[s], s == 6))
  {
  }

  /** RET cc (`110 cc 000`). */
  lemma ConditionalReturnGroup(cc: nat)
    requires cc < 4
    ensures Classify(0xC0 + 8 * cc) ==
            if ConditionValues[cc] then Fixed(ReturnIfFlagIsOne(ConditionFlags[cc]))
            else Fixed(ReturnIfFlagIsZero(ConditionFlags[cc]))
  {
  }

  /** JP cc, nn (`110 cc 010`): the address follows the opcode. */
  lemma ConditionalJumpGroup(cc: nat)
    requires cc < 4
    ensures Classify(0xC2 + 8 * cc) ==
            if ConditionValues[cc] then ThenWord(AbsoluteJumpIfFlagIsOne(ConditionFlags[cc], 0))
            else ThenWord(AbsoluteJumpIfFlagIsZero(ConditionFlags[cc], 0))
  {
  }

  /** CALL cc, nn (`110 cc 100`): the address follows the opcode. */
  lemma ConditionalCallGroup(cc: nat)
    requires cc < 4
    ensures Classify(0xC4 + 8 * cc) ==
            if ConditionValues[cc] then ThenWord(CallIfFlagIsOne(ConditionFlags[cc], 0))
            else ThenWord(CallIfFlagIsZero(ConditionFlags[cc], 0))
  {
  }

  /** POP rr and PUSH rr (`11 pp 0001`, `11 pp 0101`). */
  lemma StackGroups(p: nat)
    requires p < 4
    ensures Classify(0xC1 + 16 * p) == Fixed(PopValueFromStackIntoRegister(StackPairs[p]))
    ensures Classify(0xC5 + 16 * p) == Fixed(PushValueOfRegisterOntoStack(StackPairs[p]))
  {
  }

  /** RST t (`11 ttt 111`): the location is `t`, so the eight opcodes name
      eight different locations 0-7, the vectors `8 * t`. */
  lemma ResetGroup(t: nat)
    requires t < 8
    ensures Classify(0xC7 + 8 * t) == Fixed(Reset(t))
  {
  }

  /** The arithmetic and logic on A and an immediate byte, in the order of
      bits 5-3 (`11 yyy 110`), with the placeholder immediate. */
  const ByteArithmetic: seq<Instruction> := [
    AddOneByteToAccumulator(0), AddOneByteAndCarryFlagToAccumulator(0),
    SubtractOneByteFromAccumulator(0), SubtractOneByteAndCarryFlagFromAccumulator(0),
    LogicalAndOnAccumulatorAndOneByte(0), LogicalXorOnAccumulatorAndOneByte(0),
    LogicalOrOnAccumulatorAndOneByte(0), CompareAccumulatorAndOneByte(0)]

  /** ALU A, n (`11 yyy 110`): the byte follows the opcode. */
  lemma ByteArithmeticGroup(y: nat)
    requires y < 8
    ensures Classify(0xC6 + 8 * y) == ThenByte(ByteArithmetic[y])
  {
  }

  // The opcodes that form a group of their own.

  lemma NoOperationOpcode()
    ensures Classify(0x00) == Fixed(NoOperation)
  {
  }

  lemma HaltOpcode()
    ensures Classify(0x76) == Fixed(Halt)
  {
  }

  lemma ReturnOpcode()
    ensures Classify(0xC9) == Fixed(Return)
  {
  }

  lemma ReturnAfterInterruptOpcode()
    ensures Classify(0xD9) == Fixed(ReturnAfterInterrupt)
  {
  }

  lemma DisableInterruptsOpcode()
    ensures Classify(0xF3) == Fixed(ResetInterruptMasterEnableFlag)
  {
  }

  lemma EnableInterruptsOpcode()
    ensures Classify(0xFB) == Fixed(SetInterruptMasterEnableFlag)
  {
  }

  lemma RotateLeftOpcode()
    ensures Classify(0x07) == Fixed(RotateContentOfRegisterToLeft(A))
  {
  }

  lemma RotateLeftThroughCarryOpcode()
    ensures Classify(0x17) == Fixed(RotateContentOfRegisterToLeftThroughCarryFlag(A))
  {
  }

  lemma RotateRightOpcode()
    ensures Classify(0x0F) == Fixed(RotateContentOfRegisterToRight(A))
  {
  }

  lemma RotateRightThroughCarryOpcode()
    ensures Classify(0x1F) == Fixed(RotateContentOfRegisterToRightThroughCarryFlag(A))
  {
  }

  lemma DecimalAdjustOpcode()
    ensures Classify(0x27) == Fixed(AdjustAccumulatorToBCDNumber)
  {
  }

  lemma ComplementOpcode()
    ensures Classify(0x2F) == Fixed(Not(A))
  {
  }

  lemma SetCarryOpcode()
    ensures Classify(0x37) == Fixed(SetCarryFlag)
  {
  }

  lemma ComplementCarryOpcode()
    ensures Classify(0x3F) == Fixed(NotCarryFlag)
  {
  }

  lemma StoreThroughCOpcode()
    ensures Classify(0xE2) == Fixed(StoreAccumulatorInMemorySpecifiedByRegisterC)
  {
  }

  lemma LoadThroughCOpcode()
    ensures Classify(0xF2) == Fixed(LoadAccumulatorFromMemorySpecifiedByRegisterC)
  {
  }

  lemma StackPointerOffsetOpcode()
    ensures Classify(0xE8) == Fixed(AddValueToStackPointer)
  {
  }

  lemma StackPointerOffsetIntoHLOpcode()
    ensures Classify(0xF8) == Fixed(AddValueToStackPointerAndStoreResultInRegisterHL)
  {
  }

  lemma JumpToHLOpcode()
    ensures Classify(0xE9) == Fixed(AbsoluteJumpToAddressInRegister(HL))
  {
  }

  lemma HLIntoStackPointerOpcode()
    ensures Classify(0xF9) == Fixed(StoreContentOfRegisterHLInStackPointer)
  {
  }

  lemma StoreThroughBCOpcode()
    ensures Classify(0x02) == Fixed(LoadValueOfFirstRegisterIntoSecondRegister(A, BC, false, true, None, None))
  {
  }

  lemma StopOpcode()
    ensures Classify(0x10) == ThenByte(Stop)
  {
  }

  lemma RelativeJumpOpcode()
    ensures Classify(0x18) == ThenByte(RelativeJump(0))
  {
  }

  lemma AbsoluteJumpOpcode()
    ensures Classify(0xC3) == ThenWord(AbsoluteJump(0))
  {
  }

  lemma CallOpcode()
    ensures Classify(0xCD) == ThenWord(Call(0))
  {
  }

  lemma StoreStackPointerOpcode()
    ensures Classify(0x08) == ThenWord(StoreStackPointerInMemory(0))
  {
  }

  lemma HighPageStoreOpcode()
    ensures Classify(0xE0) == ThenHighPage(StoreAccumulatorInMemory(0))
  {
  }

  lemma HighPageLoadOpcode()
    ensures Classify(0xF0) == ThenHighPage(LoadAccumulatorFromMemory(0))
  {
  }

  lemma AccumulatorStoreOpcode()
    ensures Classify(0xEA) == ThenWord(StoreAccumulatorInMemory(0))
  {
  }

  lemma AccumulatorLoadFromMemoryOpcode()
    ensures Classify(0xFA) == ThenWord(LoadAccumulatorFromMemory(0))
  {
  }

  lemma AddByteOpcode()
    ensures Classify(0xC6) == ThenByte(AddOneByteToAccumulator(0))
  {
  }

  lemma AddByteWithCarryOpcode()
    ensures Classify(0xCE) == ThenByte(AddOneByteAndCarryFlagToAccumulator(0))
  {
  }

  lemma SubtractByteOpcode()
    ensures Classify(0xD6) == ThenByte(SubtractOneByteFromAccumulator(0))
  {
  }

  lemma SubtractByteWithCarryOpcode()
    ensures Classify(0xDE) == ThenByte(SubtractOneByteAndCarryFlagFromAccumulator(0))
  {
  }

  lemma AndByteOpcode()
    ensures Classify(0xE6) == ThenByte(LogicalAndOnAccumulatorAndOneByte(0))
  {
  }

  lemma XorByteOpcode()
    ensures Classify(0xEE) == ThenByte(LogicalXorOnAccumulatorAndOneByte(0))
  {
  }

  lemma OrByteOpcode()
    ensures Classify(0xF6) == ThenByte(LogicalOrOnAccumulatorAndOneByte(0))
  {
  }

  lemma CompareByteOpcode()
    ensures Classify(0xFE) == ThenByte(CompareAccumulatorAndOneByte(0))
  {
  }
}

=== FILE: findings.dfy ===
/** Two places where the decoder, as written, does not do what its own
    structure evidently means, each next to a corrected definition.

    The pointer stores 0x02, 0x12, 0x22 and 0x32 pick their register by
    masking the opcode with 0xF0 and comparing the result with a row number
    (0x0 to 0x3); only 0x02 (masked: 0x00) finds its arm, and the other
    three reach `unreachable!()`. Shifting right by four gives the row.

    The 0x40-0x7F block marks its destination as an address whenever the
    opcode is in 0x70-0x7D. The destination is the byte HL points at only
    in 0x70-0x77; in 0x78-0x7D it is A.

    Decoder.Classify keeps both as written; ClassifyIntended is the
    decoder with both corrected. */
module Findings {
  import opened Outcomes
  import opened Cpu
  import opened Unsigned
  import opened Isa
  import opened Decoder
  import opened OpcodeTable
  import opened DecoderFacts
  import opened DecoderGroups

  /** The store target of 0x02 and 0x12 chosen by the row, the high nibble. */
  function StoreTargetIntended(op: u8): Option<Register> {
    var row := HighNibble(op);
    if row == 0x0 then Some(BC) else if row == 0x1 then Some(DE) else None
  }

  /** The pointer update of 0x22 and 0x32 chosen by the row. */
  function StoreOperationIntended(op: u8): Option<MathOperation> {
    var row := HighNibble(op);
    if row == 0x2 then Some(Increment) else if row == 0x3 then Some(Decrement) else None
  }

  /** The destination of the 0x40-0x7F block is the byte HL points at
      exactly in 0x70-0x77. */
  function LoadDestinationIsAddressIntended(op: u8): bool {
    HighNibble(op) == 0x7 && LowNibble(op) < 0x8
  }

  /** The pointer-store arms with the row taken by a shift. */
  function PointerStoreIntended(op: u8): Result<Plan, DecodeError>
    requires op == 0x02 || IsPanickingStore(op)
  {
    if op == 0x02 || op == 0x12 then
      match StoreTargetIntended(op)
      case None => Failure(Unreachable)
      case Some(target) =>
        Fixed(LoadValueOfFirstRegisterIntoSecondRegister(A, target, false, true, None, None))
    else
      match StoreOperationIntended(op)
      case None => Failure(Unreachable)
      case Some(update) =>
        Fixed(LoadValueOfFirstRegisterIntoSecondRegister(A, HL, false, true, None, Some(update)))
  }

  /** The register-to-register arm with the destination flag corrected. */
  function RegisterLoadIntended(op: u8): Result<Plan, DecodeError>
    requires 0x40 <= op < 0x80 && op != 0x76
  {
    var high := HighNibble(op);
    var low := LowNibble(op);
    var destination := if low <= 0x7 then EvenRegister(high - 0x4) else OddRegister(high - 0x4);
    Fixed(LoadValueOfFirstRegisterIntoSecondRegister(
            ColumnRegister(low), destination,
            low == 0x6 || low == 0xE, LoadDestinationIsAddressIntended(op),
            None, None))
  }

  /** The decoder's match with both corrections. */
  function ClassifyIntended(op: u8): Result<Plan, DecodeError> {
    if op == 0x02 || IsPanickingStore(op) then PointerStoreIntended(op)
    else if 0x40 <= op < 0x80 && op != 0x76 then RegisterLoadIntended(op)
    else Classify(op)
  }

  /** As written, LD (DE), A, LD (HL+), A and LD (HL-), A panic, and the
      register helpers find no arm for them. */
  lemma PointerStoresPanic()
    ensures StoreTargetAsWritten(0x12) == None
    ensures StoreOperationAsWritten(0x22) == None && StoreOperationAsWritten(0x32) == None
    ensures Classify(0x12) == Failure(Unreachable)
    ensures Classify(0x22) == Failure(Unreachable)
    ensures Classify(0x32) == Failure(Unreachable)
  {
  }

  /** Corrected, LD (rr), A (`00 pp 0010`) stores A through the pointer
      the row names, and steps HL in rows 2 and 3. */
  lemma PointerStoresIntended(p: nat)
    requires p < 4
    ensures ClassifyIntended(0x02 + 16 * p) ==
            Fixed(LoadValueOfFirstRegisterIntoSecondRegister(A, Pointers[p], false, true, None, PointerUpdates[p]))
  {
  }

  /** As written, LD A, B (0x78) marks its destination A as an address. */
  lemma LoadFlagMarksAccumulator()
    ensures Classify(0x78) == Fixed(LoadValueOfFirstRegisterIntoSecondRegister(B, A, false, true, None, None))
  {
    RegisterLoadBlock(7, 0);
  }

  /** Corrected, LD r, r' marks each operand as an address exactly when it
      is slot 6 of the register table, the byte HL points at. */
  lemma RegisterLoadIntendedFlags(y: nat, s: nat)
    requires y < 8 && s < 8 && !(y == 6 && s == 6)
    ensures ClassifyIntended(0x40 + 8 * y + s) ==
            Fixed(LoadValueOfFirstRegisterIntoSecondRegister(Operands[s], Operands[y], s == 6, y == 6, None, None))
  {
    RegisterLoadIntendedAt(0x40 + 8 * y + s, y / 2, y % 2, s);
  }

  /** The same, with the opcode split into its row, the half of the row and
      the source column. */
  lemma RegisterLoadIntendedAt(op: u8, row: nat, half: nat, s: nat)
    requires row < 4 && half < 2 && s < 8 && op as nat == 0x40 + 16 * row + 8 * half + s && op != 0x76
    ensures ClassifyIntended(op) ==
            Fixed(LoadValueOfFirstRegisterIntoSecondRegister(
                    Operands[s], Operands[2 * row + half], s == 6, 2 * row + half == 6, None, None))
  {
    assert HighNibble(op) == 4 + row && LowNibble(op) == 8 * half + s;
  }

  /** The corrected decoder never panics; it decodes every opcode the
      written one decodes, and the three pointer stores besides. */
  lemma ClassifyIntendedOutcome(op: u8)
    ensures ClassifyIntended(op) != Failure(Unreachable)
    ensures ClassifyIntended(op).Success? <==> Class(op) == Defined || Class(op) == Panics
  {
    ClassifyAsTable(op);
  }

  /** The corrections change the decoder at the three pointer stores and
      at 0x78-0x7D, and nowhere else. */
  lemma ClassifyIntendedChanges(op: u8)
    ensures ClassifyIntended(op) != Classify(op) <==> IsPanickingStore(op) || 0x78 <= op <= 0x7D
  {
    ClassifyAsTable(op);
    if 0x40 <= op < 0x80 && op != 0x76 {
      var y := (op as nat - 0x40) / 8;
      var s := (op as nat - 0x40) % 8;
      RegisterLoadBlock(y, s);
      RegisterLoadIntendedFlags(y, s);
    }
  }
}

=== FILE: instruction.dfy ===
/** The instruction set model: one immutable value per decoded instruction,
    carrying only the operands that instruction needs. Constructor names are
    the source's variant names; the long snake_case field names are
    shortened (`treat_value_in_register_as_memory_address` becomes
    `registerIsAddress`, `operation_on_first_register` becomes `operation1`,
    and so on). `u8` and `u16` are the integer ranges of module Unsigned. */
module Isa {
  import opened Outcomes
  import opened Cpu
  import opened Unsigned

  /** The side effect on a register used as a pointer (`LD (HL+), A`). */
  datatype MathOperation = Increment | Decrement

  datatype Instruction =
    | NoOperation
    | Stop
    | Halt
    | Reset(location: u8)
    | LoadOneByteOfDataIntoRegister(data: u8, register: Register, registerIsAddress: bool)
      /** `data: u16` in the source; named `word` here because a Dafny
          destructor cannot have two types. */
    | LoadTwoBytesOfDataIntoRegister(word: u16, register: Register)
    | LoadValueOfFirstRegisterIntoSecondRegister(
        register1: Register, register2: Register,
        register1IsAddress: bool, register2IsAddress: bool,
        operation1: Option<MathOperation>, operation2: Option<MathOperation>)
    | IncrementValueInRegister(register: Register, registerIsAddress: bool)
    | DecrementValueInRegister(register: Register, registerIsAddress: bool)
    | AbsoluteJump(address: u16)
    | AbsoluteJumpIfFlagIsZero(flag: Flag, address: u16)
    | AbsoluteJumpIfFlagIsOne(flag: Flag, address: u16)
    | AbsoluteJumpToAddressInRegister(register: Register)
    | RelativeJump(steps: u8)
    | RelativeJumpIfFlagIsZero(flag: Flag, steps: u8)
    | RelativeJumpIfFlagIsOne(flag: Flag, steps: u8)
    | Return
    | ReturnIfFlagIsZero(flag: Flag)
    | ReturnIfFlagIsOne(flag: Flag)
    | ReturnAfterInterrupt
    | Call(address: u16)
    | CallIfFlagIsZero(flag: Flag, address: u16)
    | CallIfFlagIsOne(flag: Flag, address: u16)
    | RotateContentOfRegisterToLeft(register: Register)
    | RotateContentOfRegisterToLeftThroughCarryFlag(register: Register)
    | RotateContentOfRegisterToRight(register: Register)
    | RotateContentOfRegisterToRightThroughCarryFlag(register: Register)
    | Not(register: Register)
    | SetCarryFlag
    | NotCarryFlag
    | AdjustAccumulatorToBCDNumber
    | AddValueOfSecondRegisterToFirstRegister(register1: Register, register2: Register, register2IsAddress: bool)
    | AddOneByteToAccumulator(value: u8)
    | AddOneByteAndCarryFlagToAccumulator(value: u8)
    | SubtractValueOfSecondRegisterFromFirstRegister(register1: Register, register2: Register, register2IsAddress: bool)
    | SubtractOneByteFromAccumulator(value: u8)
    | SubtractOneByteAndCarryFlagFromAccumulator(value: u8)
    | LogicalAndOnAccumulatorAndRegister(register: Register, registerIsAddress: bool)
    | LogicalAndOnAccumulatorAndOneByte(value: u8)
    | LogicalOrOnAccumulatorAndRegister(register: Register, registerIsAddress: bool)
    | LogicalOrOnAccumulatorAndOneByte(value: u8)
    | LogicalXorOnAccumulatorAndRegister(register: Register, registerIsAddress: bool)
    | LogicalXorOnAccumulatorAndOneByte(value: u8)
    | CompareAccumulatorAndRegister(register: Register, registerIsAddress: bool)
    | CompareAccumulatorAndOneByte(value: u8)
    | PushValueOfRegisterOntoStack(register: Register)
    | PopValueFromStackIntoRegister(register: Register)
    | ResetInterruptMasterEnableFlag
    | SetInterruptMasterEnableFlag
    | StoreAccumulatorInMemory(address: u16)
    | LoadAccumulatorFromMemory(address: u16)
    | StoreAccumulatorInMemorySpecifiedByRegisterC
    | LoadAccumulatorFromMemorySpecifiedByRegisterC
    | StoreStackPointerInMemory(address: u16)
    | StoreContentOfRegisterHLInStackPointer
    | AddValueToStackPointer
    | AddValueToStackPointerAndStoreResultInRegisterHL

  /** The 16-bit immediate an instruction carries: the word of a 16-bit
      load, or the address of an absolute jump, a call or a memory access.
      The other variants carry none. */
  function Immediate(i: Instruction): Option<u16> {
    match i
    case LoadTwoBytesOfDataIntoRegister(word, _) => Some(word)
    case AbsoluteJump(address) => Some(address)
    case AbsoluteJumpIfFlagIsZero(_, address) => Some(address)
    case AbsoluteJumpIfFlagIsOne(_, address) => Some(address)
    case Call(address) => Some(address)
    case CallIfFlagIsZero(_, address) => Some(address)
    case CallIfFlagIsOne(_, address) => Some(address)
    case StoreAccumulatorInMemory(address) => Some(address)
    case LoadAccumulatorFromMemory(address) => Some(address)
    case StoreStackPointerInMemory(address) => Some(address)
    case _ => None
  }
}

=== FILE: inverse.dfy ===
/** The two directions of the round trip for all inputs. Every instruction
    the assembler encodes decodes back to itself; every instruction the
    decoder produces has an encoding, and it is the very encoding decoded
    unless the bytes were one of the two spellings the assembler does not
    write (a nonzero STOP padding byte, or a page-0xFF00 address in the
    three-byte form). The decoder's direction is proved per column of the
    opcode map: `z` is bits 2-0 of the opcode and `y` bits 5-3. */
module Inverse {
  import opened Outcomes
  import opened Cpu
  import opened Unsigned
  import opened ByteCursor
  import opened Isa
  import opened Decoder
  import opened OpcodeTable
  import opened DecoderFacts
  import opened DecoderGroups
  import opened Assembler
  import opened RoundTrip
  import opened AssemblerGroups

  /** The assembler encodes `i`, and when `e` is canonical it encodes `i`
      as `e`. */
  predicate Reencodes(e: Encoding, i: Instruction) {
    Encode(i).Some? && (Canonical(e) ==> Encode(i) == Some(e))
  }

  /** `e` has opcode `op`, stated through the opcode's fields `op / 8` and
      `op % 8`: a case split on the fields does not make the solver evaluate
      the decoder on every opcode of the split. */
  predicate Pinned(e: Encoding, op: u8) {
    e.op / 8 == op / 8 && e.op % 8 == op % 8
  }

  /** The opcode alone decides how many immediate bytes an encoding that
      decodes must hold. */
  lemma SameShape(e: Encoding, f: Encoding)
    requires Interpret(e).Some? && Interpret(f).Some? && e.op == f.op
    ensures e.One? == f.One? && e.Two? == f.Two? && e.Three? == f.Three?
  {
  }

  /** A three-byte encoding is its opcode followed by the word it holds. */
  lemma WordEncoding(e: Encoding)
    requires e.Three?
    ensures WithWordBytes(e.op, FromBigEndian(e.high, e.low)) == e
  {
    BigEndianSplitJoin(e.high, e.low);
  }

  /** The same, for an opcode pinned through its fields. */
  lemma RejectedAt(e: Encoding, op: int)
    ensures 0 <= op < 0x100 && Pinned(e, op as u8) && Class(op as u8) != Defined ==> Interpret(e).None?
  {
    if 0 <= op < 0x100 && Pinned(e, op as u8) {
      assert e.op == op;
      Rejected(e);
    }
  }

  /** An opcode without immediate re-encodes as the instruction whose
      round trip goes through it. */
  lemma FixedReencodes(e: Encoding, i: Instruction, j: Instruction)
    requires DecodesTo(e, i) && EncodesAs(j, One(e.op))
    ensures Reencodes(e, i)
  {
    SameShape(e, One(e.op));
  }

  /** An opcode the decoder rejects has no encoding that decodes. */
  lemma Rejected(e: Encoding)
    ensures Class(e.op) != Defined ==> Interpret(e).None?
  {
    ClassifyAsTable(e.op);
  }

  // The 0x40-0x7F block: LD between registers, and HALT in place of
  // LD (HL), (HL).

  lemma RegisterLoadReencodes(e: Encoding, i: Instruction)
    requires 0x40 <= e.op < 0x80 && DecodesTo(e, i)
    ensures Reencodes(e, i)
  {
    var y, s := (e.op - 0x40) / 8, e.op % 8;
    assert e.op == 0x40 + 8 * y + s;
    if y == 6 && s == 6 {
      HaltReencodes(e, i);
    } else {
      RegisterLoadAt(e, i, y, s);
    }
  }

  lemma HaltReencodes(e: Encoding, i: Instruction)
    requires e.op == 0x76 && DecodesTo(e, i)
    ensures Reencodes(e, i)
  {
    HaltRoundTrip();
    SameShape(e, One(0x76));
  }

  lemma RegisterLoadAt(e: Encoding, i: Instruction, y: nat, s: nat)
    requires y < 8 && s < 8 && !(y == 6 && s == 6) && e.op == 0x40 + 8 * y + s && DecodesTo(e, i)
    ensures Reencodes(e, i)
  {
    RegisterLoadRoundTrip(y, s);
    SameShape(e, One(e.op));
  }

  // The 0x80-0xBF block: arithmetic and logic on A and a register, one
  // row of eight opcodes per operation; ADC and SBC are rejected.

  lemma AddRowReencodes(e: Encoding, i: Instruction)
    requires 0x80 <= e.op < 0x88 && DecodesTo(e, i)
    ensures Reencodes(e, i)
  {
    AddRegisterRoundTrip(e.op - 0x80);
    SameShape(e, One(e.op));
  }

  lemma SubtractRowReencodes(e: Encoding, i: Instruction)
    requires 0x90 <= e.op < 0x98 && DecodesTo(e, i)
    ensures Reencodes(e, i)
  {
    SubtractRegisterRoundTrip(e.op - 0x90);
    SameShape(e, One(e.op));
  }

  lemma AndRowReencodes(e: Encoding, i: Instruction)
    requires 0xA0 <= e.op < 0xA8 && DecodesTo(e, i)
    ensures Reencodes(e, i)
  {
    AndRegisterRoundTrip(e.op - 0xA0);
    SameShape(e, One(e.op));
  }

  lemma XorRowReencodes(e: Encoding, i: Instruction)
    requires 0xA8 <= e.op < 0xB0 && DecodesTo(e, i)
    ensures Reencodes(e, i)
  {
    XorRegisterRoundTrip(e.op - 0xA8);
    SameShape(e, One(e.op));
  }

  lemma OrRowReencodes(e: Encoding, i: Instruction)
    requires 0xB0 <= e.op < 0xB8 && DecodesTo(e, i)
    ensures Reencodes(e, i)
  {
    OrRegisterRoundTrip(e.op - 0xB0);
    SameShape(e, One(e.op));
  }

  lemma CompareRowReencodes(e: Encoding, i: Instruction)
    requires 0xB8 <= e.op < 0xC0 && DecodesTo(e, i)
    ensures Reencodes(e, i)
  {
    CompareRegisterRoundTrip(e.op - 0xB8);
    SameShape(e, One(e.op));
  }

  lemma RegisterArithmeticReencodes(e: Encoding, i: Instruction)
    requires 0x80 <= e.op < 0xC0 && DecodesTo(e, i)
    ensures Reencodes(e, i)
  {
    if e.op < 0x88 {
      AddRowReencodes(e, i);
    } else if e.op < 0x90 {
      Rejected(e);
      assert false;
    } else if e.op < 0x98 {
      SubtractRowReencodes(e, i);
    } else if e.op < 0xA0 {
      Rejected(e);
      assert false;
    } else if e.op < 0xA8 {
      AndRowReencodes(e, i);
    } else if e.op < 0xB0 {
      XorRowReencodes(e, i);
    } else if e.op < 0xB8 {
      OrRowReencodes(e, i);
    } else {
      CompareRowReencodes(e, i);
    }
  }

  // One lemma per group of opcodes, each proved on its own.

  lemma NoOperationReencodes(e: Encoding, i: Instruction)
    requires Pinned(e, 0x00) && DecodesTo(e, i)
    ensures Reencodes(e, i)
  {
    assert e.op == 0x00;
    NoOperationRoundTrip();
    FixedReencodes(e, i, NoOperation);
  }

  lemma RotateLeftReencodes(e: Encoding, i: Instruction)
    requires Pinned(e, 0x07) && DecodesTo(e, i)
    ensures Reencodes(e, i)
  {
    assert e.op == 0x07;
    RotateLeftRoundTrip();
    FixedReencodes(e, i, RotateContentOfRegisterToLeft(A));
  }

  lemma RotateRightReencodes(e: Encoding, i: Instruction)
    requires Pinned(e, 0x0F) && DecodesTo(e, i)
    ensures Reencodes(e, i)
  {
    assert e.op == 0x0F;
    RotateRightRoundTrip();
    FixedReencodes(e, i, RotateContentOfRegisterToRight(A));
  }

  lemma RotateLeftThroughCarryReencodes(e: Encoding, i: Instruction)
    requires Pinned(e, 0x17) && DecodesTo(e, i)
    ensures Reencodes(e, i)
  {
    assert e.op == 0x17;
    RotateLeftThroughCarryRoundTrip();
    FixedReencodes(e, i, RotateContentOfRegisterToLeftThroughCarryFlag(A));
  }

  lemma RotateRightThroughCarryReencodes(e: Encoding, i: Instruction)
    requires Pinned(e, 0x1F) && DecodesTo(e, i)
    ensures Reencodes(e, i)
  {
    assert e.op == 0x1F;
    RotateRightThroughCarryRoundTrip();
    FixedReencodes(e, i, RotateContentOfRegisterToRightThroughCarryFlag(A));
  }

  lemma DecimalAdjustReencodes(e: Encoding, i: Instruction)
    requires Pinned(e, 0x27) && DecodesTo(e, i)
    ensures Reencodes(e, i)
  {
    assert e.op == 0x27;
    DecimalAdjustRoundTrip();
    FixedReencodes(e, i, AdjustAccumulatorToBCDNumber);
  }

  lemma ComplementReencodes(e: Encoding, i: Instruction)
    requires Pinned(e, 0x2F) && DecodesTo(e, i)
    ensures Reencodes(e, i)
  {
    assert e.op == 0x2F;
    ComplementRoundTrip();
    FixedReencodes(e, i, Not(A));
  }

  lemma SetCarryReencodes(e: Encoding, i: Instruction)
    requires Pinned(e, 0x37) && DecodesTo(e, i)
    ensures Reencodes(e, i)
  {
    assert e.op == 0x37;
    SetCarryRoundTrip();
    FixedReencodes(e, i, SetCarryFlag);
  }

  lemma ComplementCarryReencodes(e: Encoding, i: Instruction)
    requires Pinned(e, 0x3F) && DecodesTo(e, i)
    ensures Reencodes(e, i)
  {
    assert e.op == 0x3F;
    ComplementCarryRoundTrip();
    FixedReencodes(e, i, NotCarryFlag);
  }

  lemma StoreThroughBCReencodes(e: Encoding, i: Instruction)
    requires Pinned(e, 0x02) && DecodesTo(e, i)
    ensures Reencodes(e, i)
  {
    assert e.op == 0x02;
    StoreThroughBCRoundTrip();
    FixedReencodes(e, i, LoadValueOfFirstRegisterIntoSecondRegister(A, BC, false, true, None, None));
  }

  lemma ReturnReencodes(e: Encoding, i: Instruction)
    requires Pinned(e, 0xC9) && DecodesTo(e, i)
    ensures Reencodes(e, i)
  {
    assert e.op == 0xC9;
    ReturnRoundTrip();
    FixedReencodes(e, i, Return);
  }

  lemma ReturnAfterInterruptReencodes(e: Encoding, i: Instruction)
    requires Pinned(e, 0xD9) && DecodesTo(e, i)
    ensures Reencodes(e, i)
  {
    assert e.op == 0xD9;
    ReturnAfterInterruptRoundTrip();
    FixedReencodes(e, i, ReturnAfterInterrupt);
  }

  lemma JumpToHLReencodes(e: Encoding, i: Instruction)
    requires Pinned(e, 0xE9) && DecodesTo(e, i)
    ensures Reencodes(e, i)
  {
    assert e.op == 0xE9;
    JumpToHLRoundTrip();
    FixedReencodes(e, i, AbsoluteJumpToAddressInRegister(HL));
  }

  lemma HLIntoStackPointerReencodes(e: Encoding, i: Instruction)
    requires Pinned(e, 0xF9) && DecodesTo(e, i)
    ensures Reencodes(e, i)
  {
    assert e.op == 0xF9;
    HLIntoStackPointerRoundTrip();
    FixedReencodes(e, i, StoreContentOfRegisterHLInStackPointer);
  }

  lemma StoreThroughCReencodes(e: Encoding, i: Instruction)
    requires Pinned(e, 0xE2) && DecodesTo(e, i)
    ensures Reencodes(e, i)
  {
    assert e.op == 0xE2;
    StoreThroughCRoundTrip();
    FixedReencodes(e, i, StoreAccumulatorInMemorySpecifiedByRegisterC);
  }

  lemma LoadThroughCReencodes(e: Encoding, i: Instruction)
    requires Pinned(e, 0xF2) && DecodesTo(e, i)
    ensures Reencodes(e, i)
  {
    assert e.op == 0xF2;
    LoadThroughCRoundTrip();
    FixedReencodes(e, i, LoadAccumulatorFromMemorySpecifiedByRegisterC);
  }

  lemma StackPointerOffsetReencodes(e: Encoding, i: Instruction)
    requires Pinned(e, 0xE8) && DecodesTo(e, i)
    ensures Reencodes(e, i)
  {
    assert e.op == 0xE8;
    StackPointerOffsetRoundTrip();
    FixedReencodes(e, i, AddValueToStackPointer);
  }

  lemma StackPointerOffsetIntoHLReencodes(e: Encoding, i: Instruction)
    requires Pinned(e, 0xF8) && DecodesTo(e, i)
    ensures Reencodes(e, i)
  {
    assert e.op == 0xF8;
    StackPointerOffsetIntoHLRoundTrip();
    FixedReencodes(e, i, AddValueToStackPointerAndStoreResultInRegisterHL);
  }

  lemma DisableInterruptsReencodes(e: Encoding, i: Instruction)
    requires Pinned(e, 0xF3) && DecodesTo(e, i)
    ensures Reencodes(e, i)
  {
    assert e.op == 0xF3;
    DisableInterruptsRoundTrip();
    FixedReencodes(e, i, ResetInterruptMasterEnableFlag);
  }

  lemma EnableInterruptsReencodes(e: Encoding, i: Instruction)
    requires Pinned(e, 0xFB) && DecodesTo(e, i)
    ensures Reencodes(e, i)
  {
    assert e.op == 0xFB;
    EnableInterruptsRoundTrip();
    FixedReencodes(e, i, SetInterruptMasterEnableFlag);
  }

  lemma IncrementRegisterReencodes(e: Encoding, i: Instruction)
    requires e.op < 0x40 && e.op % 8 == 4 && DecodesTo(e, i)
    ensures Reencodes(e, i)
  {
    var y := e.op / 8;
    assert e.op == 0x04 + 8 * y;
    IncrementRegisterAt(e, i, y);
  }

  lemma IncrementRegisterAt(e: Encoding, i: Instruction, y: nat)
    requires y < 8 && e.op == 0x04 + 8 * y && DecodesTo(e, i)
    ensures Reencodes(e, i)
  {
    IncrementRegisterRoundTrip(y);
    SameShape(e, One(e.op));
  }

  lemma DecrementRegisterReencodes(e: Encoding, i: Instruction)
    requires e.op < 0x40 && e.op % 8 == 5 && DecodesTo(e, i)
    ensures Reencodes(e, i)
  {
    var y := e.op / 8;
    assert e.op == 0x05 + 8 * y;
    DecrementRegisterAt(e, i, y);
  }

  lemma DecrementRegisterAt(e: Encoding, i: Instruction, y: nat)
    requires y < 8 && e.op == 0x05 + 8 * y && DecodesTo(e, i)
    ensures Reencodes(e, i)
  {
    DecrementRegisterRoundTrip(y);
    SameShape(e, One(e.op));
  }

  lemma LoadByteReencodes(e: Encoding, i: Instruction)
    requires e.op < 0x40 && e.op % 8 == 6 && DecodesTo(e, i)
    ensures Reencodes(e, i)
  {
    var y := e.op / 8;
    assert e.op == 0x06 + 8 * y;
    LoadByteAt(e, i, y);
  }

  lemma LoadByteAt(e: Encoding, i: Instruction, y: nat)
    requires y < 8 && e.op == 0x06 + 8 * y && DecodesTo(e, i)
    ensures Reencodes(e, i)
  {
    LoadByteRoundTrip(y, 0);
    SameShape(e, Two(e.op, 0));
    LoadByteRoundTrip(y, e.byte);
  }

  lemma LoadWordReencodes(e: Encoding, i: Instruction)
    requires e.op < 0x40 && e.op % 8 == 1 && (e.op / 8) % 2 == 0 && DecodesTo(e, i)
    ensures Reencodes(e, i)
  {
    var p := e.op / 8 / 2;
    assert e.op == 0x01 + 16 * p;
    LoadWordAt(e, i, p);
  }

  lemma LoadWordAt(e: Encoding, i: Instruction, p: nat)
    requires p < 4 && e.op == 0x01 + 16 * p && DecodesTo(e, i)
    ensures Reencodes(e, i)
  {
    LoadWordRoundTrip(p, 0);
    SameShape(e, WithWordBytes(e.op, 0));
    WordEncoding(e);
    LoadWordRoundTrip(p, FromBigEndian(e.high, e.low));
  }

  lemma AddPairReencodes(e: Encoding, i: Instruction)
    requires e.op < 0x40 && e.op % 8 == 1 && (e.op / 8) % 2 == 1 && DecodesTo(e, i)
    ensures Reencodes(e, i)
  {
    var p := e.op / 8 / 2;
    assert e.op == 0x09 + 16 * p;
    AddPairAt(e, i, p);
  }

  lemma AddPairAt(e: Encoding, i: Instruction, p: nat)
    requires p < 4 && e.op == 0x09 + 16 * p && DecodesTo(e, i)
    ensures Reencodes(e, i)
  {
    AddPairRoundTrip(p);
    SameShape(e, One(e.op));
  }

  lemma IncrementPairReencodes(e: Encoding, i: Instruction)
    requires e.op < 0x40 && e.op % 8 == 3 && (e.op / 8) % 2 == 0 && DecodesTo(e, i)
    ensures Reencodes(e, i)
  {
    var p := e.op / 8 / 2;
    assert e.op == 0x03 + 16 * p;
    IncrementPairAt(e, i, p);
  }

  lemma IncrementPairAt(e: Encoding, i: Instruction, p: nat)
    requires p < 4 && e.op == 0x03 + 16 * p && DecodesTo(e, i)
    ensures Reencodes(e, i)
  {
    IncrementPairRoundTrip(p);
    SameShape(e, One(e.op));
  }

  lemma DecrementPairReencodes(e: Encoding, i: Instruction)
    requires e.op < 0x40 && e.op % 8 == 3 && (e.op / 8) % 2 == 1 && DecodesTo(e, i)
    ensures Reencodes(e, i)
  {
    var p := e.op / 8 / 2;
    assert e.op == 0x0B + 16 * p;
    DecrementPairAt(e, i, p);
  }

  lemma DecrementPairAt(e: Encoding, i: Instruction, p: nat)
    requires p < 4 && e.op == 0x0B + 16 * p && DecodesTo(e, i)
    ensures Reencodes(e, i)
  {
    DecrementPairRoundTrip(p);
    SameShape(e, One(e.op));
  }

  lemma AccumulatorLoadReencodes(e: Encoding, i: Instruction)
    requires e.op < 0x40 && e.op % 8 == 2 && (e.op / 8) % 2 == 1 && DecodesTo(e, i)
    ensures Reencodes(e, i)
  {
    var p := e.op / 8 / 2;
    assert e.op == 0x0A + 16 * p;
    AccumulatorLoadAt(e, i, p);
  }

  lemma AccumulatorLoadAt(e: Encoding, i: Instruction, p: nat)
    requires p < 4 && e.op == 0x0A + 16 * p && DecodesTo(e, i)
    ensures Reencodes(e, i)
  {
    AccumulatorLoadRoundTrip(p);
    SameShape(e, One(e.op));
  }

  lemma StoreStackPointerReencodes(e: Encoding, i: Instruction)
    requires Pinned(e, 0x08) && DecodesTo(e, i)
    ensures Reencodes(e, i)
  {
    assert e.op == 0x08;
    StoreStackPointerRoundTrip(0);
    SameShape(e, WithWordBytes(e.op, 0));
    WordEncoding(e);
    StoreStackPointerRoundTrip(FromBigEndian(e.high, e.low));
  }

  /** STOP's padding byte is dropped, so only the zero byte comes back. */
  lemma StopReencodes(e: Encoding, i: Instruction)
    requires Pinned(e, 0x10) && DecodesTo(e, i)
    ensures Reencodes(e, i)
  {
    assert e.op == 0x10;
    StopOpcode();
    StopRoundTrip();
  }

  lemma RelativeJumpReencodes(e: Encoding, i: Instruction)
    requires Pinned(e, 0x18) && DecodesTo(e, i)
    ensures Reencodes(e, i)
  {
    assert e.op == 0x18;
    RelativeJumpRoundTrip(0);
    SameShape(e, Two(e.op, 0));
    RelativeJumpRoundTrip(e.byte);
  }

  lemma PopReencodes(e: Encoding, i: Instruction)
    requires 0xC0 <= e.op && e.op % 8 == 1 && (e.op / 8) % 2 == 0 && DecodesTo(e, i)
    ensures Reencodes(e, i)
  {
    var p := (e.op / 8 - 0x18) / 2;
    assert e.op == 0xC1 + 16 * p;
    PopAt(e, i, p);
  }

  lemma PopAt(e: Encoding, i: Instruction, p: nat)
    requires p < 4 && e.op == 0xC1 + 16 * p && DecodesTo(e, i)
    ensures Reencodes(e, i)
  {
    PopRoundTrip(p);
    SameShape(e, One(e.op));
  }

  lemma PushReencodes(e: Encoding, i: Instruction)
    requires 0xC0 <= e.op && e.op % 8 == 5 && (e.op / 8) % 2 == 0 && DecodesTo(e, i)
    ensures Reencodes(e, i)
  {
    var p := (e.op / 8 - 0x18) / 2;
    assert e.op == 0xC5 + 16 * p;
    PushAt(e, i, p);
  }

  lemma PushAt(e: Encoding, i: Instruction, p: nat)
    requires p < 4 && e.op == 0xC5 + 16 * p && DecodesTo(e, i)
    ensures Reencodes(e, i)
  {
    PushRoundTrip(p);
    SameShape(e, One(e.op));
  }

  lemma ResetReencodes(e: Encoding, i: Instruction)
    requires 0xC0 <= e.op && e.op % 8 == 7 && DecodesTo(e, i)
    ensures Reencodes(e, i)
  {
    var t := (e.op - 0xC0) / 8;
    assert e.op == 0xC7 + 8 * t;
    ResetAt(e, i, t);
  }

  lemma ResetAt(e: Encoding, i: Instruction, t: nat)
    requires t < 8 && e.op == 0xC7 + 8 * t && DecodesTo(e, i)
    ensures Reencodes(e, i)
  {
    ResetRoundTrip(t);
    SameShape(e, One(e.op));
  }

  lemma AbsoluteJumpReencodes(e: Encoding, i: Instruction)
    requires Pinned(e, 0xC3) && DecodesTo(e, i)
    ensures Reencodes(e, i)
  {
    assert e.op == 0xC3;
    AbsoluteJumpRoundTrip(0);
    SameShape(e, WithWordBytes(e.op, 0));
    WordEncoding(e);
    AbsoluteJumpRoundTrip(FromBigEndian(e.high, e.low));
  }

  lemma CallReencodes(e: Encoding, i: Instruction)
    requires Pinned(e, 0xCD) && DecodesTo(e, i)
    ensures Reencodes(e, i)
  {
    assert e.op == 0xCD;
    CallRoundTrip(0);
    SameShape(e, WithWordBytes(e.op, 0));
    WordEncoding(e);
    CallRoundTrip(FromBigEndian(e.high, e.low));
  }

  lemma AddByteReencodes(e: Encoding, i: Instruction)
    requires Pinned(e, 0xC6) && DecodesTo(e, i)
    ensures Reencodes(e, i)
  {
    assert e.op == 0xC6;
    AddByteRoundTrip(0);
    SameShape(e, Two(e.op, 0));
    AddByteRoundTrip(e.byte);
  }

  lemma AddByteWithCarryReencodes(e: Encoding, i: Instruction)
    requires Pinned(e, 0xCE) && DecodesTo(e, i)
    ensures Reencodes(e, i)
  {
    assert e.op == 0xCE;
    AddByteWithCarryRoundTrip(0);
    SameShape(e, Two(e.op, 0));
    AddByteWithCarryRoundTrip(e.byte);
  }

  lemma SubtractByteReencodes(e: Encoding, i: Instruction)
    requires Pinned(e, 0xD6) && DecodesTo(e, i)
    ensures Reencodes(e, i)
  {
    assert e.op == 0xD6;
    SubtractByteRoundTrip(0);
    SameShape(e, Two(e.op, 0));
    SubtractByteRoundTrip(e.byte);
  }

  lemma SubtractByteWithCarryReencodes(e: Encoding, i: Instruction)
    requires Pinned(e, 0xDE) && DecodesTo(e, i)
    ensures Reencodes(e, i)
  {
    assert e.op == 0xDE;
    SubtractByteWithCarryRoundTrip(0);
    SameShape(e, Two(e.op, 0));
    SubtractByteWithCarryRoundTrip(e.byte);
  }

  lemma AndByteReencodes(e: Encoding, i: Instruction)
    requires Pinned(e, 0xE6) && DecodesTo(e, i)
    ensures Reencodes(e, i)
  {
    assert e.op == 0xE6;
    AndByteRoundTrip(0);
    SameShape(e, Two(e.op, 0));
    AndByteRoundTrip(e.byte);
  }

  lemma XorByteReencodes(e: Encoding, i: Instruction)
    requires Pinned(e, 0xEE) && DecodesTo(e, i)
    ensures Reencodes(e, i)
  {
    assert e.op == 0xEE;
    XorByteRoundTrip(0);
    SameShape(e, Two(e.op, 0));
    XorByteRoundTrip(e.byte);
  }

  lemma OrByteReencodes(e: Encoding, i: Instruction)
    requires Pinned(e, 0xF6) && DecodesTo(e, i)
    ensures Reencodes(e, i)
  {
    assert e.op == 0xF6;
    OrByteRoundTrip(0);
    SameShape(e, Two(e.op, 0));
    OrByteRoundTrip(e.byte);
  }

  lemma CompareByteReencodes(e: Encoding, i: Instruction)
    requires Pinned(e, 0xFE) && DecodesTo(e, i)
    ensures Reencodes(e, i)
  {
    assert e.op == 0xFE;
    CompareByteRoundTrip(0);
    SameShape(e, Two(e.op, 0));
    CompareByteRoundTrip(e.byte);
  }

  lemma HighPageStoreReencodes(e: Encoding, i: Instruction)
    requires Pinned(e, 0xE0) && DecodesTo(e, i)
    ensures Reencodes(e, i)
  {
    assert e.op == 0xE0;
    HighPageStoreRoundTrip(0);
    SameShape(e, Two(e.op, 0));
    HighPageStoreRoundTrip(e.byte);
  }

  lemma HighPageLoadReencodes(e: Encoding, i: Instruction)
    requires Pinned(e, 0xF0) && DecodesTo(e, i)
    ensures Reencodes(e, i)
  {
    assert e.op == 0xF0;
    HighPageLoadRoundTrip(0);
    SameShape(e, Two(e.op, 0));
    HighPageLoadRoundTrip(e.byte);
  }

  /** JR cc, e (`001 cc 000`). */
  lemma ConditionalRelativeJumpReencodes(e: Encoding, i: Instruction)
    requires 0x20 <= e.op < 0x40 && e.op % 8 == 0 && DecodesTo(e, i)
    ensures Reencodes(e, i)
  {
    var cc := (e.op - 0x20) / 8;
    assert e.op == 0x20 + 8 * cc;
    if ConditionValues[cc] {
      ConditionalRelativeJumpIfOneReencodes(e, i, cc);
    } else {
      ConditionalRelativeJumpIfZeroReencodes(e, i, cc);
    }
  }

  lemma ConditionalRelativeJumpIfOneReencodes(e: Encoding, i: Instruction, cc: nat)
    requires cc < 4 && e.op == 0x20 + 8 * cc && ConditionValues[cc] && DecodesTo(e, i)
    ensures Reencodes(e, i)
  {
    ConditionSlotsInverse(cc);
    ConditionalRelativeJumpIfOneRoundTrip(ConditionFlags[cc], 0);
    SameShape(e, Two(e.op, 0));
    ConditionalRelativeJumpIfOneRoundTrip(ConditionFlags[cc], e.byte);
  }

  lemma ConditionalRelativeJumpIfZeroReencodes(e: Encoding, i: Instruction, cc: nat)
    requires cc < 4 && e.op == 0x20 + 8 * cc && !ConditionValues[cc] && DecodesTo(e, i)
    ensures Reencodes(e, i)
  {
    ConditionSlotsInverse(cc);
    ConditionalRelativeJumpIfZeroRoundTrip(ConditionFlags[cc], 0);
    SameShape(e, Two(e.op, 0));
    ConditionalRelativeJumpIfZeroRoundTrip(ConditionFlags[cc], e.byte);
  }

  /** RET cc (`110 cc 000`). */
  lemma ConditionalReturnReencodes(e: Encoding, i: Instruction)
    requires 0xC0 <= e.op < 0xE0 && e.op % 8 == 0 && DecodesTo(e, i)
    ensures Reencodes(e, i)
  {
    var cc := (e.op - 0xC0) / 8;
    assert e.op == 0xC0 + 8 * cc;
    if ConditionValues[cc] {
      ConditionalReturnIfOneReencodes(e, i, cc);
    } else {
      ConditionalReturnIfZeroReencodes(e, i, cc);
    }
  }

  lemma ConditionalReturnIfOneReencodes(e: Encoding, i: Instruction, cc: nat)
    requires cc < 4 && e.op == 0xC0 + 8 * cc && ConditionValues[cc] && DecodesTo(e, i)
    ensures Reencodes(e, i)
  {
    ConditionSlotsInverse(cc);
    ConditionalReturnIfOneRoundTrip(ConditionFlags[cc]);
    SameShape(e, One(e.op));
  }

  lemma ConditionalReturnIfZeroReencodes(e: Encoding, i: Instruction, cc: nat)
    requires cc < 4 && e.op == 0xC0 + 8 * cc && !ConditionValues[cc] && DecodesTo(e, i)
    ensures Reencodes(e, i)
  {
    ConditionSlotsInverse(cc);
    ConditionalReturnIfZeroRoundTrip(ConditionFlags[cc]);
    SameShape(e, One(e.op));
  }

  /** JP cc, nn (`110 cc 010`). */
  lemma ConditionalJumpReencodes(e: Encoding, i: Instruction)
    requires 0xC0 <= e.op < 0xE0 && e.op % 8 == 2 && DecodesTo(e, i)
    ensures Reencodes(e, i)
  {
    var cc := (e.op - 0xC0) / 8;
    assert e.op == 0xC2 + 8 * cc;
    if ConditionValues[cc] {
      ConditionalJumpIfOneReencodes(e, i, cc);
    } else {
      ConditionalJumpIfZeroReencodes(e, i, cc);
    }
  }

  lemma ConditionalJumpIfOneReencodes(e: Encoding, i: Instruction, cc: nat)
    requires cc < 4 && e.op == 0xC2 + 8 * cc && ConditionValues[cc] && DecodesTo(e, i)
    ensures Reencodes(e, i)
  {
    ConditionSlotsInverse(cc);
    ConditionalJumpIfOneRoundTrip(ConditionFlags[cc], 0);
    SameShape(e, WithWordBytes(e.op, 0));
    WordEncoding(e);
    ConditionalJumpIfOneRoundTrip(ConditionFlags[cc], FromBigEndian(e.high, e.low));
  }

  lemma ConditionalJumpIfZeroReencodes(e: Encoding, i: Instruction, cc: nat)
    requires cc < 4 && e.op == 0xC2 + 8 * cc && !ConditionValues[cc] && DecodesTo(e, i)
    ensures Reencodes(e, i)
  {
    ConditionSlotsInverse(cc);
    ConditionalJumpIfZeroRoundTrip(ConditionFlags[cc], 0);
    SameShape(e, WithWordBytes(e.op, 0));
    WordEncoding(e);
    ConditionalJumpIfZeroRoundTrip(ConditionFlags[cc], FromBigEndian(e.high, e.low));
  }

  /** CALL cc, nn (`110 cc 100`). */
  lemma ConditionalCallReencodes(e: Encoding, i: Instruction)
    requires 0xC0 <= e.op < 0xE0 && e.op % 8 == 4 && DecodesTo(e, i)
    ensures Reencodes(e, i)
  {
    var cc := (e.op - 0xC0) / 8;
    assert e.op == 0xC4 + 8 * cc;
    if ConditionValues[cc] {
      ConditionalCallIfOneReencodes(e, i, cc);
    } else {
      ConditionalCallIfZeroReencodes(e, i, cc);
    }
  }

  lemma ConditionalCallIfOneReencodes(e: Encoding, i: Instruction, cc: nat)
    requires cc < 4 && e.op == 0xC4 + 8 * cc && ConditionValues[cc] && DecodesTo(e, i)
    ensures Reencodes(e, i)
  {
    ConditionSlotsInverse(cc);
    ConditionalCallIfOneRoundTrip(ConditionFlags[cc], 0);
    SameShape(e, WithWordBytes(e.op, 0));
    WordEncoding(e);
    ConditionalCallIfOneRoundTrip(ConditionFlags[cc], FromBigEndian(e.high, e.low));
  }

  lemma ConditionalCallIfZeroReencodes(e: Encoding, i: Instruction, cc: nat)
    requires cc < 4 && e.op == 0xC4 + 8 * cc && !ConditionValues[cc] && DecodesTo(e, i)
    ensures Reencodes(e, i)
  {
    ConditionSlotsInverse(cc);
    ConditionalCallIfZeroRoundTrip(ConditionFlags[cc], 0);
    SameShape(e, WithWordBytes(e.op, 0));
    WordEncoding(e);
    ConditionalCallIfZeroRoundTrip(ConditionFlags[cc], FromBigEndian(e.high, e.low));
  }

  /** An address in page 0xFF00 spelt in the three-byte form decodes, and
      the assembler writes it in the two-byte form instead. */
  lemma AccumulatorStoreReencodes(e: Encoding, i: Instruction)
    requires Pinned(e, 0xEA) && DecodesTo(e, i)
    ensures Reencodes(e, i)
  {
    AccumulatorStoreSpellings(e, i);
  }

  lemma AccumulatorStoreSpellings(e: Encoding, i: Instruction)
    requires e.op == 0xEA && DecodesTo(e, i)
    ensures Reencodes(e, i)
  {
    AccumulatorStoreOpcode();
    WordDecoded(e, i, StoreAccumulatorInMemory(0));
    AccumulatorStoreAt(e);
  }

  lemma AccumulatorStoreAt(e: Encoding)
    requires e.op == 0xEA && e.Three?
    ensures Reencodes(e, StoreAccumulatorInMemory(FromBigEndian(e.high, e.low)))
  {
    if e.high == 0xFF {
      HighPageStoreEncoding(e.low);
    } else {
      WordEncoding(e);
      AccumulatorStoreEncoding(FromBigEndian(e.high, e.low));
    }
  }

  lemma AccumulatorLoadFromMemoryReencodes(e: Encoding, i: Instruction)
    requires Pinned(e, 0xFA) && DecodesTo(e, i)
    ensures Reencodes(e, i)
  {
    AccumulatorLoadFromMemorySpellings(e, i);
  }

  lemma AccumulatorLoadFromMemorySpellings(e: Encoding, i: Instruction)
    requires e.op == 0xFA && DecodesTo(e, i)
    ensures Reencodes(e, i)
  {
    AccumulatorLoadFromMemoryOpcode();
    WordDecoded(e, i, LoadAccumulatorFromMemory(0));
    AccumulatorLoadFromMemoryAt(e);
  }

  lemma AccumulatorLoadFromMemoryAt(e: Encoding)
    requires e.op == 0xFA && e.Three?
    ensures Reencodes(e, LoadAccumulatorFromMemory(FromBigEndian(e.high, e.low)))
  {
    if e.high == 0xFF {
      HighPageLoadEncoding(e.low);
    } else {
      WordEncoding(e);
      AccumulatorLoadFromMemoryEncoding(FromBigEndian(e.high, e.low));
    }
  }

  lemma WordDecoded(e: Encoding, i: Instruction, shape: Instruction)
    requires Classify(e.op) == ThenWord(shape) && DecodesTo(e, i)
    ensures e.Three? && i == WithWord(shape, FromBigEndian(e.high, e.low))
  {
  }

  // The columns of the two irregular quadrants, and the whole map.

  /** NOP, LD (nn), SP, STOP, JR e and JR cc, e (`00 yyy 000`). */
  lemma ControlColumnReencodes(e: Encoding, i: Instruction)
    requires e.op < 0x40 && e.op % 8 == 0 && DecodesTo(e, i)
    ensures Reencodes(e, i)
  {
    if Pinned(e, 0x00) {
      NoOperationReencodes(e, i);
    } else if Pinned(e, 0x08) {
      StoreStackPointerReencodes(e, i);
    } else if Pinned(e, 0x10) {
      StopReencodes(e, i);
    } else if Pinned(e, 0x18) {
      RelativeJumpReencodes(e, i);
    } else {
      ConditionalRelativeJumpReencodes(e, i);
    }
  }

  /** LD (rr), A and LD A, (rr) (`00 pp 0010`, `00 pp 1010`): of the stores only the one through BC decodes. */
  lemma PointerColumnReencodes(e: Encoding, i: Instruction)
    requires e.op < 0x40 && e.op % 8 == 2 && DecodesTo(e, i)
    ensures Reencodes(e, i)
  {
    if (e.op / 8) % 2 == 0 {
      PointerStoreRowReencodes(e, i);
    } else {
      AccumulatorLoadReencodes(e, i);
    }
  }

  /** LD (BC), A and the three stores that reach `unreachable!()`. */
  lemma PointerStoreRowReencodes(e: Encoding, i: Instruction)
    requires e.op < 0x40 && e.op % 8 == 2 && (e.op / 8) % 2 == 0 && DecodesTo(e, i)
    ensures Reencodes(e, i)
  {
    if Pinned(e, 0x02) {
      StoreThroughBCReencodes(e, i);
    } else {
      PointerStoreRowRejects(e);
      assert false;
    }
  }

  /** 0x12, 0x22 and 0x32 decode to nothing. */
  lemma PointerStoreRowRejects(e: Encoding)
    ensures e.op < 0x40 && e.op % 8 == 2 && (e.op / 8) % 2 == 0 && !Pinned(e, 0x02) ==> Interpret(e).None?
  {
    if Pinned(e, 0x12) {
      RejectedAt(e, 0x12);
    } else if Pinned(e, 0x22) {
      RejectedAt(e, 0x22);
    } else {
      RejectedAt(e, 0x32);
    }
  }

  /** The rotates of A, DAA, CPL, SCF and CCF (`00 yyy 111`). */
  lemma AccumulatorColumnReencodes(e: Encoding, i: Instruction)
    requires e.op < 0x40 && e.op % 8 == 7 && DecodesTo(e, i)
    ensures Reencodes(e, i)
  {
    if Pinned(e, 0x07) {
      RotateLeftReencodes(e, i);
    } else if Pinned(e, 0x0F) {
      RotateRightReencodes(e, i);
    } else if Pinned(e, 0x17) {
      RotateLeftThroughCarryReencodes(e, i);
    } else if Pinned(e, 0x1F) {
      RotateRightThroughCarryReencodes(e, i);
    } else if Pinned(e, 0x27) {
      DecimalAdjustReencodes(e, i);
    } else if Pinned(e, 0x2F) {
      ComplementReencodes(e, i);
    } else if Pinned(e, 0x37) {
      SetCarryReencodes(e, i);
    } else {
      ComplementCarryReencodes(e, i);
    }
  }

  /** Opcodes 0x00-0x3F, by column. */
  lemma Quadrant0Reencodes(e: Encoding, i: Instruction)
    requires e.op < 0x40 && DecodesTo(e, i)
    ensures Reencodes(e, i)
  {
    if e.op % 8 == 0 {
      ControlColumnReencodes(e, i);
    } else if e.op % 8 == 1 && (e.op / 8) % 2 == 0 {
      LoadWordReencodes(e, i);
    } else if e.op % 8 == 1 {
      AddPairReencodes(e, i);
    } else if e.op % 8 == 2 {
      PointerColumnReencodes(e, i);
    } else if e.op % 8 == 3 && (e.op / 8) % 2 == 0 {
      IncrementPairReencodes(e, i);
    } else if e.op % 8 == 3 {
      DecrementPairReencodes(e, i);
    } else if e.op % 8 == 4 {
      IncrementRegisterReencodes(e, i);
    } else if e.op % 8 == 5 {
      DecrementRegisterReencodes(e, i);
    } else if e.op % 8 == 6 {
      LoadByteReencodes(e, i);
    } else {
      AccumulatorColumnReencodes(e, i);
    }
  }

  /** RET cc, LDH (n), A, ADD SP, e, LDH A, (n) and LD HL, SP + e (`11 yyy 000`). */
  lemma ReturnColumnReencodes(e: Encoding, i: Instruction)
    requires 0xC0 <= e.op && e.op % 8 == 0 && DecodesTo(e, i)
    ensures Reencodes(e, i)
  {
    if e.op < 0xE0 {
      ConditionalReturnReencodes(e, i);
    } else if Pinned(e, 0xE0) {
      HighPageStoreReencodes(e, i);
    } else if Pinned(e, 0xE8) {
      StackPointerOffsetReencodes(e, i);
    } else if Pinned(e, 0xF0) {
      HighPageLoadReencodes(e, i);
    } else {
      StackPointerOffsetIntoHLReencodes(e, i);
    }
  }

  /** POP rr, RET, RETI, JP HL and LD SP, HL (`11 yyy 001`). */
  lemma PopColumnReencodes(e: Encoding, i: Instruction)
    requires 0xC0 <= e.op && e.op % 8 == 1 && DecodesTo(e, i)
    ensures Reencodes(e, i)
  {
    if (e.op / 8) % 2 == 0 {
      PopReencodes(e, i);
    } else {
      ReturnRowReencodes(e, i);
    }
  }

  /** RET, RETI, JP HL and LD SP, HL. */
  lemma ReturnRowReencodes(e: Encoding, i: Instruction)
    requires 0xC0 <= e.op && e.op % 8 == 1 && (e.op / 8) % 2 == 1 && DecodesTo(e, i)
    ensures Reencodes(e, i)
  {
    if e.op < 0xE0 {
      ReturnPairReencodes(e, i);
    } else {
      JumpPairReencodes(e, i);
    }
  }

  /** RET and RETI. */
  lemma ReturnPairReencodes(e: Encoding, i: Instruction)
    requires 0xC0 <= e.op < 0xE0 && e.op % 8 == 1 && (e.op / 8) % 2 == 1 && DecodesTo(e, i)
    ensures Reencodes(e, i)
  {
    var y := e.op / 8;
    assert e.op == 8 * y + 1;
    if y == 0x19 {
      ReturnReencodes(e, i);
    } else {
      assert y == 0x1B;
      ReturnAfterInterruptReencodes(e, i);
    }
  }

  /** JP HL and LD SP, HL. */
  lemma JumpPairReencodes(e: Encoding, i: Instruction)
    requires 0xE0 <= e.op && e.op % 8 == 1 && (e.op / 8) % 2 == 1 && DecodesTo(e, i)
    ensures Reencodes(e, i)
  {
    var y := e.op / 8;
    assert e.op == 8 * y + 1;
    if y == 0x1D {
      JumpToHLReencodes(e, i);
    } else {
      assert y == 0x1F;
      HLIntoStackPointerReencodes(e, i);
    }
  }

  /** JP cc, nn, LD (C), A, LD (nn), A, LD A, (C) and LD A, (nn) (`11 yyy 010`). */
  lemma JumpColumnReencodes(e: Encoding, i: Instruction)
    requires 0xC0 <= e.op && e.op % 8 == 2 && DecodesTo(e, i)
    ensures Reencodes(e, i)
  {
    if e.op < 0xE0 {
      ConditionalJumpReencodes(e, i);
    } else if Pinned(e, 0xE2) {
      StoreThroughCReencodes(e, i);
    } else if Pinned(e, 0xEA) {
      AccumulatorStoreReencodes(e, i);
    } else if Pinned(e, 0xF2) {
      LoadThroughCReencodes(e, i);
    } else {
      AccumulatorLoadFromMemoryReencodes(e, i);
    }
  }

  /** JP nn, DI and EI (`11 yyy 011`); the prefix 0xCB and the unassigned bytes of the column do not decode. */
  lemma PrefixColumnReencodes(e: Encoding, i: Instruction)
    requires 0xC0 <= e.op && e.op % 8 == 3 && DecodesTo(e, i)
    ensures Reencodes(e, i)
  {
    if Pinned(e, 0xC3) {
      AbsoluteJumpReencodes(e, i);
    } else if Pinned(e, 0xCB) {
      RejectedAt(e, 0xCB);
      assert false;
    } else if Pinned(e, 0xD3) {
      RejectedAt(e, 0xD3);
      assert false;
    } else if Pinned(e, 0xDB) {
      RejectedAt(e, 0xDB);
      assert false;
    } else if Pinned(e, 0xE3) {
      RejectedAt(e, 0xE3);
      assert false;
    } else if Pinned(e, 0xEB) {
      RejectedAt(e, 0xEB);
      assert false;
    } else if Pinned(e, 0xF3) {
      DisableInterruptsReencodes(e, i);
    } else {
      EnableInterruptsReencodes(e, i);
    }
  }

  /** CALL cc, nn (`110 cc 100`); the rest of the column is unassigned. */
  lemma CallColumnReencodes(e: Encoding, i: Instruction)
    requires 0xC0 <= e.op && e.op % 8 == 4 && DecodesTo(e, i)
    ensures Reencodes(e, i)
  {
    if e.op < 0xE0 {
      ConditionalCallReencodes(e, i);
    } else if Pinned(e, 0xE4) {
      RejectedAt(e, 0xE4);
      assert false;
    } else if Pinned(e, 0xEC) {
      RejectedAt(e, 0xEC);
      assert false;
    } else if Pinned(e, 0xF4) {
      RejectedAt(e, 0xF4);
      assert false;
    } else {
      RejectedAt(e, 0xFC);
      assert false;
    }
  }

  /** PUSH rr and CALL nn (`11 yyy 101`); the rest of the column is unassigned. */
  lemma PushColumnReencodes(e: Encoding, i: Instruction)
    requires 0xC0 <= e.op && e.op % 8 == 5 && DecodesTo(e, i)
    ensures Reencodes(e, i)
  {
    if (e.op / 8) % 2 == 0 {
      PushReencodes(e, i);
    } else {
      CallRowReencodes(e, i);
    }
  }

  /** CALL nn and the three unassigned opcodes beside it. */
  lemma CallRowReencodes(e: Encoding, i: Instruction)
    requires 0xC0 <= e.op && e.op % 8 == 5 && (e.op / 8) % 2 == 1 && DecodesTo(e, i)
    ensures Reencodes(e, i)
  {
    if Pinned(e, 0xCD) {
      CallReencodes(e, i);
    } else {
      CallRowRejects(e);
      assert false;
    }
  }

  /** 0xDD, 0xED and 0xFD decode to nothing. */
  lemma CallRowRejects(e: Encoding)
    ensures 0xC0 <= e.op && e.op % 8 == 5 && (e.op / 8) % 2 == 1 && !Pinned(e, 0xCD) ==> Interpret(e).None?
  {
    if Pinned(e, 0xDD) {
      RejectedAt(e, 0xDD);
    } else if Pinned(e, 0xED) {
      RejectedAt(e, 0xED);
    } else {
      RejectedAt(e, 0xFD);
    }
  }

  /** The arithmetic and logic on A and an immediate byte (`11 yyy 110`). */
  lemma ByteArithmeticColumnReencodes(e: Encoding, i: Instruction)
    requires 0xC0 <= e.op && e.op % 8 == 6 && DecodesTo(e, i)
    ensures Reencodes(e, i)
  {
    if Pinned(e, 0xC6) {
      AddByteReencodes(e, i);
    } else if Pinned(e, 0xCE) {
      AddByteWithCarryReencodes(e, i);
    } else if Pinned(e, 0xD6) {
      SubtractByteReencodes(e, i);
    } else if Pinned(e, 0xDE) {
      SubtractByteWithCarryReencodes(e, i);
    } else if Pinned(e, 0xE6) {
      AndByteReencodes(e, i);
    } else if Pinned(e, 0xEE) {
      XorByteReencodes(e, i);
    } else if Pinned(e, 0xF6) {
      OrByteReencodes(e, i);
    } else {
      CompareByteReencodes(e, i);
    }
  }

  /** Opcodes 0xC0-0xFF, by column. */
  lemma Quadrant3Reencodes(e: Encoding, i: Instruction)
    requires 0xC0 <= e.op && DecodesTo(e, i)
    ensures Reencodes(e, i)
  {
    if e.op % 8 == 0 {
      ReturnColumnReencodes(e, i);
    } else if e.op % 8 == 1 {
      PopColumnReencodes(e, i);
    } else if e.op % 8 == 2 {
      JumpColumnReencodes(e, i);
    } else if e.op % 8 == 3 {
      PrefixColumnReencodes(e, i);
    } else if e.op % 8 == 4 {
      CallColumnReencodes(e, i);
    } else if e.op % 8 == 5 {
      PushColumnReencodes(e, i);
    } else if e.op % 8 == 6 {
      ByteArithmeticColumnReencodes(e, i);
    } else {
      ResetReencodes(e, i);
    }
  }

  /** Decoding, then encoding: every instruction the decoder builds from an
      encoding has an encoding, and that is the encoding it was built from
      whenever the latter is canonical. */
  lemma DecodedReencodes(e: Encoding, i: Instruction)
    requires DecodesTo(e, i)
    ensures Reencodes(e, i)
  {
    if e.op < 0x40 {
      Quadrant0Reencodes(e, i);
    } else if e.op < 0x80 {
      RegisterLoadReencodes(e, i);
    } else if e.op < 0xC0 {
      RegisterArithmeticReencodes(e, i);
    } else {
      Quadrant3Reencodes(e, i);
    }
  }
}

=== FILE: opcode_table.dfy ===
/** An independent description of the decoder's opcode map, against which
    the decoder's nibble-by-nibble match is proved. The classes and the
    immediate lengths are lists of opcodes, grouped as the processor's
    documentation groups them; the register and condition tables are
    indexed by the 3-bit fields of an opcode `xx yyy zzz`, which the group
    lemmas of DecoderGroups take as parameters. */
module OpcodeTable {
  import opened Outcomes
  import opened Cpu
  import opened Unsigned
  import opened Isa

  /** The 8-bit operand table indexed by a 3-bit field; slot 6 is the byte
      HL points at. */
  const Operands: seq<Register> := [B, C, D, E, H, L, HL, A]

  /** The register pairs of 16-bit loads, increments and adds. */
  const Pairs: seq<Register> := [BC, DE, HL, SP]

  /** The register pairs of PUSH and POP. */
  const StackPairs: seq<Register> := [BC, DE, HL, AF]

  /** The pointers of the accumulator loads `LD A, (BC)`, `LD A, (DE)`,
      `LD A, (HL+)` and `LD A, (HL-)`, indexed by bits 5-4, and the update
      each applies to its pointer. */
  const Pointers: seq<Register> := [BC, DE, HL, HL]

  const PointerUpdates: seq<Option<MathOperation>> := [None, None, Some(Increment), Some(Decrement)]

  /** The four conditions NZ, Z, NC and C of the conditional jumps, calls
      and returns, indexed by bits 4-3: the flag each consults and the
      value the flag must have. */
  const ConditionFlags: seq<Flag> := [Z, Z, CY, CY]

  const ConditionValues: seq<bool> := [false, true, false, true]

  /** How the decoder classifies an opcode byte. */
  datatype OpcodeClass =
    | Defined        // some arm builds an instruction
    | ExtendedPrefix // 0xCB
    | Undefined      // no arm matches
    | Panics         // the arm's inner match reaches `unreachable!()`

  /** The eleven bytes the processor leaves unassigned. */
  predicate IsUnassigned(op: u8) {
    op == 0xD3 || op == 0xDB || op == 0xDD || op == 0xE3 || op == 0xE4 || op == 0xEB
    || op == 0xEC || op == 0xED || op == 0xF4 || op == 0xFC || op == 0xFD
  }

  /** ADC A, r and SBC A, r (`100 x1 zzz`), which the decoder has no arm for. */
  predicate IsCarryArithmetic(op: u8) {
    0x88 <= op <= 0x8F || 0x98 <= op <= 0x9F
  }

  /** LD (DE), A, LD (HL+), A and LD (HL-), A, whose register selection
      panics. */
  predicate IsPanickingStore(op: u8) {
    op == 0x12 || op == 0x22 || op == 0x32
  }

  function Class(op: u8): OpcodeClass {
    if op == 0xCB then ExtendedPrefix
    else if IsPanickingStore(op) then Panics
    else if IsUnassigned(op) || IsCarryArithmetic(op) then Undefined
    else Defined
  }

  /** Immediate bytes the decoder reads after the opcode. This is the
      processor's operand length except at 0xE8 and 0xF8, whose signed
      offset byte the decoder does not read. */
  function TrailingBytes(op: u8): (k: nat)
    ensures k <= 2
  {
    if op == 0x10                                         // STOP and its padding byte
       || op == 0x18 || op == 0x20 || op == 0x28 || op == 0x30 || op == 0x38 // JR e, JR cc, e
       || op == 0x06 || op == 0x0E || op == 0x16 || op == 0x1E            // LD r, n
       || op == 0x26 || op == 0x2E || op == 0x36 || op == 0x3E
       || op == 0xC6 || op == 0xCE || op == 0xD6 || op == 0xDE            // ALU A, n
       || op == 0xE6 || op == 0xEE || op == 0xF6 || op == 0xFE
       || op == 0xE0 || op == 0xF0                                        // LDH (n), A and LDH A, (n)
    then 1
    else if op == 0x01 || op == 0x11 || op == 0x21 || op == 0x31           // LD rr, nn
       || op == 0xC2 || op == 0xC3 || op == 0xCA || op == 0xD2 || op == 0xDA // JP nn, JP cc, nn
       || op == 0xC4 || op == 0xCC || op == 0xCD || op == 0xD4 || op == 0xDC // CALL nn, CALL cc, nn
       || op == 0xEA || op == 0xFA                                        // LD (nn), A and LD A, (nn)
       || op == 0x08                                                      // LD (nn), SP
    then 2
    else 0
  }
}

=== FILE: outcomes.dfy ===
/** Failure-compatible wrappers used by the decoder, and the ways a decode
    can end without an instruction. */
module Outcomes {

  /** Rust's `Option`; `:-` on an Option propagates `None`. */
  datatype Option<+T> = None | Some(value: T) {

    predicate IsFailure() {
      None?
    }

    function PropagateFailure<U>(): Option<U>
      requires None?
    {
      None
    }

    function Extract(): T
      requires Some?
    {
      value
    }
  }

  /** Rust's `Result`; `IsFailure`, `PropagateFailure` and `Extract` let the
      decoder use `:-` where the source uses `?`. */
  datatype Result<+T, +E> = Success(value: T) | Failure(error: E) {

    predicate IsFailure() {
      Failure?
    }

    function PropagateFailure<U>(): Result<U, E>
      requires Failure?
    {
      Failure(error)
    }

    function Extract(): T
      requires Success?
    {
      value
    }
  }

  /** Why a decode produced no instruction.
      - Truncated: a read of the opcode or of an immediate ran past the end
        of the buffer (the `std::io` error that `?` forwards).
      - ExtendedOpcode: the 0xCB prefix of the two-byte opcodes, which the
        decoder rejects.
      - UnknownOpcode: a byte no arm matches. The source's error does not
        carry the byte, so neither does this one.
      - Unreachable: the decoder reached an `unreachable!()` arm, which
        panics instead of returning an error. */
  datatype DecodeError = Truncated | ExtendedOpcode | UnknownOpcode | Unreachable
}

=== FILE: program.dfy ===
/** A stream of instructions. `Instruction::decode` takes the cursor by
    `&mut` and leaves it just past the instruction it read, so a caller
    that keeps decoding through the same cursor reads the instructions one
    after another. */
module Program {
  import opened Outcomes
  import opened Unsigned
  import opened ByteCursor
  import opened Isa
  import opened Decoder
  import opened Assembler
  import opened RoundTrip
  import opened Streams

  /** The instructions read one after another from a cursor, the cursor
      where reading stopped and, when it stopped before the end of the
      buffer, the failure that stopped it. On a failure, `stop` is at the
      opcode of the instruction that failed. */
  datatype Listing = Listing(instrs: seq<Instruction>, stop: Cursor, error: Option<DecodeError>)

  /** Decodes from the cursor until the buffer ends or a decode fails. Every
      instruction takes at least one byte, and reading stops either at the
      end of the buffer or at a failing decode. A failure at the cursor
      stops reading there; a success there puts its instruction first and
      reading goes on past it. */
  function DecodeAll(c: Cursor): (r: Listing)
    requires c.pos <= |c.data|
    ensures r.stop.data == c.data && c.pos <= r.stop.pos <= |c.data|
    ensures |r.instrs| <= r.stop.pos - c.pos
    ensures r.error.None? <==> r.stop.pos == |c.data|
    ensures r.error.Some? ==> Decode(r.stop) == Failure(r.error.value)
    ensures c.pos < |c.data| && Decode(c).Failure? ==> r.instrs == [] && r.stop == c
    ensures c.pos < |c.data| && Decode(c).Success? ==>
      && r.instrs != [] && r.instrs[0] == Decode(c).value.instr
      && Decode(c).value.next.pos <= r.stop.pos
    decreases |c.data| - c.pos
  {
    if c.pos == |c.data| then Listing([], c, None)
    else
      match Decode(c)
      case Failure(e) => Listing([], c, Some(e))
      case Success(d) =>
        var rest := DecodeAll(d.next);
        Listing([d.instr] + rest.instrs, rest.stop, rest.error)
  }

  /** The bytes of a program: the encodings of its instructions, one after
      another, or None when one of them has no encoding. */
  function Assemble(p: seq<Instruction>): (r: Option<seq<u8>>)
    ensures r.Some? ==> |p| <= |r.value| <= 3 * |p|
    ensures r.Some? <==> forall k :: 0 <= k < |p| ==> Encode(p[k]).Some?
    decreases |p|
  {
    if p == [] then Some([])
    else
      var e :- Encode(p[0]);
      var rest :- Assemble(p[1..]);
      Some(e.Bytes() + rest)
  }

  /** Reading on after a successful decode. */
  lemma DecodeAllStep(c: Cursor, d: Decoded)
    requires c.pos < |c.data| && Decode(c) == Success(d)
    ensures DecodeAll(c) == Listing([d.instr] + DecodeAll(d.next).instrs, DecodeAll(d.next).stop, DecodeAll(d.next).error)
  {
  }

  /** An assembled program, found at the cursor and running to the end of
      the buffer, decodes to the program, instruction by instruction. */
  lemma {:induction false} AssembledProgramDecodes(p: seq<Instruction>, c: Cursor)
    requires Assemble(p).Some? && c.pos <= |c.data| && c.data[c.pos..] == Assemble(p).value
    ensures DecodeAll(c) == Listing(p, Cursor(c.data, |c.data|), None)
    decreases |p|
  {
    if p == [] {
      assert c.pos == |c.data|;
    } else {
      var next := FirstInstruction(p, c);
      AssembledProgramDecodes(p[1..], next);
      DecodeAllStep(c, Decoded(p[0], next));
      assert [p[0]] + p[1..] == p;
    }
  }

  /** The first instruction of an assembled program decodes from its
      bytes, and the rest of the program stands after them. */
  lemma FirstInstruction(p: seq<Instruction>, c: Cursor) returns (next: Cursor)
    requires p != [] && Assemble(p).Some? && c.pos <= |c.data| && c.data[c.pos..] == Assemble(p).value
    ensures Decode(c) == Success(Decoded(p[0], next))
    ensures Assemble(p[1..]).Some? && next.pos <= |next.data| && next.data[next.pos..] == Assemble(p[1..]).value
  {
    var bytes := Assemble(p).value;
    var e := Encode(p[0]).value;
    var rest := Assemble(p[1..]).value;
    var n := |e.Bytes()|;
    assert bytes == e.Bytes() + rest;
    assert c.data[c.pos .. c.pos + n] == bytes[..n] == e.Bytes();
    Streams.EncodeThenDecode(p[0], c);
    next := Cursor(c.data, c.pos + n);
    assert next.data[next.pos..] == bytes[n..] == rest;
  }

  /** Every instruction read from the cursor on was stored in the
      spelling the assembler writes. */
  predicate CanonicalFrom(c: Cursor)
    requires c.pos <= |c.data|
    decreases |c.data| - c.pos
  {
    c.pos == |c.data| ||
    match Decode(c)
    case Failure(_) => true
    case Success(d) => Canonical(Spelled(c, d.next.pos - c.pos)) && CanonicalFrom(d.next)
  }

  /** A stream that decodes to the end reassembles: every instruction read
      has an encoding, and when the stream used the assembler's spellings
      the program assembles to exactly the bytes read. */
  lemma {:induction false} DecodedProgramReassembles(c: Cursor)
    requires c.pos <= |c.data| && DecodeAll(c).error.None?
    ensures Assemble(DecodeAll(c).instrs).Some?
    ensures CanonicalFrom(c) ==> Assemble(DecodeAll(c).instrs) == Some(c.data[c.pos..])
    decreases |c.data| - c.pos
  {
    if c.pos < |c.data| {
      var d := Decode(c).value;
      DecodedProgramReassembles(d.next);
      ReassemblesStep(c, d);
      if CanonicalFrom(c) {
        CanonicalStep(c, d);
        ReassemblesCanonicalStep(c, d);
      }
    } else {
      assert c.data[c.pos..] == [];
    }
  }

  /** One instruction more: the program read from `c` assembles when the
      program read after its first instruction does. */
  lemma ReassemblesStep(c: Cursor, d: Decoded)
    requires c.pos < |c.data| && Decode(c) == Success(d)
    requires Assemble(DecodeAll(d.next).instrs).Some?
    ensures Assemble(DecodeAll(c).instrs).Some?
  {
    Streams.DecodeThenEncode(c);
    DecodeAllStep(c, d);
    AssembleCons(d.instr, DecodeAll(d.next).instrs);
  }

  /** The same for the bytes, when the first instruction was stored in the
      assembler's spelling. */
  lemma ReassemblesCanonicalStep(c: Cursor, d: Decoded)
    requires c.pos < |c.data| && Decode(c) == Success(d) && Canonical(Spelled(c, d.next.pos - c.pos))
    requires Assemble(DecodeAll(d.next).instrs) == Some(c.data[d.next.pos..])
    ensures Assemble(DecodeAll(c).instrs) == Some(c.data[c.pos..])
  {
    FirstBytes(c, d);
    DecodeAllStep(c, d);
    AssembleSlices(d.instr, DecodeAll(d.next).instrs, c.data, c.pos, d.next.pos);
  }

  /** An instruction stored at `data[low..middle]` followed by a program
      stored at `data[middle..]` is a program stored at `data[low..]`. */
  lemma AssembleSlices(i: Instruction, rest: seq<Instruction>, data: seq<u8>, low: nat, middle: nat)
    requires low <= middle <= |data|
    requires Encode(i).Some? && Encode(i).value.Bytes() == data[low..middle]
    requires Assemble(rest) == Some(data[middle..])
    ensures Assemble([i] + rest) == Some(data[low..])
  {
    AssembleCons(i, rest);
    assert data[low..] == data[low..middle] + data[middle..];
  }

  /** A decoded instruction in the assembler's spelling encodes to the bytes
      it was read from. */
  lemma FirstBytes(c: Cursor, d: Decoded)
    requires c.pos < |c.data| && Decode(c) == Success(d) && Canonical(Spelled(c, d.next.pos - c.pos))
    ensures Encode(d.instr).Some? && Encode(d.instr).value.Bytes() == c.data[c.pos .. d.next.pos]
  {
    Streams.DecodeThenEncode(c);
  }

  /** Assembling is concatenating the instructions' encodings. */
  lemma AssembleCons(i: Instruction, rest: seq<Instruction>)
    requires Encode(i).Some? && Assemble(rest).Some?
    ensures Assemble([i] + rest) == Some(Encode(i).value.Bytes() + Assemble(rest).value)
  {
    assert ([i] + rest)[1..] == rest;
  }

  /** Unfolds `CanonicalFrom` by one instruction. */
  lemma CanonicalStep(c: Cursor, d: Decoded)
    requires c.pos < |c.data| && Decode(c) == Success(d)
    ensures CanonicalFrom(c) <==> Canonical(Spelled(c, d.next.pos - c.pos)) && CanonicalFrom(d.next)
  {
  }

  /** Disassembles a program image: decode at the cursor and move on,
      until the image ends or a decode fails. */
  method Disassemble(data: seq<u8>) returns (instrs: seq<Instruction>, stop: nat, error: Option<DecodeError>)
    ensures stop <= |data| && |instrs| <= stop
    ensures error.None? <==> stop == |data|
    ensures error.Some? ==> Decode(Cursor(data, stop)) == Failure(error.value)
    ensures DecodeAll(Cursor(data, 0)) == Listing(instrs, Cursor(data, stop), error)
  {
    var c := Cursor(data, 0);
    instrs := [];
    while c.pos < |data|
      invariant c.data == data && c.pos <= |data|
      invariant DecodeAll(Cursor(data, 0)) ==
                Listing(instrs + DecodeAll(c).instrs, DecodeAll(c).stop, DecodeAll(c).error)
      decreases |data| - c.pos
    {
      match Decode(c) {
        case Failure(e) =>
          return instrs, c.pos, Some(e);
        case Success(d) =>
          assert instrs + DecodeAll(c).instrs == (instrs + [d.instr]) + DecodeAll(d.next).instrs;
          instrs := instrs + [d.instr];
          c := d.next;
      }
    }
    return instrs, c.pos, None;
  }
}

=== FILE: roundtrip.dfy ===
/** The assembler and the decoder are inverse to each other: every
    encoding decodes to its instruction, and every decoded instruction
    encodes to the bytes it was decoded from, except where the decoder
    ignores a byte (STOP's padding) or accepts a second spelling (a
    page-0xFF00 address in the three-byte form). */
module RoundTrip {
  import opened Outcomes
  import opened Cpu
  import opened Unsigned
  import opened ByteCursor
  import opened Isa
  import opened Decoder
  import opened OpcodeTable
  import opened DecoderGroups
  import opened Assembler
  import opened AssemblerGroups

  /** The instruction the decoder builds from the opcode of `e` when the
      immediate bytes `e` holds are exactly the ones the opcode asks for. */
  function Interpret(e: Encoding): (r: Option<Instruction>)
    ensures r.Some? ==> Classify(e.op).Success?
  {
    match Classify(e.op)
    case Failure(_) => None
    case Success(plan) =>
      match (plan.operand, e)
      case (NoOperand, One(_)) => Some(plan.shape)
      case (ByteOperand, Two(_, n)) => Some(WithByte(plan.shape, n))
      case (HighPageOperand, Two(_, n)) => Some(WithWord(plan.shape, 0xFF00 + n as int))
      case (WordOperand, Three(_, high, low)) => Some(WithWord(plan.shape, FromBigEndian(high, low)))
      case _ => None
  }

  predicate DecodesTo(e: Encoding, i: Instruction) {
    Interpret(e) == Some(i)
  }

  /** The decoder ignores STOP's second byte, and it also accepts an
      address in page 0xFF00 in the three-byte forms 0xEA and 0xFA. The
      assembler writes a zero padding byte and the two-byte forms 0xE0 and
      0xF0 instead, so those spellings are the only ones it does not
      reproduce. */
  predicate Canonical(e: Encoding) {
    && (e.op == 0x10 ==> e == Two(0x10, 0x00))
    && (e.Three? && (e.op == 0xEA || e.op == 0xFA) ==> e.high != 0xFF)
  }

  /** `e` is the assembler's encoding of `i`, it is canonical, and it
      decodes back to `i`. */
  predicate EncodesAs(i: Instruction, e: Encoding) {
    Encode(i) == Some(e) && Canonical(e) && DecodesTo(e, i)
  }

  // One lemma per group of the opcode map: the assembler puts the fields
  // where the decoder finds them.

  lemma IncrementRegisterRoundTrip(y: nat)
    requires y < 8
    ensures EncodesAs(IncrementValueInRegister(Operands[y], y == 6), One(0x04 + 8 * y))
  {
    IncrementRegisterEncoding(y);
    IncrementRegisterGroup(y);
  }

  lemma DecrementRegisterRoundTrip(y: nat)
    requires y < 8
    ensures EncodesAs(DecrementValueInRegister(Operands[y], y == 6), One(0x05 + 8 * y))
  {
    DecrementRegisterEncoding(y);
    DecrementRegisterGroup(y);
  }

  lemma LoadByteRoundTrip(y: nat, n: u8)
    requires y < 8
    ensures EncodesAs(LoadOneByteOfDataIntoRegister(n, Operands[y], y == 6), Two(0x06 + 8 * y, n))
  {
    LoadByteEncoding(y, n);
    LoadByteGroup(y);
  }

  lemma LoadWordRoundTrip(p: nat, w: u16)
    requires p < 4
    ensures EncodesAs(LoadTwoBytesOfDataIntoRegister(w, Pairs[p]), WithWordBytes(0x01 + 16 * p, w))
  {
    LoadWordEncoding(p, w);
    PairGroups(p);
  }

  lemma IncrementPairRoundTrip(p: nat)
    requires p < 4
    ensures EncodesAs(IncrementValueInRegister(Pairs[p], false), One(0x03 + 16 * p))
  {
    IncrementPairEncoding(p);
    PairGroups(p);
  }

  lemma DecrementPairRoundTrip(p: nat)
    requires p < 4
    ensures EncodesAs(DecrementValueInRegister(Pairs[p], false), One(0x0B + 16 * p))
  {
    DecrementPairEncoding(p);
    PairGroups(p);
  }

  lemma AddPairRoundTrip(p: nat)
    requires p < 4
    ensures EncodesAs(AddValueOfSecondRegisterToFirstRegister(HL, Pairs[p], false), One(0x09 + 16 * p))
  {
    AddPairEncoding(p);
    PairGroups(p);
  }

  lemma AccumulatorLoadRoundTrip(p: nat)
    requires p < 4
    ensures EncodesAs(LoadValueOfFirstRegisterIntoSecondRegister(Pointers[p], A, true, false, PointerUpdates[p], None),
                      One(0x0A + 16 * p))
  {
    AccumulatorLoadEncoding(p);
    AccumulatorLoadGroup(p);
  }

  lemma PopRoundTrip(p: nat)
    requires p < 4
    ensures EncodesAs(PopValueFromStackIntoRegister(StackPairs[p]), One(0xC1 + 16 * p))
  {
    PopEncoding(p);
    StackGroups(p);
  }

  lemma PushRoundTrip(p: nat)
    requires p < 4
    ensures EncodesAs(PushValueOfRegisterOntoStack(StackPairs[p]), One(0xC5 + 16 * p))
  {
    PushEncoding(p);
    StackGroups(p);
  }

  lemma RegisterLoadRoundTrip(y: nat, s: nat)
    requires y < 8 && s < 8 && !(y == 6 && s == 6)
    ensures EncodesAs(LoadValueOfFirstRegisterIntoSecondRegister(
                        Operands[s], Operands[y], s == 6, y == 6 || (y == 7 && s < 6), None, None),
                      One(0x40 + 8 * y + s))
  {
    RegisterLoadEncoding(y, s);
    RegisterLoadBlock(y, s);
  }

  lemma AddRegisterRoundTrip(s: nat)
    requires s < 8
    ensures EncodesAs(AddValueOfSecondRegisterToFirstRegister(Operands[s], A, s == 6), One(0x80 + s))
  {
    AddRegisterEncoding(s);
    RegisterArithmeticBlock(s);
  }

  lemma SubtractRegisterRoundTrip(s: nat)
    requires s < 8
    ensures EncodesAs(SubtractValueOfSecondRegisterFromFirstRegister(Operands[s], A, s == 6), One(0x90 + s))
  {
    SubtractRegisterEncoding(s);
    RegisterArithmeticBlock(s);
  }

  lemma AndRegisterRoundTrip(s: nat)
    requires s < 8
    ensures EncodesAs(LogicalAndOnAccumulatorAndRegister(Operands[s], s == 6), One(0xA0 + s))
  {
    AndRegisterEncoding(s);
    RegisterArithmeticBlock(s);
  }

  lemma XorRegisterRoundTrip(s: nat)
    requires s < 8
    ensures EncodesAs(LogicalXorOnAccumulatorAndRegister(Operands[s], s == 6), One(0xA8 + s))
  {
    XorRegisterEncoding(s);
    RegisterArithmeticBlock(s);
  }

  lemma OrRegisterRoundTrip(s: nat)
    requires s < 8
    ensures EncodesAs(LogicalOrOnAccumulatorAndRegister(Operands[s], s == 6), One(0xB0 + s))
  {
    OrRegisterEncoding(s);
    RegisterArithmeticBlock(s);
  }

  lemma CompareRegisterRoundTrip(s: nat)
    requires s < 8
    ensures EncodesAs(CompareAccumulatorAndRegister(Operands[s], s == 6), One(0xB8 + s))
  {
    CompareRegisterEncoding(s);
    RegisterArithmeticBlock(s);
  }

  lemma ConditionalJumpIfZeroRoundTrip(flag: Flag, w: u16)
    ensures EncodesAs(AbsoluteJumpIfFlagIsZero(flag, w), WithWordBytes(0xC2 + 8 * ConditionSlot(flag, false), w))
  {
    ConditionalJumpIfZeroEncoding(flag, w);
    ConditionalJumpGroup(ConditionSlot(flag, false));
  }

  lemma ConditionalJumpIfOneRoundTrip(flag: Flag, w: u16)
    ensures EncodesAs(AbsoluteJumpIfFlagIsOne(flag, w), WithWordBytes(0xC2 + 8 * ConditionSlot(flag, true), w))
  {
    ConditionalJumpIfOneEncoding(flag, w);
    ConditionalJumpGroup(ConditionSlot(flag, true));
  }

  lemma ConditionalCallIfZeroRoundTrip(flag: Flag, w: u16)
    ensures EncodesAs(CallIfFlagIsZero(flag, w), WithWordBytes(0xC4 + 8 * ConditionSlot(flag, false), w))
  {
    ConditionalCallIfZeroEncoding(flag, w);
    ConditionalCallGroup(ConditionSlot(flag, false));
  }

  lemma ConditionalCallIfOneRoundTrip(flag: Flag, w: u16)
    ensures EncodesAs(CallIfFlagIsOne(flag, w), WithWordBytes(0xC4 + 8 * ConditionSlot(flag, true), w))
  {
    ConditionalCallIfOneEncoding(flag, w);
    ConditionalCallGroup(ConditionSlot(flag, true));
  }

  lemma ResetRoundTrip(t: nat)
    requires t < 8
    ensures EncodesAs(Reset(t), One(0xC7 + 8 * t))
  {
    ResetEncoding(t);
    ResetGroup(t);
  }

  lemma NoOperationRoundTrip()
    ensures EncodesAs(NoOperation, One(0x00))
  {
    NoOperationEncoding();
    NoOperationOpcode();
  }

  lemma HaltRoundTrip()
    ensures EncodesAs(Halt, One(0x76))
  {
    HaltEncoding();
    HaltOpcode();
  }

  lemma ReturnRoundTrip()
    ensures EncodesAs(Return, One(0xC9))
  {
    ReturnEncoding();
    ReturnOpcode();
  }

  lemma ReturnAfterInterruptRoundTrip()
    ensures EncodesAs(ReturnAfterInterrupt, One(0xD9))
  {
    ReturnAfterInterruptEncoding();
    ReturnAfterInterruptOpcode();
  }

  lemma DisableInterruptsRoundTrip()
    ensures EncodesAs(ResetInterruptMasterEnableFlag, One(0xF3))
  {
    DisableInterruptsEncoding();
    DisableInterruptsOpcode();
  }

  lemma EnableInterruptsRoundTrip()
    ensures EncodesAs(SetInterruptMasterEnableFlag, One(0xFB))
  {
    EnableInterruptsEncoding();
    EnableInterruptsOpcode();
  }

  lemma RotateLeftRoundTrip()
    ensures EncodesAs(RotateContentOfRegisterToLeft(A), One(0x07))
  {
    RotateLeftEncoding();
    RotateLeftOpcode();
  }

  lemma RotateLeftThroughCarryRoundTrip()
    ensures EncodesAs(RotateContentOfRegisterToLeftThroughCarryFlag(A), One(0x17))
  {
    RotateLeftThroughCarryEncoding();
    RotateLeftThroughCarryOpcode();
  }

  lemma RotateRightRoundTrip()
    ensures EncodesAs(RotateContentOfRegisterToRight(A), One(0x0F))
  {
    RotateRightEncoding();
    RotateRightOpcode();
  }

  lemma RotateRightThroughCarryRoundTrip()
    ensures EncodesAs(RotateContentOfRegisterToRightThroughCarryFlag(A), One(0x1F))
  {
    RotateRightThroughCarryEncoding();
    RotateRightThroughCarryOpcode();
  }

  lemma DecimalAdjustRoundTrip()
    ensures EncodesAs(AdjustAccumulatorToBCDNumber, One(0x27))
  {
    DecimalAdjustEncoding();
    DecimalAdjustOpcode();
  }

  lemma ComplementRoundTrip()
    ensures EncodesAs(Not(A), One(0x2F))
  {
    ComplementEncoding();
    ComplementOpcode();
  }

  lemma SetCarryRoundTrip()
    ensures EncodesAs(SetCarryFlag, One(0x37))
  {
    SetCarryEncoding();
    SetCarryOpcode();
  }

  lemma ComplementCarryRoundTrip()
    ensures EncodesAs(NotCarryFlag, One(0x3F))
  {
    ComplementCarryEncoding();
    ComplementCarryOpcode();
  }

  lemma StoreThroughCRoundTrip()
    ensures EncodesAs(StoreAccumulatorInMemorySpecifiedByRegisterC, One(0xE2))
  {
    StoreThroughCEncoding();
    StoreThroughCOpcode();
  }

  lemma LoadThroughCRoundTrip()
    ensures EncodesAs(LoadAccumulatorFromMemorySpecifiedByRegisterC, One(0xF2))
  {
    LoadThroughCEncoding();
    LoadThroughCOpcode();
  }

  lemma StackPointerOffsetRoundTrip()
    ensures EncodesAs(AddValueToStackPointer, One(0xE8))
  {
    StackPointerOffsetEncoding();
    StackPointerOffsetOpcode();
  }

  lemma StackPointerOffsetIntoHLRoundTrip()
    ensures EncodesAs(AddValueToStackPointerAndStoreResultInRegisterHL, One(0xF8))
  {
    StackPointerOffsetIntoHLEncoding();
    StackPointerOffsetIntoHLOpcode();
  }

  lemma JumpToHLRoundTrip()
    ensures EncodesAs(AbsoluteJumpToAddressInRegister(HL), One(0xE9))
  {
    JumpToHLEncoding();
    JumpToHLOpcode();
  }

  lemma HLIntoStackPointerRoundTrip()
    ensures EncodesAs(StoreContentOfRegisterHLInStackPointer, One(0xF9))
  {
    HLIntoStackPointerEncoding();
    HLIntoStackPointerOpcode();
  }

  lemma StoreThroughBCRoundTrip()
    ensures EncodesAs(LoadValueOfFirstRegisterIntoSecondRegister(A, BC, false, true, None, None), One(0x02))
  {
    StoreThroughBCEncoding();
    StoreThroughBCOpcode();
  }

  lemma AddByteRoundTrip(n: u8)
    ensures EncodesAs(AddOneByteToAccumulator(n), Two(0xC6, n))
  {
    AddByteEncoding(n);
    AddByteOpcode();
  }

  lemma AddByteWithCarryRoundTrip(n: u8)
    ensures EncodesAs(AddOneByteAndCarryFlagToAccumulator(n), Two(0xCE, n))
  {
    AddByteWithCarryEncoding(n);
    AddByteWithCarryOpcode();
  }

  lemma SubtractByteRoundTrip(n: u8)
    ensures EncodesAs(SubtractOneByteFromAccumulator(n), Two(0xD6, n))
  {
    SubtractByteEncoding(n);
    SubtractByteOpcode();
  }

  lemma SubtractByteWithCarryRoundTrip(n: u8)
    ensures EncodesAs(SubtractOneByteAndCarryFlagFromAccumulator(n), Two(0xDE, n))
  {
    SubtractByteWithCarryEncoding(n);
    SubtractByteWithCarryOpcode();
  }

  lemma AndByteRoundTrip(n: u8)
    ensures EncodesAs(LogicalAndOnAccumulatorAndOneByte(n), Two(0xE6, n))
  {
    AndByteEncoding(n);
    AndByteOpcode();
  }

  lemma XorByteRoundTrip(n: u8)
    ensures EncodesAs(LogicalXorOnAccumulatorAndOneByte(n), Two(0xEE, n))
  {
    XorByteEncoding(n);
    XorByteOpcode();
  }

  lemma OrByteRoundTrip(n: u8)
    ensures EncodesAs(LogicalOrOnAccumulatorAndOneByte(n), Two(0xF6, n))
  {
    OrByteEncoding(n);
    OrByteOpcode();
  }

  lemma CompareByteRoundTrip(n: u8)
    ensures EncodesAs(CompareAccumulatorAndOneByte(n), Two(0xFE, n))
  {
    CompareByteEncoding(n);
    CompareByteOpcode();
  }

  /** STOP is written with a zero padding byte, which the decoder drops. */
  lemma StopRoundTrip()
    ensures EncodesAs(Stop, Two(0x10, 0x00))
  {
    StopEncoding();
    StopOpcode();
  }

  lemma RelativeJumpRoundTrip(e: u8)
    ensures EncodesAs(RelativeJump(e), Two(0x18, e))
  {
    RelativeJumpEncoding(e);
    RelativeJumpOpcode();
  }

  lemma AbsoluteJumpRoundTrip(w: u16)
    ensures EncodesAs(AbsoluteJump(w), WithWordBytes(0xC3, w))
  {
    AbsoluteJumpEncoding(w);
    AbsoluteJumpOpcode();
  }

  lemma CallRoundTrip(w: u16)
    ensures EncodesAs(Call(w), WithWordBytes(0xCD, w))
  {
    CallEncoding(w);
    CallOpcode();
  }

  lemma StoreStackPointerRoundTrip(w: u16)
    ensures EncodesAs(StoreStackPointerInMemory(w), WithWordBytes(0x08, w))
  {
    StoreStackPointerEncoding(w);
    StoreStackPointerOpcode();
  }

  /** The accumulator is stored to an address in page 0xFF00 in the
      two-byte form, and to any other in the three-byte form; loads mirror
      stores. */
  lemma HighPageStoreRoundTrip(n: u8)
    ensures EncodesAs(StoreAccumulatorInMemory(0xFF00 + n as int), Two(0xE0, n))
  {
    HighPageStoreEncoding(n);
    HighPageStoreOpcode();
  }

  lemma HighPageLoadRoundTrip(n: u8)
    ensures EncodesAs(LoadAccumulatorFromMemory(0xFF00 + n as int), Two(0xF0, n))
  {
    HighPageLoadEncoding(n);
    HighPageLoadOpcode();
  }

  lemma AccumulatorStoreRoundTrip(w: u16)
    requires w < 0xFF00
    ensures EncodesAs(StoreAccumulatorInMemory(w), WithWordBytes(0xEA, w))
  {
    AccumulatorStoreEncoding(w);
    AccumulatorStoreOpcode();
  }

  lemma AccumulatorLoadFromMemoryRoundTrip(w: u16)
    requires w < 0xFF00
    ensures EncodesAs(LoadAccumulatorFromMemory(w), WithWordBytes(0xFA, w))
  {
    AccumulatorLoadFromMemoryEncoding(w);
    AccumulatorLoadFromMemoryOpcode();
  }

  lemma ConditionalRelativeJumpIfZeroRoundTrip(flag: Flag, e: u8)
    ensures EncodesAs(RelativeJumpIfFlagIsZero(flag, e), Two(0x20 + 8 * ConditionSlot(flag, false), e))
  {
    ConditionalRelativeJumpIfZeroEncoding(flag, e);
    RelativeJumpGroup(ConditionSlot(flag, false));
  }

  lemma ConditionalReturnIfZeroRoundTrip(flag: Flag)
    ensures EncodesAs(ReturnIfFlagIsZero(flag), One(0xC0 + 8 * ConditionSlot(flag, false)))
  {
    ConditionalReturnIfZeroEncoding(flag);
    ConditionalReturnGroup(ConditionSlot(flag, false));
  }

  lemma ConditionalRelativeJumpIfOneRoundTrip(flag: Flag, e: u8)
    ensures EncodesAs(RelativeJumpIfFlagIsOne(flag, e), Two(0x20 + 8 * ConditionSlot(flag, true), e))
  {
    ConditionalRelativeJumpIfOneEncoding(flag, e);
    RelativeJumpGroup(ConditionSlot(flag, true));
  }

  lemma ConditionalReturnIfOneRoundTrip(flag: Flag)
    ensures EncodesAs(ReturnIfFlagIsOne(flag), One(0xC0 + 8 * ConditionSlot(flag, true)))
  {
    ConditionalReturnIfOneEncoding(flag);
    ConditionalReturnGroup(ConditionSlot(flag, true));
  }
}

=== FILE: streams.dfy ===
/** The decoder reading from a byte stream: the bytes of an encoding, found
    at the cursor, decode to the instruction the encoding stands for and
    leave the cursor just past them; conversely, whatever Decode reads is
    such an encoding. */
module Streams {
  import opened Outcomes
  import opened Unsigned
  import opened ByteCursor
  import opened Isa
  import opened Decoder
  import opened Assembler
  import opened RoundTrip
  import opened OpcodeTable
  import opened DecoderFacts
  import opened DecoderGroups
  import Inverse
  import Assembled

  /** The bytes of `e` stand at the cursor's position. */
  predicate At(e: Encoding, c: Cursor) {
    c.pos + |e.Bytes()| <= |c.data| && c.data[c.pos .. c.pos + |e.Bytes()|] == e.Bytes()
  }

  /** What the plan of an opcode makes of the rest of an encoding. */
  predicate Completes(plan: Plan, e: Encoding, i: Instruction) {
    match e
    case One(_) => plan.operand == NoOperand && i == plan.shape
    case Two(_, n) =>
      || (plan.operand == ByteOperand && i == WithByte(plan.shape, n))
      || (plan.operand == HighPageOperand && i == WithWord(plan.shape, 0xFF00 + n as int))
    case Three(_, high, low) => plan.operand == WordOperand && i == WithWord(plan.shape, FromBigEndian(high, low))
  }

  /** An encoding decodes to `i` exactly when its opcode classifies to a
      plan that the rest of the encoding completes to `i`. */
  lemma Completed(e: Encoding, i: Instruction)
    ensures DecodesTo(e, i) <==> Classify(e.op).Success? && Completes(Classify(e.op).value, e, i)
  {
    if DecodesTo(e, i) {
      CompletedOnlyIf(e, i);
    } else if Classify(e.op).Success? && Completes(Classify(e.op).value, e, i) {
      CompletedIf(e, i, Classify(e.op).value);
    }
  }

  lemma CompletedOnlyIf(e: Encoding, i: Instruction)
    requires DecodesTo(e, i)
    ensures Classify(e.op).Success? && Completes(Classify(e.op).value, e, i)
  {
  }

  lemma CompletedIf(e: Encoding, i: Instruction, plan: Plan)
    requires Classify(e.op) == Success(plan) && Completes(plan, e, i)
    ensures DecodesTo(e, i)
  {
  }

  /** Decode is Fetch of the plan the opcode at the cursor classifies to. */
  lemma DecodeFetches(c: Cursor, plan: Plan)
    requires c.pos < |c.data| && Classify(c.data[c.pos]) == Success(plan)
    ensures Decode(c) == Fetch(plan, Cursor(c.data, c.pos + 1))
  {
  }

  // Fetch for each kind of immediate, in terms of the bytes at the cursor.

  lemma FetchNothing(plan: Plan, c: Cursor)
    requires plan.operand == NoOperand && c.pos <= |c.data|
    ensures Fetch(plan, c) == Done(plan.shape, c)
  {
  }

  lemma FetchByte(plan: Plan, c: Cursor)
    requires plan.operand == ByteOperand && c.pos < |c.data|
    ensures Fetch(plan, c) == Done(WithByte(plan.shape, c.data[c.pos]), Cursor(c.data, c.pos + 1))
  {
  }

  lemma FetchHighPage(plan: Plan, c: Cursor)
    requires plan.operand == HighPageOperand && c.pos < |c.data|
    ensures Fetch(plan, c) == Done(WithWord(plan.shape, 0xFF00 + c.data[c.pos] as int), Cursor(c.data, c.pos + 1))
  {
  }

  lemma FetchWord(plan: Plan, c: Cursor)
    requires plan.operand == WordOperand && c.pos + 2 <= |c.data|
    ensures Fetch(plan, c) == Done(WithWord(plan.shape, FromBigEndian(c.data[c.pos], c.data[c.pos + 1])), Cursor(c.data, c.pos + 2))
  {
  }

  /** Fetch reads the immediate of the encoding found at the cursor. */
  lemma FetchReads(plan: Plan, e: Encoding, i: Instruction, c: Cursor)
    requires Completes(plan, e, i) && At(e, c)
    ensures Fetch(plan, Cursor(c.data, c.pos + 1)) == Done(i, Cursor(c.data, c.pos + |e.Bytes()|))
  {
    var bytes := e.Bytes();
    var next := Cursor(c.data, c.pos + 1);
    match e
    case One(_) =>
      FetchNothing(plan, next);
    case Two(_, n) =>
      assert c.data[c.pos + 1] == bytes[1] == n;
      if plan.operand == ByteOperand {
        FetchByte(plan, next);
      } else {
        FetchHighPage(plan, next);
      }
    case Three(_, high, low) =>
      assert c.data[c.pos + 1] == bytes[1] == high;
      assert c.data[c.pos + 2] == bytes[2] == low;
      FetchWord(plan, next);
  }

  /** Decode reads the encoding found at the cursor and nothing more. */
  lemma DecodeReads(e: Encoding, i: Instruction, c: Cursor)
    requires DecodesTo(e, i) && At(e, c)
    ensures Decode(c) == Success(Decoded(i, Cursor(c.data, c.pos + |e.Bytes()|)))
  {
    assert c.data[c.pos] == e.Bytes()[0] == e.op;
    Completed(e, i);
    var plan := Classify(e.op).value;
    DecodeFetches(c, plan);
    FetchReads(plan, e, i, c);
  }

  /** The encoding made of the `n` bytes at the cursor. */
  function Spelled(c: Cursor, n: nat): (e: Encoding)
    requires 1 <= n <= 3 && c.pos + n <= |c.data|
    ensures At(e, c) && |e.Bytes()| == n
  {
    if n == 1 then One(c.data[c.pos])
    else if n == 2 then Two(c.data[c.pos], c.data[c.pos + 1])
    else Three(c.data[c.pos], c.data[c.pos + 1], c.data[c.pos + 2])
  }

  /** Whatever Decode reads is an encoding of the instruction it returns. */
  lemma DecodeSpells(c: Cursor)
    requires Decode(c).Success?
    ensures var d := Decode(c).value;
      && c.pos + 1 <= d.next.pos <= c.pos + 3
      && DecodesTo(Spelled(c, d.next.pos - c.pos), d.instr)
  {
    var d := Decode(c).value;
    var plan := Classify(c.data[c.pos]).value;
    DecodeFetches(c, plan);
    var next := Cursor(c.data, c.pos + 1);
    var e := Spelled(c, d.next.pos - c.pos);
    match plan.operand {
      case NoOperand => FetchNothing(plan, next);
      case ByteOperand => FetchByte(plan, next);
      case HighPageOperand => FetchHighPage(plan, next);
      case WordOperand => FetchWord(plan, next);
    }
    assert Completes(plan, e, d.instr);
    Completed(e, d.instr);
  }

  /** Decoding then assembling gives back the bytes Decode read, unless
      they were one of the spellings the assembler does not write. */
  lemma DecodeThenEncode(c: Cursor)
    requires Decode(c).Success?
    ensures var d := Decode(c).value;
      var e := Spelled(c, d.next.pos - c.pos);
      && Encode(d.instr).Some?
      && (Canonical(e) ==> Encode(d.instr).value.Bytes() == c.data[c.pos .. d.next.pos])
  {
    var d := Decode(c).value;
    var e := Spelled(c, d.next.pos - c.pos);
    DecodeSpells(c);
    Inverse.DecodedReencodes(e, d.instr);
  }

  /** Assembling then decoding: the assembler's bytes, found at any
      position of any stream, decode to the instruction and leave the
      cursor just past them. */
  lemma EncodeThenDecode(i: Instruction, c: Cursor)
    requires Encode(i).Some? && At(Encode(i).value, c)
    ensures Decode(c) == Success(Decoded(i, Cursor(c.data, c.pos + |Encode(i).value.Bytes()|)))
  {
    Assembled.EncodeThenDecode(i);
    DecodeReads(Encode(i).value, i, c);
  }

  /** A two-byte immediate is read high byte first: the instruction's
      word or address is the word whose high byte is the first byte after
      the opcode and whose low byte is the second. */
  lemma WordImmediates(c: Cursor)
    requires c.pos + 3 <= |c.data| && Class(c.data[c.pos]) == Defined && TrailingBytes(c.data[c.pos]) == 2
    ensures Decode(c).Success? && Decode(c).value.next == Cursor(c.data, c.pos + 3)
    ensures var plan := Classify(c.data[c.pos]).value;
      Decode(c).value.instr == WithWord(plan.shape, FromBigEndian(c.data[c.pos + 1], c.data[c.pos + 2]))
    ensures Immediate(Decode(c).value.instr) == Some(FromBigEndian(c.data[c.pos + 1], c.data[c.pos + 2]))
    ensures Immediate(Decode(c).value.instr).value == c.data[c.pos + 1] as int * 256 + c.data[c.pos + 2] as int
  {
    WordPlan(c.data[c.pos]);
    DecodesWord(c, Classify(c.data[c.pos]).value);
  }

  /** The opcodes the table gives two trailing bytes read a word. */
  lemma WordPlan(op: u8)
    requires Class(op) == Defined && TrailingBytes(op) == 2
    ensures Classify(op).Success? && Classify(op).value.operand == WordOperand
  {
    ClassifyAsTable(op);
  }

  lemma DecodesWord(c: Cursor, plan: Plan)
    requires c.pos + 3 <= |c.data| && Classify(c.data[c.pos]) == Success(plan) && plan.operand == WordOperand
    ensures Decode(c) == Done(WithWord(plan.shape, FromBigEndian(c.data[c.pos + 1], c.data[c.pos + 2])), Cursor(c.data, c.pos + 3))
  {
    DecodeFetches(c, plan);
    FetchWord(plan, Cursor(c.data, c.pos + 1));
  }

  /** CALL 0x1234 is stored as 0xCD 0x12 0x34. */
  lemma CallExample()
    ensures Decode(Cursor([0xCD, 0x12, 0x34], 0)) == Success(Decoded(Call(0x1234), Cursor([0xCD, 0x12, 0x34], 3)))
  {
    var c := Cursor([0xCD, 0x12, 0x34], 0);
    CallOpcode();
    DecodeFetches(c, Plan(Call(0), WordOperand));
    FetchWord(Plan(Call(0), WordOperand), Cursor(c.data, 1));
  }

  /** 0xE0 and 0xF0 address page 0xFF00: the byte after the opcode is the
      low half of the address, so the address is at least 0xFF00. */
  lemma HighPageAddresses(c: Cursor)
    requires c.pos + 2 <= |c.data| && (c.data[c.pos] == 0xE0 || c.data[c.pos] == 0xF0)
    ensures Decode(c).Success? && Decode(c).value.next == Cursor(c.data, c.pos + 2)
    ensures var i := Decode(c).value.instr;
      && (if c.data[c.pos] == 0xE0 then i.StoreAccumulatorInMemory? else i.LoadAccumulatorFromMemory?)
      && 0xFF00 <= i.address
      && i.address % 0x100 == c.data[c.pos + 1] as int
  {
    var plan := Classify(c.data[c.pos]).value;
    if c.data[c.pos] == 0xE0 {
      HighPageStoreOpcode();
    } else {
      HighPageLoadOpcode();
    }
    DecodeFetches(c, plan);
    FetchHighPage(plan, Cursor(c.data, c.pos + 1));
  }
}

=== FILE: unsigned.dfy ===
/** Rust's `u8` and `u16` as ranges of the mathematical integers. The
    decoder's bit operations on opcodes are written with `/` and `%` by
    powers of two: `x >> 4` is `x / 16`, `x & 0x0F` is `x % 16`, and
    `x & 0xF0` is `x - x % 16`. */
module Unsigned {

  type u8 = x: int | 0 <= x < 0x100

  type u16 = x: int | 0 <= x < 0x1_0000

  /** The high four bits of a byte, shifted down. */
  function HighNibble(x: u8): (n: u8)
    ensures n < 0x10 && n * 16 <= x < n * 16 + 16
  {
    x / 16
  }

  /** The low four bits of a byte. */
  function LowNibble(x: u8): (n: u8)
    ensures n < 0x10 && x == HighNibble(x) * 16 + n
  {
    x % 16
  }
}
